=== FILE: README.md ===
# ComfyUI Telegram bot — a Dafny model of its core

This project models the core of a Telegram bot that generates images with a ComfyUI server. It covers:

- **Per-user concurrency limiter.** A user may have one generation in flight, under an optional global cap.
- **Workflow template.** Loading the template, and substituting the user's prompt into it as an escaped JSON string body.
- **ComfyUI client.** Queueing a prompt, reading the history, choosing an output image and downloading it, plus the health check.
- **WebSocket execution monitor.** A fold over the events the select loop receives.
- **Error taxonomy.** User-facing errors that survive `%w` wrapping.
- **Access decision.** The static list, the admin, and the approval store.
- **Telegram handlers:**
  - private and group prompts;
  - parsing a bot mention;
  - the settings menu callbacks;
  - access requests from strangers;
  - the admin's approve and reject buttons;
  - `/revoke` and `/revokegroup`.
- **Storage.** The per-user settings store and the admin approval store, kept as plain tables.
- **Configuration validation.**

Everything is modelled with pure functions over immutable datatypes. The outside world enters only as parameters:

- **HTTP replies.** `Client.HttpReply` is either a status and body, or a transport error.
- **WebSocket events.** `Monitor.Event`.
- **JSON parsing.** A function `string -> bool` or `string -> Result<…>`.
- **Database failures.** An `Option<string>` per statement.
- **Telegram sends.** The message id sent, where 0 means the send failed.
- **Clock.** An `Instant` value.
- **Image generation and processing.** Function parameters of the handler models.

Go's `strings` and `strconv` functions that the core relies on are modelled in `GoStrings` and `GoStrconv`. `encoding/json`'s string escaping is modelled in `JsonString`, together with a JSON string decoder (section 7 of RFC 8259). That decoder is the partner against which the escaping is proved to round-trip.

## Model

| member | source | states |
|---|---|---|
| Limiter.NewUserLimiter | internal/limiter/limiter.go:17-22 | a new limiter has no active users, keeps the given global cap, and satisfies the counting invariant (count = number of active users) |
| Limiter.TryAcquire | internal/limiter/limiter.go:26-43 | a slot is granted exactly when the user is not already active and the global cap is not reached (a cap of 0 or less never binds); a grant adds exactly that user, a refusal changes nothing, and the invariant is kept |
| Limiter.Release | internal/limiter/limiter.go:46-54 | releasing removes exactly that user and decrements the count; releasing an inactive user changes nothing; the user is inactive afterwards and the count never goes negative |
| Limiter.ActiveCount | internal/limiter/limiter.go:57-61 | the reported count is the number of active users and never exceeds a positive cap |
| Limiter.IsUserActive | internal/limiter/limiter.go:64-69 | a user is reported active exactly when they hold a slot |
| Limiter.ReleaseUndoesAcquire | internal/limiter/limiter.go:26-54 | releasing right after a granted acquire restores the limiter exactly |
| Limiter.RunKeepsInvariant | internal/limiter/limiter.go:17-54 | along any sequence of acquires and releases from a new limiter, the count matches the active users and stays within a positive cap |
| Limiter.RunPreservesValid | internal/limiter/limiter.go:26-54 | any sequence of acquires and releases keeps the counting invariant |
| Limiter.RunKeepsCap | internal/limiter/limiter.go:26-54 | the global cap never changes |
| Limiter.UncappedAdmitsIdleUser | internal/limiter/limiter.go:36-38 | with a cap of 0 or less, an idle user is always granted a slot |
| GoStrings.TrimPrefix | internal/telegram/handlers.go:297-301 | when the prefix is present, the prefix followed by the result gives the input back; otherwise the input is unchanged |
| GoStrings.Index | internal/telegram/handlers.go:642-647 | the index is non-negative exactly when the pattern occurs, and then it is the first occurrence |
| GoStrings.JoinSplit | internal/comfyui/workflow.go:69 | joining the pieces of a split with the same separator gives the text back |
| GoStrings.SplitPiecesAvoidSep | internal/comfyui/workflow.go:69 | no piece of a split contains the separator |
| GoStrings.ReplaceAllIsJoinOfSplit | internal/comfyui/workflow.go:69 | replacing every occurrence equals splitting on the pattern and joining with the replacement |
| GoStrings.ReplaceAllWithSelf | internal/comfyui/workflow.go:69 | replacing a pattern with itself changes nothing |
| GoStrings.ReplaceAllAbsent | internal/comfyui/workflow.go:69 | replacing a pattern that does not occur changes nothing |
| GoStrings.TrimSpace | internal/telegram/handlers.go:176 | the result is a contiguous slice of the input that neither starts nor ends with white space |
| GoStrings.ToLower | internal/telegram/handlers.go:642-647 | lower-casing keeps the length and maps each character independently |
| GoStrconv.FormatInt | internal/telegram/handlers.go:488-489 | the decimal rendering is digits, with a leading minus sign exactly for negative numbers |
| GoStrconv.DigitsOfFormatNat | internal/telegram/handlers.go:488-489 | reading back the digits of a rendered natural number gives the number |
| GoStrconv.ParseFormatRoundTrip | internal/telegram/handlers.go:517-522 | parsing the decimal rendering of any 64-bit id gives the id back |
| JsonString.EscapeBody | internal/comfyui/workflow.go:81-96 | no character of the escaped text is a control character, `<`, `>`, `&`, U+2028 or U+2029 (those appear only as `\u` escapes), and the text is never shorter than the input |
| JsonString.MarshalString | internal/comfyui/workflow.go:83-84 | marshalling a string always succeeds and yields a quoted literal |
| JsonString.SanitizeForJson | internal/comfyui/workflow.go:81-96 | the text substituted for the placeholder is the body of the marshalled string, with the surrounding quotes stripped |
| JsonString.SanitizeRoundTrip | internal/comfyui/workflow.go:81-96 | decoding the substituted text as a JSON string body gives exactly the user's prompt, for every prompt |
| JsonString.UnescapeEscapeChar | internal/comfyui/workflow.go:81-96 | decoding one escaped character followed by any text yields that character followed by the decoding of the text |
| JsonString.EscapeBodyConcat | internal/comfyui/workflow.go:81-96 | escaping works character by character, so it distributes over concatenation |
| JsonString.EscapeBodyPlain | internal/comfyui/workflow.go:81-96 | text without characters that need escaping passes through unchanged |
| JsonString.FallbackIsPerCharacter | internal/comfyui/workflow.go:84-92 | the five successive replacement passes of the fallback escaper (backslash first) amount to escaping each character independently |
| JsonString.FallbackRoundTrip | internal/comfyui/workflow.go:84-92 | for text without raw control characters other than newline, carriage return and tab, the fallback escaper's output also decodes back to the input |
| Workflow.Load | internal/comfyui/workflow.go:34-56 | a template is replaced exactly when the file reads, parses as a JSON object and contains the placeholder; a read failure, invalid JSON and a missing placeholder (exactly when the parsed file lacks it) are reported as such and keep the old template |
| Workflow.NewWorkflowManager | internal/comfyui/workflow.go:21-31 | a manager is created exactly when the first load succeeds, and then holds the path and the file's text, which parses and holds the placeholder; otherwise the first load's error is returned |
| Workflow.PrepareWorkflow | internal/comfyui/workflow.go:59-78 | the job is the template with every placeholder replaced by the escaped prompt, returned exactly when that text parses; otherwise the invalid-JSON error |
| Workflow.PreparedPiecesAndGaps | internal/comfyui/workflow.go:59-96 | the template's text outside the placeholders survives unchanged, and each placeholder is replaced by text that decodes to exactly the prompt |
| Workflow.PlaceholderPromptSurvives | internal/comfyui/workflow.go:69 | submitting the placeholder itself as a prompt gives the template back |
| Workflow.FailedReloadKeepsPreparing | internal/comfyui/workflow.go:99-101 | after a failed reload, jobs are prepared exactly as before |
| AppErrors.Chain | internal/errors/errors.go:18-20 | the unwrap chain starts at the error itself |
| AppErrors.FirstUser | internal/errors/errors.go:71-78 | the position found is the first user error on the unwrap chain, or the chain's length when there is none |
| AppErrors.GetUserMessage | internal/errors/errors.go:71-78 | the message is that of the first user error on the chain, or the default text when there is none |
| AppErrors.IsRetryable | internal/errors/errors.go:81-87 | the flag is that of the first user error on the chain, and false when there is none |
| AppErrors.Wrap | internal/errors/errors.go:62-68 | wrapping keeps the technical message, unwraps to the cause, and shows the given user text and retry flag |
| AppErrors.TechnicalErrorsAreOpaque | internal/errors/errors.go:71-87 | an error chain without a user error shows the default text and is not retryable |
| AppErrors.WrappingKeepsUserView | internal/errors/errors.go:71-87 | `%w` wrapping keeps the user text and the retry flag, and only prefixes the technical message |
| AppErrors.PredefinedError | internal/errors/errors.go:23-59 | every predefined error is a user error around a plain technical error |
| AppErrors.PredefinedUserView | internal/errors/errors.go:23-87 | however often a predefined error is wrapped, its user text comes through, and it is retryable exactly for unavailable, timeout and rejected |
| AppErrors.WrapAllKeepsUserView | internal/errors/errors.go:71-87 | any number of `%w` wrappings keep the user text and the retry flag |
| Monitor.ConnectURL | internal/comfyui/websocket.go:41 | the dialled URL is the base URL plus the client-id query, and the client id can be read back off it |
| Monitor.HandleEvent | internal/comfyui/websocket.go:88-135 | the loop stops exactly on a terminal event: the own prompt's `executing` with no node completes; any `execution_error` fails; a failed ping fails with its cause; a read error fails as an unexpected closure when the close was normal and with its cause otherwise; a finished context cancels with the context's error. A progress report is made exactly for the own prompt's `progress` when there is a callback |
| Monitor.Reports | internal/comfyui/websocket.go:122-130 | without a callback nothing is reported, and there is at most one report per event |
| Monitor.Await | internal/comfyui/websocket.go:88-135 | the wait ends at the first terminal event, with that event's outcome and the reports of the events before it; without a terminal event it keeps waiting and has reported everything seen |
| Monitor.WaitForCompletion | internal/comfyui/websocket.go:40-137 | a failed dial fails before any event is seen; completion means the prompt's completion event arrived |
| Monitor.OutcomeError | internal/comfyui/websocket.go:45-133 | only completion returns no error; the others are technical errors: the execution-error payload, dial, ping and read causes after their prefixes, "websocket closed unexpectedly" for a normal closure, and the context's own "context canceled" or "context deadline exceeded" |
| Monitor.LaterEventsIrrelevant | internal/comfyui/websocket.go:105-135 | once the wait has ended, later events change nothing |
| Monitor.InertEventsIgnored | internal/comfyui/websocket.go:94-135 | an event that neither stops the loop nor reports (ping ticks, skipped frames, other prompts' events) can be removed without changing the outcome or the reports |
| Monitor.ExecutingWithNodeContinues | internal/comfyui/websocket.go:110-121 | an `executing` message for the own prompt that names a node does not end the wait |
| Monitor.ExecutionErrorForAnyPrompt | internal/comfyui/websocket.go:132-133 | an `execution_error` ends the wait whatever prompt it is about |
| Client.Cause | internal/comfyui/client.go:120-131 | step failures are technical errors whose message is the step's prefix and the cause |
| Client.QueuePrompt | internal/comfyui/client.go:92-134 | a prompt id comes back exactly for a 200 reply with a readable body that decodes; an invalid request, a failed send, an unreadable body, a non-200 status, an undecodable body and a reported error each give their own technical error with its prefix and cause |
| Client.GetHistory | internal/comfyui/client.go:137-157 | the history comes back exactly when the body reads and decodes, whatever the status |
| Client.GetHistoryIgnoresStatus | internal/comfyui/client.go:137-157 | the HTTP status of the history reply does not affect the result |
| Client.ViewQuery | internal/comfyui/client.go:161-168 | the view query always carries the file name, and carries the subfolder and type exactly when they are non-empty |
| Client.GetImage | internal/comfyui/client.go:160-188 | the image bytes come back exactly for a 200 reply with a readable body; otherwise a technical error names the status or the read failure |
| Client.CheckHealth | internal/comfyui/client.go:191-211 | the server is healthy exactly when it answers 200; transport errors are passed through unwrapped |
| Client.SelectImage | internal/comfyui/client.go:81-86 | the image chosen is the first image of the first node, in iteration order, that has one; none only when no node has an image |
| Client.SelectImageFindsAny | internal/comfyui/client.go:81-88 | over any iteration order of the outputs, no image is found exactly when no node has one |
| Client.AnyImageNodeMayBeChosen | internal/comfyui/client.go:81-86 | any node with an image may be the one chosen, since map iteration order is unspecified |
| Client.GenerateImage | internal/comfyui/client.go:45-89 | every failure is a technical error; an invalid job fails at preparation, carrying the parser's message; the prepared job is posted under the monitor's client id, the monitor's URL is dialled, the history of the returned prompt id is requested, and the first image found is the one whose file name, subfolder and type are requested from `/view`; an image is returned only from that download |
| Client.AfterQueued | internal/comfyui/client.go:64-88 | after queueing, the monitor is dialled first; the history is requested only for a completed job |
| Client.AfterCompletion | internal/comfyui/client.go:69-88 | the history, the entry and an image are each needed before the download, which asks for exactly the chosen image |
| Client.ListedImageIsDownloaded | internal/comfyui/client.go:75-86 | over a genuine iteration order, a completed job whose history entry lists an image is always downloaded |
| Client.QueuedAndWatchedUnderOneId | internal/comfyui/client.go:47-56 | the client id posted with the job is the one the dialled WebSocket URL carries |
| Client.GenerateImageSucceedsIff | internal/comfyui/client.go:45-89 | an image is returned exactly when every step succeeds |
| Client.GenerationErrorsAreOpaque | internal/comfyui/client.go:45-89 | a failed generation shows users the default text and is never retryable |
| Client.QueueFailureShortCircuits | internal/comfyui/client.go:56-59 | when preparing or queueing fails, nothing the server would do later matters |
| Client.DownloadOnlyAfterLookup | internal/comfyui/client.go:75-88 | the image endpoint is not consulted unless the history lookup found an image |
| Client.LoadErrorToGo | internal/comfyui/workflow.go:34-56 | template load failures become technical errors with the load prefix |
| Settings.Validate | internal/settings/store.go:16-21 | settings are invalid, with the at-least-one error, exactly when both formats are off |
| Settings.ValidateIgnoresUserID | internal/settings/store.go:16-21 | validity depends only on the two format flags |
| Settings.Get | internal/settings/sqlite.go:53-72 | a stored row is returned as saved; a user without a row gets the default settings under their own id; a database failure is an error |
| Settings.Save | internal/settings/sqlite.go:75-92 | invalid settings are refused before touching the store; otherwise the row is upserted unless the database fails, and nothing else changes |
| Settings.GetAfterSave | internal/settings/sqlite.go:53-92 | after a successful save, reading gives back what was saved and other users' settings are unchanged |
| Settings.SaveIdempotent | internal/settings/sqlite.go:75-92 | saving the same settings twice equals saving once |
| Settings.SavePreservesValidRows | internal/settings/sqlite.go:75-92 | saving never stores a row with both formats off |
| Settings.UnvalidatedDefaultReachesUsers | internal/settings/store.go:34-37 | defaults with both formats off are handed to users without a row unvalidated |
| Config.Validate | internal/config/config.go:86-100 | the configuration is valid exactly when the token is set, some users are allowed, the workflow path is set and the JPEG quality is within 1..100; the first failing check in that order is the error reported |
| Config.ValidateReadsFourFields | internal/config/config.go:86-100 | validation depends only on those four settings |
| AdminStore.IsApproved | internal/admin/sqlite.go:100-114 | a user is approved exactly when an approval row exists; a database failure is an error |
| AdminStore.AddApproved | internal/admin/sqlite.go:117-131 | the approval row is upserted and no other row of either table changes; a failure changes nothing |
| AdminStore.RemoveApproved | internal/admin/sqlite.go:134-140 | only that approval row is deleted; deleting a missing row is not an error |
| AdminStore.ToRecord | internal/admin/sqlite.go:143-172 | a row read back keeps its fields, and a NULL admin message id reads as 0 |
| AdminStore.GetPendingAsWritten | internal/admin/sqlite.go:143-172 | the lookup as written fails for every request whose admin message id is NULL |
| AdminStore.GetPending | internal/admin/sqlite.go:143-172 | the lookup finds a request exactly when one is stored and returns it field for field; it fails only when the database does |
| AdminStore.AddPending | internal/admin/sqlite.go:175-190 | the request is upserted with the new details; a re-added request keeps its notification fields; nothing else changes |
| AdminStore.RemovePending | internal/admin/sqlite.go:193-199 | only that request is deleted |
| AdminStore.UpdatePendingNotified | internal/admin/sqlite.go:202-213 | the request's notification time and admin message id are recorded and nothing else changes |
| AdminStore.ReAddKeepsNotified | internal/admin/sqlite.go:175-213 | re-adding a request that was notified keeps it marked as notified |
| AdminStore.UnnotifiedRequestUnreadableAsWritten | internal/admin/sqlite.go:157 | as written, a freshly added request cannot be read back |
| AdminStore.UnnotifiedRequestReadable | internal/admin/sqlite.go:143-190 | with a nullable read, a freshly added request reads back as un-notified with admin message id 0 |
| AdminStore.LookupsAgreeAfterNotify | internal/admin/sqlite.go:143-213 | once notified, the lookup as written and the corrected one agree |
| Access.NewWhitelist | internal/telegram/middleware.go:20-31 | exactly the listed ids are statically allowed |
| Access.AdminUserID | internal/telegram/middleware.go:64-66 | the id returned is the admin's, the only user who is admin; zero means no user is |
| Access.IsAllowed | internal/telegram/middleware.go:34-56 | a user is allowed exactly when statically listed, the configured admin, or approved in the store; a failed lookup or a missing store denies |
| Access.Sender | internal/telegram/middleware.go:70-93 | the sender is the message's sender when there is one, else the callback's, else none |
| Access.CheckAccess | internal/telegram/middleware.go:70-93 | the verdict is the access decision for the sender's id; an update without a sender is refused with id 0 |
| Access.StaticUserIgnoresStore | internal/telegram/middleware.go:36-38 | a statically listed user is allowed whatever the store holds or does |
| Access.ZeroIsNeverAdmin | internal/telegram/middleware.go:59-61 | id 0 is never the admin |
| Access.ApprovalDecidesAccess | internal/telegram/middleware.go:46-55 | for anyone else, adding an approval lets them in; removing it, a failed lookup or a missing store shuts them out |
| Access.MessageSenderTakesPrecedence | internal/telegram/middleware.go:74-82 | when both a message and a callback carry a sender, the message's sender is judged |
| Handlers.Truncate | internal/telegram/handlers.go:404-409 | text within the limit is kept as is; longer text is cut to exactly the limit and ends in "..." after a prefix of the original |
| Handlers.TruncateIdempotent | internal/telegram/handlers.go:404-409 | truncating twice equals truncating once |
| Handlers.Caption | internal/telegram/handlers.go:243-252 | the photo caption starts with "Prompt: ", shows a short prompt whole and is bounded in length |
| Handlers.CaptionIsNotPlain | internal/telegram/handlers.go:243-269 | the photo's caption is never the original file's caption |
| Handlers.FindMention | internal/telegram/handlers.go:650-671 | the entity found is the first mention entity naming the bot, ignoring case; none when no entity names it |
| Handlers.JoinAround | internal/telegram/handlers.go:656-668 | the text before and after the mention are joined by one space when both are non-empty |
| Handlers.FoldedAtIffLowerOccurs | internal/telegram/handlers.go:642-647 | a case-insensitive match at a position is an occurrence in the lower-cased texts |
| Handlers.ContainsIffFolded | internal/telegram/handlers.go:642-647 | the lower-cased text contains the lower-cased handle exactly when the handle occurs somewhere, ignoring case |
| Handlers.FallbackPrompt | internal/telegram/handlers.go:674-680 | the fallback prompt is cut around the first case-insensitive occurrence of the handle and is trimmed |
| Handlers.ParseBotMention | internal/telegram/handlers.go:637-683 | the bot counts as mentioned exactly when its handle occurs in the text, ignoring case; the prompt is then the trimmed text around the first mention entity naming the bot, else around the first occurrence; unmentioned messages give an empty prompt |
| Handlers.RunPrompt | internal/telegram/handlers.go:175-228 | prompts shorter than 3 characters after trimming are refused with a hint; a busy user or a full limiter gets the in-progress message; otherwise the user holds a slot, generation errors show their user text, a processing failure sends its own message and leaves the status message in place, and files are sent only for a processed image |
| Handlers.SecondRequestRefused | internal/telegram/handlers.go:184-188 | while a user's generation runs, their next prompt is refused |
| Handlers.Deliveries | internal/telegram/handlers.go:231-269 | the compressed photo is sent exactly when compressed output is on or settings failed to load, and the original document exactly when original output is on or loading failed; the photo comes first |
| Handlers.ValidSettingsDeliverAFile | internal/telegram/handlers.go:231-269 | valid settings always deliver at least one file |
| Handlers.AllOffDefaultsDeliverNothing | internal/telegram/handlers.go:231-269 | a user without a row, under all-off defaults, gets no file |
| Handlers.HandlePrompt | internal/telegram/handlers.go:175-270 | for a private prompt, a photo or document is sent exactly as the delivery rules say, and only when an image was produced |
| Handlers.FilesAfterStatus | internal/telegram/handlers.go:226-269 | the status messages before delivery do not change which files are sent |
| Handlers.HandleGroupPrompt | internal/telegram/handlers.go:686-754 | groups get a photo exactly when an image was produced, never a document, and the photo's caption is the prompt's caption |
| Handlers.Toggle | internal/telegram/handlers.go:311-319 | a known action flips exactly its own flag; unknown actions are rejected |
| Handlers.HandleSettingsCallback | internal/telegram/handlers.go:292-349 | settings are saved exactly when the data is a settings action, loading works, the action is known, the toggled settings keep a format on and the save succeeds; every other answer leaves the store unchanged |
| Handlers.ToggleTwiceRestores | internal/telegram/handlers.go:292-349 | pressing the same toggle twice restores the user's settings |
| Handlers.SettingsCallbackKeepsRowsValid | internal/telegram/handlers.go:322-332 | no callback can store a row with both formats off |
| Approval.Fields | internal/telegram/handlers.go:511-516 | splitting the button data always gives at least one field |
| Approval.ParseCallbackData | internal/telegram/handlers.go:511-523 | the data is rejected for shape exactly when it does not split into two fields, and accepted exactly when it does and the second field parses as an int64; then the action is the first field and the id is that parse |
| Approval.SplitAtSep | internal/telegram/handlers.go:511 | splitting two separator-free parts joined by the separator gives the parts back |
| Approval.FormatIntHasNoColon | internal/telegram/handlers.go:488-489 | a rendered id never contains the separator |
| Approval.ButtonDataRoundTrip | internal/telegram/handlers.go:488-522 | the data of an approve or reject button parses back to its action and id |
| Approval.ParsedDataShape | internal/telegram/handlers.go:511-522 | data that parses is the prefix, the action, the separator and the id's text |
| Approval.DecideCallback | internal/telegram/handlers.go:505-592 | with the nullable request lookup: only the admin decides; approving needs the request and records the approval (name, time, admin) before dropping the request; rejecting only drops it; no other row changes and other answers change nothing |
| Approval.HandleAdminCallback | internal/telegram/handlers.go:505-592 | the requester's chat is told on approve and on reject, and only then |
| Approval.HandleAdminGroupCallback | internal/telegram/handlers.go:841-921 | the group is told on approve only |
| Approval.DecidedOnce | internal/telegram/handlers.go:525-535 | a decided request cannot be decided again: pressing a button for it again finds nothing and changes nothing |
| Approval.DecideRequest | internal/telegram/handlers.go:412-460 | a stranger's request reaches the admin exactly when an admin and a store exist, the lookup works, the request is new (and inserted) or not yet notified; an already-notified request is told it is pending; a successful send is recorded |
| Approval.HandleUnauthorizedUser | internal/telegram/handlers.go:412-460 | without an admin or a store, or when the lookup fails, the stranger is refused and nothing changes; asking the admin means the request is stored |
| Approval.HandleUnauthorizedUserAsWritten | internal/telegram/handlers.go:412-460 | as written, a stored request not yet notified is refused and the admin is not asked |
| Approval.DecideCallbackAsWritten | internal/telegram/handlers.go:525-530 | as written, a request whose `admin_msg_id` is NULL answers "Failed to get request" and changes nothing; any other request is decided as with the nullable lookup |
| Approval.UnrecordedRequestUndecidableAsWritten | internal/telegram/handlers.go:451-457 | as written, when the admin's notification could not be recorded, the Approve button for that request fails, where the nullable lookup approves it |
| Approval.HandleUnauthorizedGroup | internal/telegram/handlers.go:757-804 | with the nullable request lookup: only a message mentioning the bot in a group with an admin configured can start a request, and asking the admin means it is stored |
| Approval.HandleUnauthorizedGroupAsWritten | internal/telegram/handlers.go:773-777 | as written, a stored group request not yet notified is dropped silently and the admin is not asked |
| Approval.GroupFailedNotificationRetried | internal/telegram/handlers.go:780-803 | when sending to the admin about a group failed, the group's next mention asks the admin again |
| Approval.GroupRenotifyUnreachableAsWritten | internal/telegram/handlers.go:773-777 | as written, after a failed send for a new group request, the group's later mentions never reach the admin |
| Approval.AdminAskedOnce | internal/telegram/handlers.go:429-432 | after a sent and recorded notification, the stranger's next message is told "pending" and the admin is not asked again |
| Approval.FailedNotificationRetried | internal/telegram/handlers.go:433-457 | when sending to the admin failed, the stranger's next message asks the admin again |
| Approval.RenotifyUnreachableAsWritten | internal/telegram/handlers.go:422-426 | as written, after a failed send for a new request, every later message of that stranger is refused and the admin is never asked again |
| Approval.HandleRevoke | internal/telegram/handlers.go:603-633 | only the admin may revoke; the argument is trimmed and parsed as a 64-bit id whose approval is deleted, every other approval and every pending request kept as it was; nothing changes on any other answer |
| Approval.ApproveThenRevoke | internal/telegram/handlers.go:412-633 | end to end: a stranger's forwarded request, approved by the admin's button, lets them in, and revoking their rendered id shuts them out again |
| Approval.TrimmedDigits | internal/telegram/handlers.go:619 | a rendered id carries no white space for the revoke command's trim to remove |

## Left out

- Transport. HTTP requests, WebSocket dialling, ping frames, read deadlines, and the request-body marshalling error (a marshal of a plain map cannot fail) are left out. Their results enter as `HttpReply` values and `Monitor.Event` sequences.
- Goroutines, mutexes and contexts are left out. The limiter's mutex only serialises calls, which the functional model does already. Cancellation appears as a `ContextDone` event.
- JSON parsing of workflows and responses is an oracle parameter: a full JSON parser is outside the core.
- The image processor (JPEG compression) is a `process` parameter that says only whether it succeeded: image codecs are out of scope.
- The SQL engine is replaced by tables held as maps. SQL errors are an `Option<string>` per statement.
- `UpdatePendingNotified` reads the clock itself. It is given the same `now` as the request, because time is a parameter.
- Viper configuration loading, the environment and defaults are left out. Only `Validate` is modelled.
- The UUID client id is a parameter, because randomness is not modelled.
- Telegram rendering is left out: message texts, keyboards, the typing action, editing the admin's message, and `/start`, `/help`, `/status` and `/settings` output. Only which messages and files are sent, and their captions, are modelled.
- The routing in `HandleUpdate` (internal/telegram/handlers.go:57-117) is left out. It calls `CheckAccess` with four results while internal/telegram/middleware.go:70 declares two. The routing also dispatches to rendering-only handlers.
- Chat texts are modelled as ASCII. Telegram entity offsets count UTF-16 code units while the Go code slices UTF-8 bytes with them, so the two agree only for ASCII text; the model uses them as indices into the text.
- `strings.TrimSpace`, the `len(prompt) < 3` check and `truncate` are modelled on ASCII characters: Unicode white space and multi-byte characters are out of scope.
- `strings.ToLower` can change the byte length of non-ASCII text. The model lower-cases ASCII letters only, so indices stay aligned.
- JsonString.EscapeChar follows `json.Marshal` as of Go 1.22, which writes backspace and form feed as `\b` and `\f`; older Go releases write `\u0008` and `\u000c`, which the model does not cover.
- Workflow text is a sequence of Unicode scalar values, so invalid UTF-8 in a prompt, which `json.Marshal` would replace with U+FFFD, cannot arise in the model.
- URL query encoding of the view request is left out. `Client.ViewQuery` models its parameters as a map.
- A nil `From` on a message or callback, and a nil admin store in the admin callbacks, are left out: the Go code dereferences them and would panic.
- Handlers.ParseBotMention: requires every mention entity to lie within the text. Telegram guarantees this, and the Go code would panic on slicing otherwise.
- Client.GenerateImage: a trace without a terminal event ends as `StillWaiting`. The Go loop would keep waiting for more events or the context.
- Monitor.Await: it has no separate timeout outcome. An expired read deadline surfaces as the read error it causes.
- Client.GenerationErrorsAreOpaque: generation failures are never wrapped in a user error, so users always see the default message. The intended taxonomy of predefined user errors is not applied on this path in the code.
- Client.GenerateImage: `order`, the order in which ranging over the entry's outputs visits them, is a parameter and is not constrained; a sequence that is not an iteration order (an empty one, say) ends at "no output image found" although the entry has images. Client.ListedImageIsDownloaded states the result over genuine iteration orders.
- DecideCallback: it reads the request with the nullable lookup, the corrected side of the finding below. Approval.DecideCallbackAsWritten models the handlers as written, where a request with a NULL `admin_msg_id` answers "Failed to get request".
- HandleUnauthorizedGroup: it reads the request with the nullable lookup, the corrected side of the finding below. Approval.HandleUnauthorizedGroupAsWritten models the handler as written, where a group whose notification failed is never asked about again.
- Client.GetHistory: the HTTP status is not checked, following the code.
- Settings.UnvalidatedDefaultReachesUsers: the configured defaults are not validated before users receive them, following the code.
- Monitor.WaitForCompletion: the WebSocket is dialled after the prompt is queued, following the code's order in `GenerateImage`.

## Findings

| source | as written | input that shows it | evidently intended | confidence | as-written member | corrected member |
|---|---|---|---|---|---|---|
| internal/admin/sqlite.go:157 | `GetPending` scans the nullable `admin_msg_id` column into a plain `int`. `database/sql` then fails with "converting NULL to int is unsupported" for every request whose admin notification was never recorded. The same pattern occurs in `GetPendingGroup` (internal/admin/sqlite.go:276). | A stranger writes for the first time, and sending the admin's notification fails (`notifyAdmin` returns 0), so `admin_msg_id` stays NULL. On the stranger's next message, the lookup fails and the stranger is refused. The re-notify branch at internal/telegram/handlers.go:433-457 is never reached, and the admin is never asked. Groups are likewise never asked about again. When the send succeeds but recording it fails, the admin's Approve button answers "Failed to get request". | Read `admin_msg_id` as nullable, with NULL meaning 0, so that an un-notified request is found and re-sent to the admin. | not executed | AdminStore.GetPendingAsWritten, AdminStore.UnnotifiedRequestUnreadableAsWritten, Approval.RenotifyUnreachableAsWritten, Approval.GroupRenotifyUnreachableAsWritten, Approval.UnrecordedRequestUndecidableAsWritten | AdminStore.GetPending, AdminStore.UnnotifiedRequestReadable, Approval.FailedNotificationRetried, Approval.GroupFailedNotificationRetried, Approval.DecideCallback |

=== FILE: access.dfy ===
/** The access decision: who may use the bot. A user is let in by the static
    list from the configuration, by being the configured admin, or by an approval
    row in the admin store; the store lookup is consulted last and a failing
    lookup denies. Also the Telegram update shapes the decision reads. */
module Access {
  import opened Common
  import AdminStore

  /** A Telegram account: its id and username. */
  datatype User = User(id: Int64, userName: string, firstName: string)

  /** A message entity (a mention, a command, ...) as an offset and a length into the text. */
  datatype Entity = Entity(typ: string, offset: int, length: int)

  /** The parts of a Telegram message the bot reads. `from` is absent for
      channel posts. */
  datatype Message = Message(from: Option<User>, chatID: Int64, chatTitle: string,
                             text: string, entities: seq<Entity>)

  /** An inline-button press: who pressed it and the button's data. */
  datatype CallbackQuery = CallbackQuery(from: Option<User>, data: string)

  /** An update carries a message, a callback query, both or neither. */
  datatype Update = Update(message: Option<Message>, callbackQuery: Option<CallbackQuery>)

  /** `Whitelist`: the static ids, the optional approval store (its user
      tables) and the admin id, where 0 means no admin is configured. */
  datatype Whitelist = Whitelist(staticAllowed: set<Int64>,
                                 store: Option<AdminStore.Tables<AdminStore.UserInfo>>,
                                 adminUserID: Int64)

  /** `NewWhitelist`: the static list becomes a set. */
  function NewWhitelist(userIDs: seq<Int64>, store: Option<AdminStore.Tables<AdminStore.UserInfo>>,
                        adminUserID: Int64): (w: Whitelist)
    ensures forall id :: id in w.staticAllowed <==> id in userIDs
    ensures w.store == store && w.adminUserID == adminUserID
  {
    Whitelist((set id | id in userIDs), store, adminUserID)
  }

  /** `IsAdmin`: only a configured (non-zero) admin id matches. */
  predicate IsAdmin(w: Whitelist, userID: Int64)
  {
    w.adminUserID != 0 && userID == w.adminUserID
  }

  /** `AdminUserID`. */
  function AdminUserID(w: Whitelist): (id: Int64)
    ensures id != 0 <==> exists u :: IsAdmin(w, u)
    ensures id != 0 ==> IsAdmin(w, id)
    ensures forall u :: IsAdmin(w, u) ==> u == id
  {
    assert w.adminUserID != 0 ==> IsAdmin(w, w.adminUserID);
    w.adminUserID
  }

  /** `IsAllowed`: the static list first, then the admin, then the store; a
      failing lookup (`dbErr`) or a missing store denies. */
  function IsAllowed(w: Whitelist, userID: Int64, dbErr: Option<string>): (allowed: bool)
    ensures userID in w.staticAllowed ==> allowed
    ensures IsAdmin(w, userID) ==> allowed
    ensures allowed <==> userID in w.staticAllowed || IsAdmin(w, userID)
                         || (w.store.Some? && AdminStore.IsApproved(w.store.value, userID, dbErr) == Ok(true))
  {
    if userID in w.staticAllowed then true
    else if userID == w.adminUserID && w.adminUserID != 0 then true
    else if w.store.Some? then
      match AdminStore.IsApproved(w.store.value, userID, dbErr)
      case Err(_) => false
      case Ok(approved) => approved
    else false
  }

  /** The account an update comes from: the message's sender, else the callback's. */
  function Sender(u: Update): (s: Option<User>)
    ensures s.Some? ==> (u.message.Some? && u.message.value.from == s)
                        || (u.callbackQuery.Some? && u.callbackQuery.value.from == s)
    ensures s.None? <==> (u.message.None? || u.message.value.from.None?)
                         && (u.callbackQuery.None? || u.callbackQuery.value.from.None?)
    ensures u.message.Some? && u.message.value.from.Some? ==> s == u.message.value.from
  {
    if u.message.Some? && u.message.value.from.Some? then u.message.value.from
    else if u.callbackQuery.Some? && u.callbackQuery.value.from.Some? then u.callbackQuery.value.from
    else None
  }

  /** `CheckAccess`: the sender's id and the access verdict for it; an update
      without a sender is refused with id 0. */
  function CheckAccess(w: Whitelist, u: Update, dbErr: Option<string>): (r: (Int64, bool))
    ensures Sender(u).None? ==> r == (0, false)
    ensures Sender(u).Some? ==> r.0 == Sender(u).value.id
    ensures r.1 <==> Sender(u).Some? && IsAllowed(w, r.0, dbErr)
  {
    if u.message.Some? && u.message.value.from.Some? then
      var id := u.message.value.from.value.id;
      (id, IsAllowed(w, id, dbErr))
    else if u.callbackQuery.Some? && u.callbackQuery.value.from.Some? then
      var id := u.callbackQuery.value.from.value.id;
      (id, IsAllowed(w, id, dbErr))
    else (0, false)
  }

  /** A user on the static list is let in whatever the store holds or does,
      including when it fails or is absent. */
  lemma StaticUserIgnoresStore(w: Whitelist, store: Option<AdminStore.Tables<AdminStore.UserInfo>>,
                               userID: Int64, dbErr: Option<string>)
    requires userID in w.staticAllowed
    ensures IsAllowed(w.(store := store), userID, dbErr)
  {
  }

  /** Id 0 is never the admin, whatever the configuration, so an unconfigured
      admin id cannot open the gate. */
  lemma ZeroIsNeverAdmin(w: Whitelist)
    ensures !IsAdmin(w, 0)
    ensures 0 !in w.staticAllowed && w.store.None? ==> !IsAllowed(w, 0, None)
  {
  }

  /** Outside the static list and the admin, the verdict is the store's: an
      approval written by `AddApproved` lets the user in, one removed by
      `RemoveApproved` shuts them out again. */
  lemma ApprovalDecidesAccess(w: Whitelist, t: AdminStore.Tables<AdminStore.UserInfo>, userID: Int64,
                              a: AdminStore.Approval, cause: string)
    requires userID !in w.staticAllowed && !IsAdmin(w, userID)
    ensures IsAllowed(w.(store := Some(AdminStore.AddApproved(t, userID, a, None).tables)), userID, None)
    ensures !IsAllowed(w.(store := Some(AdminStore.RemoveApproved(t, userID, None).tables)), userID, None)
    ensures !IsAllowed(w.(store := Some(t)), userID, Some(cause))
    ensures !IsAllowed(w.(store := None), userID, None)
  {
  }

  /** When a message and a callback both carry a sender, the message's sender is judged. */
  lemma MessageSenderTakesPrecedence(w: Whitelist, m: Message, q: CallbackQuery, dbErr: Option<string>)
    requires m.from.Some?
    ensures CheckAccess(w, Update(Some(m), Some(q)), dbErr) == (m.from.value.id, IsAllowed(w, m.from.value.id, dbErr))
  {
  }
}

=== FILE: admin_store.dfy ===
/** The approval tables: approved users and groups, and their pending access
    requests, as finite maps keyed by id. Each statement is atomic; a database
    failure is an input (`dbErr`) that makes the statement fail and leave every
    table as it was. The user and the group tables share one shape, so the
    operations are written once over `Tables<I>`, with `I` the requester's details. */
module AdminStore {
  import opened Common

  /** A row of `approved_users` or `approved_groups`: the username or group title,
      when and by whom the approval was made. */
  datatype Approval = Approval(name: string, approvedAt: Instant, approvedBy: Int64)

  /** Requester details: a user's username, first name and private chat, or a group's title. */
  datatype UserInfo = UserInfo(username: string, firstName: string, chatID: Int64)
  datatype GroupInfo = GroupInfo(title: string)

  /** A row of `pending_requests` or `pending_group_requests`. `notified_at` and
      `admin_msg_id` are NULL (None) until the admin has been notified. */
  datatype PendingRow<I> = PendingRow(info: I, requestedAt: Instant,
                                      notifiedAt: Option<Instant>, adminMsgID: Option<int>)

  /** `PendingRequest` / `PendingGroupRequest` as returned to callers. */
  datatype PendingRecord<I> = PendingRecord(id: Int64, info: I, requestedAt: Instant,
                                            notifiedAt: Option<Instant>, adminMsgID: int)

  datatype Tables<I> = Tables(approved: map<Int64, Approval>, pending: map<Int64, PendingRow<I>>)

  /** The whole database: user tables and group tables. */
  datatype Store = Store(users: Tables<UserInfo>, groups: Tables<GroupInfo>)

  /** A statement's effect: the next tables and the error it returned. */
  datatype Write<I> = Write(tables: Tables<I>, err: Option<string>)

  /** `IsApproved` / `IsGroupApproved`: true exactly when a row exists. */
  function IsApproved<I>(t: Tables<I>, id: Int64, dbErr: Option<string>): (r: Result<bool, string>)
    ensures r.Err? <==> dbErr.Some?
    ensures r.Ok? ==> (r.value <==> id in t.approved)
  {
    if dbErr.Some? then Err(dbErr.value) else Ok(id in t.approved)
  }

  /** `AddApproved` / `AddApprovedGroup`: an upsert that replaces every field of an existing row. */
  function AddApproved<I>(t: Tables<I>, id: Int64, a: Approval, dbErr: Option<string>): (w: Write<I>)
    ensures dbErr.Some? ==> w == Write(t, dbErr)
    ensures dbErr.None? ==> w.err.None? && w.tables.pending == t.pending
                            && id in w.tables.approved && w.tables.approved[id] == a
                            && forall k :: k != id ==> (k in w.tables.approved <==> k in t.approved)
    ensures dbErr.None? ==> forall k :: k != id && k in t.approved ==> w.tables.approved[k] == t.approved[k]
  {
    if dbErr.Some? then Write(t, dbErr) else Write(t.(approved := t.approved[id := a]), None)
  }

  /** `RemoveApproved` / `RemoveApprovedGroup`: deletes by key; an absent key is not an error. */
  function RemoveApproved<I>(t: Tables<I>, id: Int64, dbErr: Option<string>): (w: Write<I>)
    ensures dbErr.Some? ==> w == Write(t, dbErr)
    ensures dbErr.None? ==> w.err.None? && w.tables.pending == t.pending
                            && w.tables.approved.Keys == t.approved.Keys - {id}
                            && forall k :: k in w.tables.approved ==> w.tables.approved[k] == t.approved[k]
    ensures id !in t.approved ==> w.tables == t
  {
    if dbErr.Some? then Write(t, dbErr) else Write(t.(approved := t.approved - {id}), None)
  }

  /** The record for a row, with `admin_msg_id` read through a nullable
      integer: NULL becomes 0. */
  function ToRecord<I>(id: Int64, row: PendingRow<I>): (rec: PendingRecord<I>)
    ensures rec.id == id && rec.info == row.info && rec.requestedAt == row.requestedAt
    ensures rec.notifiedAt == row.notifiedAt
    ensures row.adminMsgID.Some? ==> rec.adminMsgID == row.adminMsgID.value
    ensures row.adminMsgID.None? ==> rec.adminMsgID == 0
  {
    PendingRecord(id, row.info, row.requestedAt, row.notifiedAt,
                  if row.adminMsgID.Some? then row.adminMsgID.value else 0)
  }

  /** The driver's message for scanning NULL into a plain Go `int`. */
  const NullIntScanError: string := "converting NULL to int is unsupported"

  /** `GetPending` / `GetPendingGroup` as written: `admin_msg_id` is scanned
      into a plain `int`, so every row whose column is still NULL, which is every
      row the admin has not yet been notified about, fails to load. */
  function GetPendingAsWritten<I>(t: Tables<I>, id: Int64, dbErr: Option<string>)
    : (r: Result<Option<PendingRecord<I>>, string>)
    ensures dbErr.None? && id !in t.pending ==> r == Ok(None)
    ensures dbErr.None? && id in t.pending && t.pending[id].adminMsgID.None? ==> r == Err(NullIntScanError)
    ensures r.Ok? && r.value.Some? ==> id in t.pending && t.pending[id].adminMsgID.Some?
  {
    if dbErr.Some? then Err(dbErr.value)
    else if id !in t.pending then Ok(None)
    else if t.pending[id].adminMsgID.None? then Err(NullIntScanError)
    else Ok(Some(ToRecord(id, t.pending[id])))
  }

  /** `GetPending` / `GetPendingGroup` with the column read as nullable: None
      for an absent key, otherwise the row, with `NotifiedAt` set exactly when
      the stored value is not NULL. */
  function GetPending<I>(t: Tables<I>, id: Int64, dbErr: Option<string>)
    : (r: Result<Option<PendingRecord<I>>, string>)
    ensures r.Err? <==> dbErr.Some?
    ensures r.Ok? ==> (r.value.None? <==> id !in t.pending)
    ensures r.Ok? && r.value.Some? ==> r.value.value == ToRecord(id, t.pending[id])
  {
    if dbErr.Some? then Err(dbErr.value)
    else if id !in t.pending then Ok(None)
    else Ok(Some(ToRecord(id, t.pending[id])))
  }

  /** `AddPending` / `AddPendingGroup`: a new row starts un-notified; re-adding an
      existing row refreshes the details and the request time but keeps
      `notified_at` and `admin_msg_id`. */
  function AddPending<I>(t: Tables<I>, id: Int64, info: I, requestedAt: Instant, dbErr: Option<string>)
    : (w: Write<I>)
    ensures dbErr.Some? ==> w == Write(t, dbErr)
    ensures dbErr.None? ==> w.err.None? && w.tables.approved == t.approved && id in w.tables.pending
    ensures dbErr.None? ==> w.tables.pending[id].info == info && w.tables.pending[id].requestedAt == requestedAt
    ensures dbErr.None? && id in t.pending ==>
              w.tables.pending[id].notifiedAt == t.pending[id].notifiedAt
              && w.tables.pending[id].adminMsgID == t.pending[id].adminMsgID
    ensures dbErr.None? && id !in t.pending ==>
              w.tables.pending[id].notifiedAt.None? && w.tables.pending[id].adminMsgID.None?
    ensures dbErr.None? ==> forall k :: k != id ==> (k in w.tables.pending <==> k in t.pending)
    ensures dbErr.None? ==> forall k :: k != id && k in t.pending ==> w.tables.pending[k] == t.pending[k]
  {
    if dbErr.Some? then Write(t, dbErr)
    else
      var row := if id in t.pending
                 then t.pending[id].(info := info, requestedAt := requestedAt)
                 else PendingRow(info, requestedAt, None, None);
      Write(t.(pending := t.pending[id := row]), None)
  }

  /** `RemovePending` / `RemovePendingGroup`: deletes by key; an absent key is not an error. */
  function RemovePending<I>(t: Tables<I>, id: Int64, dbErr: Option<string>): (w: Write<I>)
    ensures dbErr.Some? ==> w == Write(t, dbErr)
    ensures dbErr.None? ==> w.err.None? && w.tables.approved == t.approved
                            && w.tables.pending.Keys == t.pending.Keys - {id}
                            && forall k :: k in w.tables.pending ==> w.tables.pending[k] == t.pending[k]
    ensures id !in t.pending ==> w.tables == t
  {
    if dbErr.Some? then Write(t, dbErr) else Write(t.(pending := t.pending - {id}), None)
  }

  /** `UpdatePendingNotified` / `UpdatePendingGroupNotified`: records the
      notification time and message id on that row only; for an absent key the
      update matches nothing and succeeds. */
  function UpdatePendingNotified<I>(t: Tables<I>, id: Int64, msgID: int, now: Instant, dbErr: Option<string>)
    : (w: Write<I>)
    ensures dbErr.Some? ==> w == Write(t, dbErr)
    ensures dbErr.None? ==> w.err.None? && w.tables.approved == t.approved
                            && w.tables.pending.Keys == t.pending.Keys
                            && forall k :: k != id && k in t.pending ==> w.tables.pending[k] == t.pending[k]
    ensures dbErr.None? && id in t.pending ==>
              w.tables.pending[id] == t.pending[id].(notifiedAt := Some(now), adminMsgID := Some(msgID))
    ensures id !in t.pending ==> w.tables == t
  {
    if dbErr.Some? || id !in t.pending then Write(t, dbErr)
    else Write(t.(pending := t.pending[id := t.pending[id].(notifiedAt := Some(now), adminMsgID := Some(msgID))]), None)
  }

  /** A request re-added after the admin was notified stays notified, so the
      admin is not asked again. */
  lemma ReAddKeepsNotified<I>(t: Tables<I>, id: Int64, info: I, requestedAt: Instant, info2: I,
                              requestedAt2: Instant, msgID: int, now: Instant)
    requires id !in t.pending
    ensures var t1 := AddPending(t, id, info, requestedAt, None).tables;
            var t2 := UpdatePendingNotified(t1, id, msgID, now, None).tables;
            var t3 := AddPending(t2, id, info2, requestedAt2, None).tables;
            GetPending(t3, id, None) == Ok(Some(PendingRecord(id, info2, requestedAt2, Some(now), msgID)))
  {
  }

  /** As written, a request that was added but whose notification was never
      recorded cannot be read back: the lookup fails instead of returning the
      row, for every user id and every request. */
  lemma UnnotifiedRequestUnreadableAsWritten<I>(t: Tables<I>, id: Int64, info: I, requestedAt: Instant)
    requires id !in t.pending
    ensures GetPendingAsWritten(AddPending(t, id, info, requestedAt, None).tables, id, None)
            == Err(NullIntScanError)
  {
  }

  /** With the nullable read, the same request comes back with no notification
      time, which is what the handler's re-notify branch tests for. */
  lemma UnnotifiedRequestReadable<I>(t: Tables<I>, id: Int64, info: I, requestedAt: Instant)
    requires id !in t.pending
    ensures GetPending(AddPending(t, id, info, requestedAt, None).tables, id, None)
            == Ok(Some(PendingRecord(id, info, requestedAt, None, 0)))
  {
  }

  /** Once a notification is recorded both lookups agree. */
  lemma LookupsAgreeAfterNotify<I>(t: Tables<I>, id: Int64, msgID: int, now: Instant)
    requires id in t.pending
    ensures var t1 := UpdatePendingNotified(t, id, msgID, now, None).tables;
            GetPendingAsWritten(t1, id, None) == GetPending(t1, id, None)
  {
  }
}

=== FILE: approval.dfy ===
/** The approval flow: a stranger's message becomes a pending request and the
    admin is asked once; the admin's Approve / Reject buttons move the request
    to the approved table or drop it; `/revoke` takes an approval back. User
    and group requests follow one scheme over `Tables<I>`; the wrappers fix
    the callback prefix, the name recorded with an approval and who is told.
    Database failures are inputs, as in the store. */
module Approval {
  import opened Common
  import opened GoStrings
  import GoStrconv
  import AdminStore
  import Access

  const UserCallbackPrefix: string := "admin:"
  const GroupCallbackPrefix: string := "admin_group:"
  const ApproveAction: string := "approve"
  const RejectAction: string := "reject"
  const Separator: string := ":"

  // ------------------------------------------------------------ button data

  /** The data of the Approve / Reject buttons sent to the admin: the prefix,
      the action, a colon and the decimal id. */
  function ButtonData(prefix: string, action: string, id: Int64): string
  {
    prefix + action + Separator + GoStrconv.FormatInt(id)
  }

  datatype CallbackData = CallbackData(action: string, id: Int64)

  /** Why callback data was refused: not exactly two colon-separated fields
      after the prefix ("Invalid action"), or an id that is not an int64
      ("Invalid user ID" / "Invalid group ID"). */
  datatype ParseError = WrongShape | BadID

  /** The button data with its prefix dropped (when present) and split at every colon. */
  function Fields(data: string, prefix: string): (parts: seq<string>)
    ensures |parts| >= 1
  {
    Split(TrimPrefix(data, prefix), Separator)
  }

  /** The parsing in `handleAdminCallback` / `handleAdminGroupCallback`. */
  function ParseCallbackData(data: string, prefix: string): (r: Result<CallbackData, ParseError>)
    ensures r == Err(WrongShape) <==> |Fields(data, prefix)| != 2
    ensures r.Ok? <==> |Fields(data, prefix)| == 2 && GoStrconv.ParseInt64(Fields(data, prefix)[1]).Some?
    ensures r.Ok? ==> |Fields(data, prefix)| == 2 && r.value.action == Fields(data, prefix)[0]
                      && GoStrconv.ParseInt64(Fields(data, prefix)[1]) == Some(r.value.id)
  {
    var parts := Fields(data, prefix);
    if |parts| != 2 then Err(WrongShape)
    else
      match GoStrconv.ParseInt64(parts[1])
      case None => Err(BadID)
      case Some(id) => Ok(CallbackData(parts[0], id))
  }

  /** Splitting a text without the (one-character) separator gives the text itself. */
  lemma {:induction false} SplitWithoutSep(s: string, c: char)
    requires forall i :: 0 <= i < |s| ==> s[i] != c
    ensures Split(s, [c]) == [s]
    decreases |s|
  {
    if |s| >= 1 {
      assert s[..1] != [c] by { assert s[..1][0] == s[0]; }
      SplitWithoutSep(s[1..], c);
      assert [s[0]] + s[1..] == s;
    }
  }

  /** Splitting `a:b`, with no separator in `a` or `b`, gives `a` and `b`. */
  lemma {:induction false} SplitAtSep(a: string, b: string, c: char)
    requires forall i :: 0 <= i < |a| ==> a[i] != c
    requires forall i :: 0 <= i < |b| ==> b[i] != c
    ensures Split(a + [c] + b, [c]) == [a, b]
    decreases |a|
  {
    var s := a + [c] + b;
    if |a| == 0 {
      assert s == [c] + b;
      assert s[..1] == [c];
      assert s[1..] == b;
      SplitWithoutSep(b, c);
    } else {
      assert s[..1] != [c] by { assert s[..1][0] == a[0]; }
      assert s[1..] == a[1..] + [c] + b;
      SplitAtSep(a[1..], b, c);
      assert [s[0]] + a[1..] == a;
    }
  }

  /** A decimal rendering holds no colon. */
  lemma FormatIntHasNoColon(n: Int64)
    ensures forall i :: 0 <= i < |GoStrconv.FormatInt(n)| ==> GoStrconv.FormatInt(n)[i] != ':'
  {
    var s := GoStrconv.FormatInt(n);
    forall i | 0 <= i < |s| ensures s[i] != ':' {
      if n < 0 && i > 0 {
        assert s[i] == s[1..][i - 1];
      }
    }
  }

  /** The buttons the admin receives parse back to the action and the id they
      were built from, for every id. */
  lemma ButtonDataRoundTrip(prefix: string, action: string, id: Int64)
    requires forall i :: 0 <= i < |action| ==> action[i] != ':'
    ensures ParseCallbackData(ButtonData(prefix, action, id), prefix) == Ok(CallbackData(action, id))
  {
    var digits := GoStrconv.FormatInt(id);
    var data := ButtonData(prefix, action, id);
    assert data == prefix + (action + [':'] + digits);
    assert HasPrefix(data, prefix) by { assert data[..|prefix|] == prefix; }
    assert TrimPrefix(data, prefix) == action + [':'] + digits;
    FormatIntHasNoColon(id);
    SplitAtSep(action, digits, ':');
    GoStrconv.ParseFormatRoundTrip(id);
  }

  /** Conversely, accepted data under its prefix is exactly the prefix, a
      colon-free action, a colon and a field that parses to the id. */
  lemma ParsedDataShape(data: string, prefix: string)
    requires HasPrefix(data, prefix) && ParseCallbackData(data, prefix).Ok?
    ensures var d := ParseCallbackData(data, prefix).value;
            (forall i :: 0 <= i < |d.action| ==> d.action[i] != ':')
            && exists digits :: data == prefix + d.action + Separator + digits
                                && GoStrconv.ParseInt64(digits) == Some(d.id)
  {
    var rest := TrimPrefix(data, prefix);
    var parts := Fields(data, prefix);
    JoinSplit(rest, Separator);
    SplitPiecesAvoidSep(rest, Separator);
    assert Join(parts, Separator) == parts[0] + Separator + parts[1];
    assert data == prefix + parts[0] + Separator + parts[1];
    forall i | 0 <= i < |parts[0]| ensures parts[0][i] != ':' {
      assert parts[0][i..i + 1] == [parts[0][i]];
      assert !OccursAt(parts[0], Separator, i);
    }
  }

  // -------------------------------------------------------- admin callbacks

  /** The callback answers: "Unauthorized", "Invalid action", "Invalid ... ID",
      "Failed to get request", "Request not found or already processed",
      "Failed to approve", "... approved", "... rejected", "Unknown action". */
  datatype AdminAnswer = NotAdmin | InvalidAction | InvalidID | LookupFailed | NotFound
                       | ApproveFailed | Approved | Rejected | UnknownAction

  /** The tables afterwards, the answer, and the request that was decided (for
      the approve and reject answers). */
  datatype AdminDecision<I> = AdminDecision(tables: AdminStore.Tables<I>, answer: AdminAnswer,
                                            request: Option<AdminStore.PendingRecord<I>>)

  /** Every row of both tables other than `id`'s is as before. */
  ghost predicate OthersUnchanged<I>(t: AdminStore.Tables<I>, t2: AdminStore.Tables<I>, id: Int64)
  {
    && (forall k :: k != id ==> (k in t2.approved <==> k in t.approved))
    && (forall k :: k != id && k in t.approved ==> t2.approved[k] == t.approved[k])
    && (forall k :: k != id ==> (k in t2.pending <==> k in t.pending))
    && (forall k :: k != id && k in t.pending ==> t2.pending[k] == t.pending[k])
  }

  /** The decision logic of both admin callbacks. Only the admin may decide. The
      request must exist; approving records the approval (named by `name` of
      the request, stamped `now`, by the admin) and then drops the request,
      whose removal failing is only logged; rejecting only drops the request.
      Nothing changes on any other answer. */
  function DecideCallback<I>(t: AdminStore.Tables<I>, isAdmin: bool, adminID: Int64, data: string,
                             prefix: string, name: I -> string, now: Instant,
                             getErr: Option<string>, addErr: Option<string>, removeErr: Option<string>)
    : (d: AdminDecision<I>)
    ensures !isAdmin ==> d == AdminDecision(t, NotAdmin, None)
    ensures d.answer != Approved && d.answer != Rejected ==> d.tables == t && d.request.None?
    ensures d.answer == Approved || d.answer == Rejected ==>
              && isAdmin && ParseCallbackData(data, prefix).Ok? && getErr.None?
              && ParseCallbackData(data, prefix).value.id in t.pending
              && d.request == Some(AdminStore.ToRecord(ParseCallbackData(data, prefix).value.id,
                                                       t.pending[ParseCallbackData(data, prefix).value.id]))
              && OthersUnchanged(t, d.tables, ParseCallbackData(data, prefix).value.id)
              && (removeErr.None? ==> ParseCallbackData(data, prefix).value.id !in d.tables.pending)
    ensures d.answer == Approved <==>
              isAdmin && ParseCallbackData(data, prefix).Ok? && getErr.None? && addErr.None?
              && ParseCallbackData(data, prefix).value.id in t.pending
              && ParseCallbackData(data, prefix).value.action == ApproveAction
    ensures d.answer == Approved ==>
              var id := ParseCallbackData(data, prefix).value.id;
              id in d.tables.approved
              && d.tables.approved[id] == AdminStore.Approval(name(t.pending[id].info), now, adminID)
    ensures d.answer == Rejected <==>
              isAdmin && ParseCallbackData(data, prefix).Ok? && getErr.None?
              && ParseCallbackData(data, prefix).value.id in t.pending
              && ParseCallbackData(data, prefix).value.action == RejectAction
    ensures d.answer == Rejected ==> d.tables.approved == t.approved
    ensures d.answer == NotFound <==>
              isAdmin && ParseCallbackData(data, prefix).Ok? && getErr.None?
              && ParseCallbackData(data, prefix).value.id !in t.pending
  {
    Decide(t, isAdmin, adminID, data, prefix, name, now, (id: Int64) => AdminStore.GetPending(t, id, getErr),
           addErr, removeErr)
  }

  /** The admin callbacks' steps, given the request lookup the handler uses. */
  function Decide<I>(t: AdminStore.Tables<I>, isAdmin: bool, adminID: Int64, data: string,
                     prefix: string, name: I -> string, now: Instant,
                     lookup: Int64 -> Result<Option<AdminStore.PendingRecord<I>>, string>,
                     addErr: Option<string>, removeErr: Option<string>): AdminDecision<I>
  {
    if !isAdmin then AdminDecision(t, NotAdmin, None)
    else
      match ParseCallbackData(data, prefix)
      case Err(WrongShape) => AdminDecision(t, InvalidAction, None)
      case Err(BadID) => AdminDecision(t, InvalidID, None)
      case Ok(cd) =>
        match lookup(cd.id)
        case Err(_) => AdminDecision(t, LookupFailed, None)
        case Ok(None) => AdminDecision(t, NotFound, None)
        case Ok(Some(rec)) =>
          if cd.action == ApproveAction then
            var added := AdminStore.AddApproved(t, cd.id, AdminStore.Approval(name(rec.info), now, adminID), addErr);
            if added.err.Some? then AdminDecision(t, ApproveFailed, None)
            else
              var removed := AdminStore.RemovePending(added.tables, cd.id, removeErr);
              AdminDecision(removed.tables, Approved, Some(rec))
          else if cd.action == RejectAction then
            AdminDecision(AdminStore.RemovePending(t, cd.id, removeErr).tables, Rejected, Some(rec))
          else AdminDecision(t, UnknownAction, None)
  }

  /** The admin callbacks as written: the request is read with the lookup that
      cannot load a NULL `admin_msg_id`, so a request whose notification was
      never recorded answers "Failed to get request" and changes nothing;
      every other request is decided as with the nullable lookup. */
  function DecideCallbackAsWritten<I>(t: AdminStore.Tables<I>, isAdmin: bool, adminID: Int64, data: string,
                                      prefix: string, name: I -> string, now: Instant,
                                      getErr: Option<string>, addErr: Option<string>, removeErr: Option<string>)
    : (d: AdminDecision<I>)
    ensures isAdmin && ParseCallbackData(data, prefix).Ok? && getErr.None?
            && ParseCallbackData(data, prefix).value.id in t.pending
            && t.pending[ParseCallbackData(data, prefix).value.id].adminMsgID.None?
            ==> d == AdminDecision(t, LookupFailed, None)
    ensures !(isAdmin && ParseCallbackData(data, prefix).Ok?
              && ParseCallbackData(data, prefix).value.id in t.pending
              && t.pending[ParseCallbackData(data, prefix).value.id].adminMsgID.None?)
            ==> d == DecideCallback(t, isAdmin, adminID, data, prefix, name, now, getErr, addErr, removeErr)
  {
    Decide(t, isAdmin, adminID, data, prefix, name, now, (id: Int64) => AdminStore.GetPendingAsWritten(t, id, getErr),
           addErr, removeErr)
  }

  /** The username recorded with a user's approval, the title with a group's. */
  function UserName(u: AdminStore.UserInfo): string { u.username }
  function GroupTitle(g: AdminStore.GroupInfo): string { g.title }

  /** A decided user callback and the chat told about it, if any. */
  datatype CallbackRun<I> = CallbackRun(decision: AdminDecision<I>, tell: Option<Int64>)

  /** `handleAdminCallback`: the requester's private chat is told of both an
      approval and a rejection. */
  function HandleAdminCallback(w: Access.Whitelist, t: AdminStore.Tables<AdminStore.UserInfo>, adminID: Int64,
                               data: string, now: Instant, getErr: Option<string>, addErr: Option<string>,
                               removeErr: Option<string>): (r: CallbackRun<AdminStore.UserInfo>)
    ensures !Access.IsAdmin(w, adminID) ==> r.decision.tables == t && r.tell.None?
    ensures r.tell.Some? <==> r.decision.answer == Approved || r.decision.answer == Rejected
    ensures r.tell.Some? ==> r.decision.request.Some? && r.tell.value == r.decision.request.value.info.chatID
  {
    var d := DecideCallback(t, Access.IsAdmin(w, adminID), adminID, data, UserCallbackPrefix, UserName, now,
                            getErr, addErr, removeErr);
    CallbackRun(d, if d.answer == Approved || d.answer == Rejected then Some(d.request.value.info.chatID) else None)
  }

  /** `handleAdminGroupCallback`: only an approval is announced, in the group itself. */
  function HandleAdminGroupCallback(w: Access.Whitelist, t: AdminStore.Tables<AdminStore.GroupInfo>, adminID: Int64,
                                    data: string, now: Instant, getErr: Option<string>, addErr: Option<string>,
                                    removeErr: Option<string>): (r: CallbackRun<AdminStore.GroupInfo>)
    ensures !Access.IsAdmin(w, adminID) ==> r.decision.tables == t && r.tell.None?
    ensures r.tell.Some? <==> r.decision.answer == Approved
    ensures r.tell.Some? ==> r.decision.request.Some? && r.tell.value == r.decision.request.value.id
  {
    var d := DecideCallback(t, Access.IsAdmin(w, adminID), adminID, data, GroupCallbackPrefix, GroupTitle, now,
                            getErr, addErr, removeErr);
    CallbackRun(d, if d.answer == Approved then Some(d.request.value.id) else None)
  }

  /** A request is decided once: after an approve or reject whose removal
      succeeded, pressing either button again finds nothing and changes nothing. */
  lemma DecidedOnce<I>(t: AdminStore.Tables<I>, adminID: Int64, data: string, prefix: string, name: I -> string,
                       now: Instant, addErr: Option<string>, data2: string, now2: Instant)
    requires var d := DecideCallback(t, true, adminID, data, prefix, name, now, None, addErr, None);
             d.answer == Approved || d.answer == Rejected
    requires ParseCallbackData(data2, prefix).Ok?
    requires ParseCallbackData(data2, prefix).value.id == ParseCallbackData(data, prefix).value.id
    ensures var t1 := DecideCallback(t, true, adminID, data, prefix, name, now, None, addErr, None).tables;
            var again := DecideCallback(t1, true, adminID, data2, prefix, name, now2, None, None, None);
            again.answer == NotFound && again.tables == t1
  {
  }

  // --------------------------------------------------- requests from strangers

  /** What the stranger is told: the unauthorized message, "pending admin
      approval", or "sent to the admin for approval". Groups are told nothing. */
  datatype RequestReply = Refused | StillPending | Forwarded

  /** The tables afterwards, the reply, and whether the admin was sent a request. */
  datatype RequestRun<I> = RequestRun(tables: Option<AdminStore.Tables<I>>, reply: RequestReply, askedAdmin: bool)

  /** The decision logic of `handleUnauthorizedUser` / `handleUnauthorizedGroup`,
      given the result of looking the request up. Without an admin or a store
      the stranger is refused. A failed lookup refuses. A request whose admin
      notification is recorded is not sent again. Otherwise the request is
      added when absent (a failed insert refuses), the admin is asked, and the
      notification is recorded when the admin's message was sent (`sentMsgID`,
      0 when sending failed); a failure to record it is only logged. */
  function DecideRequest<I>(adminConfigured: bool, store: Option<AdminStore.Tables<I>>,
                            lookup: Result<Option<AdminStore.PendingRecord<I>>, string>,
                            id: Int64, info: I, now: Instant, addErr: Option<string>,
                            sentMsgID: int, updErr: Option<string>): (r: RequestRun<I>)
    ensures r.reply != Forwarded ==> r.tables == store && !r.askedAdmin
    ensures r.askedAdmin <==> r.reply == Forwarded
    ensures r.reply == Forwarded <==>
              adminConfigured && store.Some? && lookup.Ok?
              && (lookup.value.Some? ==> lookup.value.value.notifiedAt.None?)
              && (lookup.value.None? ==> addErr.None?)
    ensures r.reply == StillPending <==>
              adminConfigured && store.Some? && lookup.Ok? && lookup.value.Some? && lookup.value.value.notifiedAt.Some?
    ensures r.reply == Forwarded ==> r.tables.Some? && r.tables.value.approved == store.value.approved
    ensures r.reply == Forwarded && lookup.value.None? ==>
              id in r.tables.value.pending && r.tables.value.pending[id].info == info
    ensures r.reply == Forwarded && id in store.value.pending && sentMsgID > 0 && updErr.None? ==>
              id in r.tables.value.pending && r.tables.value.pending[id].notifiedAt == Some(now)
              && r.tables.value.pending[id].adminMsgID == Some(sentMsgID)
  {
    if !adminConfigured || store.None? then RequestRun(store, Refused, false)
    else
      var t := store.value;
      match lookup
      case Err(_) => RequestRun(store, Refused, false)
      case Ok(pending) =>
        if pending.Some? && pending.value.notifiedAt.Some? then RequestRun(store, StillPending, false)
        else
          var added := if pending.None? then AdminStore.AddPending(t, id, info, now, addErr)
                       else AdminStore.Write(t, None);
          if added.err.Some? then RequestRun(store, Refused, false)
          else
            var recorded := if sentMsgID > 0
                            then AdminStore.UpdatePendingNotified(added.tables, id, sentMsgID, now, updErr).tables
                            else added.tables;
            RequestRun(Some(recorded), Forwarded, true)
  }

  /** `handleUnauthorizedUser`, with the request read back by the nullable lookup. */
  function HandleUnauthorizedUser(w: Access.Whitelist, store: Option<AdminStore.Tables<AdminStore.UserInfo>>,
                                  from: Access.User, chatID: Int64, now: Instant,
                                  getErr: Option<string>, addErr: Option<string>,
                                  sentMsgID: int, updErr: Option<string>): (r: RequestRun<AdminStore.UserInfo>)
    ensures Access.AdminUserID(w) == 0 || store.None? ==> r == RequestRun(store, Refused, false)
    ensures store.Some? && getErr.Some? ==> r == RequestRun(store, Refused, false)
    ensures r.askedAdmin ==> r.tables.Some? && from.id in r.tables.value.pending
  {
    var lookup := if store.Some? then AdminStore.GetPending(store.value, from.id, getErr) else Ok(None);
    DecideRequest(Access.AdminUserID(w) != 0, store, lookup, from.id,
                  AdminStore.UserInfo(from.userName, from.firstName, chatID), now, addErr, sentMsgID, updErr)
  }

  /** `handleUnauthorizedUser` as written: the lookup scans `admin_msg_id`
      into a plain integer. */
  function HandleUnauthorizedUserAsWritten(w: Access.Whitelist, store: Option<AdminStore.Tables<AdminStore.UserInfo>>,
                                           from: Access.User, chatID: Int64, now: Instant,
                                           getErr: Option<string>, addErr: Option<string>,
                                           sentMsgID: int, updErr: Option<string>): (r: RequestRun<AdminStore.UserInfo>)
    ensures store.Some? && from.id in store.value.pending && store.value.pending[from.id].adminMsgID.None? ==>
              r.tables == store && !r.askedAdmin
  {
    var lookup := if store.Some? then AdminStore.GetPendingAsWritten(store.value, from.id, getErr) else Ok(None);
    DecideRequest(Access.AdminUserID(w) != 0, store, lookup, from.id,
                  AdminStore.UserInfo(from.userName, from.firstName, chatID), now, addErr, sentMsgID, updErr)
  }

  /** `handleUnauthorizedGroup`: only a message mentioning the bot starts a
      request; the group is never answered. */
  function HandleUnauthorizedGroup(w: Access.Whitelist, store: Option<AdminStore.Tables<AdminStore.GroupInfo>>,
                                   mentioned: bool, groupID: Int64, title: string, now: Instant,
                                   getErr: Option<string>, addErr: Option<string>,
                                   sentMsgID: int, updErr: Option<string>): (r: RequestRun<AdminStore.GroupInfo>)
    ensures !mentioned || Access.AdminUserID(w) == 0 ==> r.tables == store && !r.askedAdmin
    ensures r.askedAdmin ==> mentioned && r.tables.Some? && groupID in r.tables.value.pending
  {
    if !mentioned then RequestRun(store, Refused, false)
    else
      var lookup := if store.Some? then AdminStore.GetPending(store.value, groupID, getErr) else Ok(None);
      DecideRequest(Access.AdminUserID(w) != 0, store, lookup, groupID, AdminStore.GroupInfo(title), now,
                    addErr, sentMsgID, updErr)
  }

  /** `handleUnauthorizedGroup` as written: the lookup scans `admin_msg_id`
      into a plain integer. */
  function HandleUnauthorizedGroupAsWritten(w: Access.Whitelist, store: Option<AdminStore.Tables<AdminStore.GroupInfo>>,
                                            mentioned: bool, groupID: Int64, title: string, now: Instant,
                                            getErr: Option<string>, addErr: Option<string>,
                                            sentMsgID: int, updErr: Option<string>): (r: RequestRun<AdminStore.GroupInfo>)
    ensures store.Some? && groupID in store.value.pending && store.value.pending[groupID].adminMsgID.None? ==>
              r.tables == store && !r.askedAdmin
  {
    if !mentioned then RequestRun(store, Refused, false)
    else
      var lookup := if store.Some? then AdminStore.GetPendingAsWritten(store.value, groupID, getErr) else Ok(None);
      DecideRequest(Access.AdminUserID(w) != 0, store, lookup, groupID, AdminStore.GroupInfo(title), now,
                    addErr, sentMsgID, updErr)
  }

  /** When sending the admin's message about a group failed, the group's next
      mention asks the admin again. */
  lemma GroupFailedNotificationRetried(w: Access.Whitelist, t: AdminStore.Tables<AdminStore.GroupInfo>,
                                       groupID: Int64, title: string, now: Instant, now2: Instant, sentMsgID2: int)
    requires HandleUnauthorizedGroup(w, Some(t), true, groupID, title, now, None, None, 0, None).askedAdmin
    ensures var t1 := HandleUnauthorizedGroup(w, Some(t), true, groupID, title, now, None, None, 0, None).tables;
            HandleUnauthorizedGroup(w, t1, true, groupID, title, now2, None, None, sentMsgID2, None).askedAdmin
  {
  }

  /** As written, when sending the admin's message failed for a new group
      request, the group's later mentions never reach the admin again. */
  lemma GroupRenotifyUnreachableAsWritten(w: Access.Whitelist, t: AdminStore.Tables<AdminStore.GroupInfo>,
                                          groupID: Int64, title: string, now: Instant, now2: Instant,
                                          addErr2: Option<string>, sentMsgID2: int, updErr2: Option<string>)
    requires groupID !in t.pending
    requires HandleUnauthorizedGroupAsWritten(w, Some(t), true, groupID, title, now, None, None, 0, None).askedAdmin
    ensures var t1 := HandleUnauthorizedGroupAsWritten(w, Some(t), true, groupID, title, now, None, None, 0, None).tables;
            var again := HandleUnauthorizedGroupAsWritten(w, t1, true, groupID, title, now2, None, addErr2, sentMsgID2, updErr2);
            !again.askedAdmin && again.tables == t1
  {
  }

  /** As written, a request the admin was sent but whose notification could
      not be recorded (its `admin_msg_id` is still NULL) cannot be approved:
      the Approve button answers "Failed to get request" and changes nothing,
      where the nullable lookup approves it. */
  lemma UnrecordedRequestUndecidableAsWritten(w: Access.Whitelist, t: AdminStore.Tables<AdminStore.UserInfo>,
                                              from: Access.User, chatID: Int64, now: Instant, sentMsgID: int,
                                              cause: string, now2: Instant)
    requires from.id !in t.pending && w.adminUserID != 0
    requires HandleUnauthorizedUserAsWritten(w, Some(t), from, chatID, now, None, None, sentMsgID, Some(cause)).askedAdmin
    ensures var t1 := HandleUnauthorizedUserAsWritten(w, Some(t), from, chatID, now, None, None, sentMsgID, Some(cause)).tables.value;
            var data := ButtonData(UserCallbackPrefix, ApproveAction, from.id);
            && DecideCallbackAsWritten(t1, true, w.adminUserID, data, UserCallbackPrefix, UserName, now2, None, None, None)
               == AdminDecision(t1, LookupFailed, None)
            && DecideCallback(t1, true, w.adminUserID, data, UserCallbackPrefix, UserName, now2, None, None, None).answer
               == Approved
  {
    assert forall i :: 0 <= i < |ApproveAction| ==> ApproveAction[i] != ':';
    ButtonDataRoundTrip(UserCallbackPrefix, ApproveAction, from.id);
  }

  /** The admin is asked at most once per request: once a notification was
      sent and recorded, the stranger's next message is answered with "pending"
      and the admin is not asked again. */
  lemma AdminAskedOnce(w: Access.Whitelist, t: AdminStore.Tables<AdminStore.UserInfo>, from: Access.User,
                       chatID: Int64, now: Instant, sentMsgID: int, now2: Instant, sentMsgID2: int)
    requires HandleUnauthorizedUser(w, Some(t), from, chatID, now, None, None, sentMsgID, None).askedAdmin
    requires sentMsgID > 0
    ensures var t1 := HandleUnauthorizedUser(w, Some(t), from, chatID, now, None, None, sentMsgID, None).tables;
            var again := HandleUnauthorizedUser(w, t1, from, chatID, now2, None, None, sentMsgID2, None);
            again.reply == StillPending && !again.askedAdmin && again.tables == t1
  {
  }

  /** When sending the admin's message failed, the next message from the
      stranger asks the admin again. */
  lemma FailedNotificationRetried(w: Access.Whitelist, t: AdminStore.Tables<AdminStore.UserInfo>, from: Access.User,
                                  chatID: Int64, now: Instant, now2: Instant, sentMsgID2: int)
    requires HandleUnauthorizedUser(w, Some(t), from, chatID, now, None, None, 0, None).askedAdmin
    ensures var t1 := HandleUnauthorizedUser(w, Some(t), from, chatID, now, None, None, 0, None).tables;
            HandleUnauthorizedUser(w, t1, from, chatID, now2, None, None, sentMsgID2, None).askedAdmin
  {
  }

  /** As written, when sending the admin's message failed for a new request,
      every later message of that stranger is refused with the unauthorized
      message and the admin is never asked again: the re-notify path cannot
      be reached. */
  lemma RenotifyUnreachableAsWritten(w: Access.Whitelist, t: AdminStore.Tables<AdminStore.UserInfo>,
                                     from: Access.User, chatID: Int64, now: Instant, now2: Instant,
                                     addErr2: Option<string>, sentMsgID2: int, updErr2: Option<string>)
    requires from.id !in t.pending
    requires HandleUnauthorizedUserAsWritten(w, Some(t), from, chatID, now, None, None, 0, None).askedAdmin
    ensures var t1 := HandleUnauthorizedUserAsWritten(w, Some(t), from, chatID, now, None, None, 0, None).tables;
            var again := HandleUnauthorizedUserAsWritten(w, t1, from, chatID, now2, None, addErr2, sentMsgID2, updErr2);
            again.reply == Refused && !again.askedAdmin && again.tables == t1
  {
  }

  // ------------------------------------------------------------------ revoke

  /** The answers of `/revoke` and `/revokegroup`: admins only, admin features
      not configured, usage, invalid id, failure, and success for an id. */
  datatype RevokeAnswer = AdminOnly | NotConfigured | Usage | BadRevokeID | RevokeFailed | Revoked(id: Int64)

  datatype RevokeRun<I> = RevokeRun(tables: Option<AdminStore.Tables<I>>, answer: RevokeAnswer)

  /** `handleRevoke` / `handleRevokeGroup`: an admin names an id, trimmed and
      parsed as an int64, whose approval is deleted; an empty argument gets the
      usage line. Deleting an id without an approval still reports success. */
  function HandleRevoke<I>(w: Access.Whitelist, store: Option<AdminStore.Tables<I>>, fromID: Int64,
                           args: string, dbErr: Option<string>): (r: RevokeRun<I>)
    ensures !r.answer.Revoked? ==> r.tables == store
    ensures !Access.IsAdmin(w, fromID) ==> r.answer == AdminOnly
    ensures r.answer.Revoked? <==>
              Access.IsAdmin(w, fromID) && store.Some? && args != ""
              && GoStrconv.ParseInt64(TrimSpace(args)).Some? && dbErr.None?
    ensures r.answer.Revoked? ==>
              GoStrconv.ParseInt64(TrimSpace(args)) == Some(r.answer.id)
              && r.tables.Some? && r.answer.id !in r.tables.value.approved
              && r.tables.value.pending == store.value.pending
              && r.tables.value.approved.Keys == store.value.approved.Keys - {r.answer.id}
              && forall k :: k in r.tables.value.approved ==> r.tables.value.approved[k] == store.value.approved[k]
  {
    if !Access.IsAdmin(w, fromID) then RevokeRun(store, AdminOnly)
    else if store.None? then RevokeRun(store, NotConfigured)
    else if args == "" then RevokeRun(store, Usage)
    else
      match GoStrconv.ParseInt64(TrimSpace(args))
      case None => RevokeRun(store, BadRevokeID)
      case Some(id) =>
        var removed := AdminStore.RemoveApproved(store.value, id, dbErr);
        if removed.err.Some? then RevokeRun(store, RevokeFailed) else RevokeRun(Some(removed.tables), Revoked(id))
  }

  // -------------------------------------------------------------- end to end

  /** The whole flow for a stranger: their request reaches the admin, the admin
      presses the Approve button built for them, and from then on the access
      check lets them in; a later `/revoke` of their id shuts them out again. */
  lemma ApproveThenRevoke(w: Access.Whitelist, t: AdminStore.Tables<AdminStore.UserInfo>, from: Access.User,
                          chatID: Int64, now: Instant, sentMsgID: int, now2: Instant)
    requires w.adminUserID != 0 && from.id != w.adminUserID && from.id !in w.staticAllowed
    requires HandleUnauthorizedUser(w, Some(t), from, chatID, now, None, None, sentMsgID, None).askedAdmin
    ensures var t1 := HandleUnauthorizedUser(w, Some(t), from, chatID, now, None, None, sentMsgID, None).tables.value;
            var d := HandleAdminCallback(w, t1, w.adminUserID, ButtonData(UserCallbackPrefix, ApproveAction, from.id),
                                         now2, None, None, None).decision;
            var rv := HandleRevoke(w, Some(d.tables), w.adminUserID, GoStrconv.FormatInt(from.id), None);
            && d.answer == Approved
            && Access.IsAllowed(w.(store := Some(d.tables)), from.id, None)
            && rv.answer == Revoked(from.id)
            && !Access.IsAllowed(w.(store := rv.tables), from.id, None)
  {
    var t1 := HandleUnauthorizedUser(w, Some(t), from, chatID, now, None, None, sentMsgID, None).tables.value;
    var data := ButtonData(UserCallbackPrefix, ApproveAction, from.id);
    assert forall i :: 0 <= i < |ApproveAction| ==> ApproveAction[i] != ':';
    ButtonDataRoundTrip(UserCallbackPrefix, ApproveAction, from.id);
    var d := HandleAdminCallback(w, t1, w.adminUserID, data, now2, None, None, None).decision;
    assert d.answer == Approved;
    FormatIntHasNoColon(from.id);
    var digits := GoStrconv.FormatInt(from.id);
    assert TrimSpace(digits) == digits by {
      TrimmedDigits(digits);
    }
    GoStrconv.ParseFormatRoundTrip(from.id);
  }

  /** A decimal rendering carries no white space to trim. */
  lemma TrimmedDigits(s: string)
    requires |s| >= 1 && forall i :: 0 <= i < |s| ==> s[i] == '-' || GoStrconv.IsDigit(s[i])
    ensures TrimSpace(s) == s
  {
    assert !IsSpace(s[0]);
    assert LeadingSpaces(s) == 0;
    assert !IsSpace(s[|s| - 1]);
    assert TrailingSpaces(s) == 0;
  }
}

=== FILE: client.dfy ===
/** The ComfyUI HTTP client and the generation pipeline built on it. Every
    HTTP exchange is an input: what the transport and the server produced for
    the request (`HttpReply`). JSON decoding of a response body is an oracle
    returning the decoded value or the decoder's error text. */
module Client {
  import opened Common
  import GoStrings
  import GoStrconv
  import AppErrors
  import Workflow
  import Monitor

  /** The result of one HTTP request: the request could not be built (an
      invalid URL), sending it failed (network, timeout, cancelled context),
      or a status arrived, with what reading the body produced. */
  datatype HttpReply =
    | RequestInvalid(cause: string)
    | SendFailed(cause: string)
    | Received(status: int, body: Result<string, string>)

  /** The fields of the POST /prompt response the client looks at; `error` is
      "" when the field is absent. */
  datatype PromptResponse = PromptResponse(promptID: string, error: string)

  datatype ImageOutput = ImageOutput(filename: string, subfolder: string, typ: string)
  datatype NodeOutput = NodeOutput(images: seq<ImageOutput>)
  datatype HistoryEntry = HistoryEntry(outputs: map<string, NodeOutput>)
  type History = map<string, HistoryEntry>

  const StatusOK: int := 200

  function Cause(prefix: string, cause: string): (g: AppErrors.GoError)
    ensures AppErrors.Technical(g)
    ensures AppErrors.Message(g) == prefix + ": " + cause
  {
    AppErrors.Wrapped(prefix, AppErrors.Plain(cause))
  }

  /** `QueuePrompt`: the prompt id from a 200 reply whose body decodes and names
      no error. The checks come in the order request, send, read, status,
      decode, error field. */
  function QueuePrompt(reply: HttpReply, decode: string -> Result<PromptResponse, string>)
    : (r: Result<string, AppErrors.GoError>)
    ensures r.Ok? <==> reply.Received? && reply.status == StatusOK && reply.body.Ok?
                       && decode(reply.body.value).Ok? && decode(reply.body.value).value.error == ""
    ensures r.Ok? ==> r.value == decode(reply.body.value).value.promptID
    ensures r.Err? ==> AppErrors.Technical(r.error)
    ensures reply.RequestInvalid? ==> r == Err(Cause("create request", reply.cause))
    ensures reply.SendFailed? ==> r == Err(Cause("send request", reply.cause))
    ensures reply.Received? && reply.body.Err? ==> r == Err(Cause("read response", reply.body.error))
    ensures reply.Received? && reply.body.Ok? && reply.status == StatusOK && decode(reply.body.value).Err? ==>
              r == Err(Cause("unmarshal response", decode(reply.body.value).error))
    ensures reply.Received? && reply.body.Ok? && reply.status != StatusOK ==>
              AppErrors.Message(r.error) == "server returned " + GoStrconv.FormatInt(reply.status) + ": " + reply.body.value
    ensures reply.Received? && reply.body.Ok? && reply.status == StatusOK && decode(reply.body.value).Ok?
            && decode(reply.body.value).value.error != "" ==>
              AppErrors.Message(r.error) == "comfyui error: " + decode(reply.body.value).value.error
  {
    match reply
    case RequestInvalid(c) => Err(Cause("create request", c))
    case SendFailed(c) => Err(Cause("send request", c))
    case Received(status, body) =>
      match body
      case Err(c) => Err(Cause("read response", c))
      case Ok(text) =>
        if status != StatusOK then
          Err(AppErrors.Plain("server returned " + GoStrconv.FormatInt(status) + ": " + text))
        else
          match decode(text)
          case Err(c) => Err(Cause("unmarshal response", c))
          case Ok(resp) =>
            if resp.error != "" then Err(AppErrors.Plain("comfyui error: " + resp.error))
            else Ok(resp.promptID)
  }

  /** `GetHistory`: the decoded body, whatever the status; a body that cannot
      be read fails as a decoding error. */
  function GetHistory(reply: HttpReply, decode: string -> Result<History, string>)
    : (r: Result<History, AppErrors.GoError>)
    ensures r.Ok? <==> reply.Received? && reply.body.Ok? && decode(reply.body.value).Ok?
    ensures r.Ok? ==> r.value == decode(reply.body.value).value
    ensures r.Err? ==> AppErrors.Technical(r.error)
  {
    match reply
    case RequestInvalid(c) => Err(Cause("create request", c))
    case SendFailed(c) => Err(Cause("send request", c))
    case Received(_, body) =>
      match body
      case Err(c) => Err(Cause("decode response", c))
      case Ok(text) =>
        match decode(text)
        case Err(c) => Err(Cause("decode response", c))
        case Ok(h) => Ok(h)
  }

  /** The status of a history reply is never consulted: an error page that
      happens to decode is taken as history. */
  lemma GetHistoryIgnoresStatus(s1: int, s2: int, body: Result<string, string>,
                                decode: string -> Result<History, string>)
    ensures GetHistory(Received(s1, body), decode) == GetHistory(Received(s2, body), decode)
  {
  }

  /** The query parameters of GET /view: the file name always, the subfolder
      and the type only when non-empty. */
  function ViewQuery(filename: string, subfolder: string, imgType: string): (q: map<string, string>)
    ensures "filename" in q && q["filename"] == filename
    ensures "subfolder" in q <==> subfolder != ""
    ensures "subfolder" in q ==> q["subfolder"] == subfolder
    ensures "type" in q <==> imgType != ""
    ensures "type" in q ==> q["type"] == imgType
    ensures forall k :: k in q ==> k == "filename" || k == "subfolder" || k == "type"
  {
    var q0 := map["filename" := filename];
    var q1 := if subfolder != "" then q0["subfolder" := subfolder] else q0;
    if imgType != "" then q1["type" := imgType] else q1
  }

  /** `GetImage`: the body of a 200 reply. A non-200 reply fails without its
      body being read; a failed body read is returned without a prefix. */
  function GetImage(reply: HttpReply): (r: Result<string, AppErrors.GoError>)
    ensures r.Ok? <==> reply.Received? && reply.status == StatusOK && reply.body.Ok?
    ensures r.Ok? ==> r.value == reply.body.value
    ensures r.Err? ==> AppErrors.Technical(r.error)
    ensures reply.Received? && reply.status != StatusOK ==>
              r == Err(AppErrors.Plain("server returned " + GoStrconv.FormatInt(reply.status)))
    ensures reply.Received? && reply.status == StatusOK && reply.body.Err? ==>
              r == Err(AppErrors.Plain(reply.body.error))
  {
    match reply
    case RequestInvalid(c) => Err(Cause("create request", c))
    case SendFailed(c) => Err(Cause("send request", c))
    case Received(status, body) =>
      if status != StatusOK then Err(AppErrors.Plain("server returned " + GoStrconv.FormatInt(status)))
      else
        match body
        case Err(c) => Err(AppErrors.Plain(c))
        case Ok(data) => Ok(data)
  }

  /** `CheckHealth`: healthy exactly when GET /system_stats answers 200; the
      body is never read, and transport errors are returned as they are. */
  function CheckHealth(reply: HttpReply): (r: Option<AppErrors.GoError>)
    ensures r.None? <==> reply.Received? && reply.status == StatusOK
    ensures reply.RequestInvalid? || reply.SendFailed? ==> r == Some(AppErrors.Plain(reply.cause))
    ensures reply.Received? && reply.status != StatusOK ==>
              r == Some(AppErrors.Plain("unhealthy: status " + GoStrconv.FormatInt(reply.status)))
  {
    match reply
    case RequestInvalid(c) => Some(AppErrors.Plain(c))
    case SendFailed(c) => Some(AppErrors.Plain(c))
    case Received(status, _) =>
      if status != StatusOK then Some(AppErrors.Plain("unhealthy: status " + GoStrconv.FormatInt(status)))
      else None
  }

  /** Node `k` has at least one image. */
  predicate HasImage(outputs: map<string, NodeOutput>, k: string)
  {
    k in outputs && |outputs[k].images| > 0
  }

  /** `order` is one order in which ranging over the map may visit its keys. */
  predicate IsIterationOrder(outputs: map<string, NodeOutput>, order: seq<string>)
  {
    && (forall i :: 0 <= i < |order| ==> order[i] in outputs)
    && (forall k :: k in outputs ==> k in order)
    && (forall i, j :: 0 <= i < j < |order| ==> order[i] != order[j])
  }

  /** The first image of the first node, in visiting order, that has one. */
  function SelectImage(outputs: map<string, NodeOutput>, order: seq<string>): (r: Option<ImageOutput>)
    ensures r.Some? ==> exists i :: 0 <= i < |order| && HasImage(outputs, order[i])
                                    && r.value == outputs[order[i]].images[0]
                                    && forall j :: 0 <= j < i ==> !HasImage(outputs, order[j])
    ensures r.None? ==> forall i :: 0 <= i < |order| ==> !HasImage(outputs, order[i])
    decreases |order|
  {
    if |order| == 0 then None
    else if HasImage(outputs, order[0]) then Some(outputs[order[0]].images[0])
    else
      var r := SelectImage(outputs, order[1..]);
      assert forall i :: 1 <= i < |order| ==> order[i] == order[1..][i - 1];
      if r.Some? then
        var i :| 0 <= i < |order[1..]| && HasImage(outputs, order[1..][i])
                 && r.value == outputs[order[1..][i]].images[0]
                 && forall j :: 0 <= j < i ==> !HasImage(outputs, order[1..][j]);
        assert HasImage(outputs, order[i + 1]) && r.value == outputs[order[i + 1]].images[0];
        r
      else r
  }

  /** Over a genuine iteration order, no image is found exactly when no node has one. */
  lemma SelectImageFindsAny(outputs: map<string, NodeOutput>, order: seq<string>)
    requires IsIterationOrder(outputs, order)
    ensures SelectImage(outputs, order).None? <==> forall k :: k in outputs ==> |outputs[k].images| == 0
  {
    if SelectImage(outputs, order).None? {
      forall k | k in outputs ensures |outputs[k].images| == 0 {
        var i :| 0 <= i < |order| && order[i] == k;
        assert !HasImage(outputs, order[i]);
      }
    }
  }

  /** A sequence listing the elements of a finite set once each. */
  ghost function Enumerate(s: set<string>): (q: seq<string>)
    ensures forall i :: 0 <= i < |q| ==> q[i] in s
    ensures forall k :: k in s ==> k in q
    ensures forall i, j :: 0 <= i < j < |q| ==> q[i] != q[j]
    decreases |s|
  {
    if s == {} then []
    else
      var x :| x in s;
      var rest := Enumerate(s - {x});
      [x] + rest
  }

  /** Since map iteration order is unspecified, any node that has an image may
      be the one whose first image is downloaded. */
  lemma AnyImageNodeMayBeChosen(outputs: map<string, NodeOutput>, k: string)
    requires HasImage(outputs, k)
    ensures exists order :: IsIterationOrder(outputs, order)
                            && SelectImage(outputs, order) == Some(outputs[k].images[0])
  {
    var rest := Enumerate(outputs.Keys - {k});
    var order := [k] + rest;
    assert forall i :: 1 <= i < |order| ==> order[i] == rest[i - 1];
    assert IsIterationOrder(outputs, order);
    assert SelectImage(outputs, order) == Some(outputs[k].images[0]);
  }

  /** Everything the ComfyUI server and the transport contribute to one
      generation. `monitor` is the execution monitor created for it (its client
      id is the fresh UUID, chosen outside the model); `jsonError` is the
      parser's message when the prepared job does not parse. */
  datatype Service = Service(
    monitor: Monitor.ExecutionMonitor,
    jsonError: string,
    queueReply: HttpReply,
    decodePrompt: string -> Result<PromptResponse, string>,
    dial: Option<string>,
    events: seq<Monitor.Event>,
    historyReply: HttpReply,
    decodeHistory: string -> Result<History, string>,
    order: seq<string>,
    imageReply: HttpReply)

  /** The steps of `GenerateImage`, in order. */
  datatype Stage = Prepare | Queue | Await | FetchHistory | Lookup | Download

  /** The requests a generation makes: the job posted to `/prompt` with the
      client id, the WebSocket dialled, `/history/<id>`, and `/view` with its query. */
  datatype Request =
    | PostPrompt(workflow: string, clientID: string)
    | OpenSocket(url: string)
    | HistoryOf(promptID: string)
    | ViewImage(query: map<string, string>)

  /** How many requests have been made by the time the pipeline ends in `st`. */
  function RequestsMade(st: Stage): nat
  {
    match st
    case Prepare => 0
    case Queue => 1
    case Await => 2
    case FetchHistory => 3
    case Lookup => 3
    case Download => 4
  }

  /** An image, a returned error, or (for a finite event trace without a
      terminal event) a wait that has not ended. */
  datatype GenOutcome = Image(data: string) | Failure(error: AppErrors.GoError) | StillWaiting

  /** What `GenerateImage` produced, the step it ended in, and the requests it made. */
  datatype Generation = Generation(outcome: GenOutcome, stage: Stage, requests: seq<Request>)

  /** `GenerateImage`: prepare the job, queue it under the monitor's client id,
      wait for it without a progress callback, read its history, pick an image
      and download it. Each failure is wrapped with the step's prefix except
      the lookups and the download, and ends the pipeline. */
  function GenerateImage(wm: Workflow.WorkflowManager, parsesAsObject: string -> bool,
                         prompt: string, svc: Service): (g: Generation)
    ensures g.outcome.Failure? ==> AppErrors.Technical(g.outcome.error)
    ensures g.stage == Prepare <==> Workflow.PrepareWorkflow(wm, prompt, parsesAsObject).Err?
    ensures g.stage == Prepare ==>
              g.outcome == Failure(AppErrors.Wrapped("prepare workflow", Cause("prompt created invalid JSON", svc.jsonError)))
    ensures g.outcome.StillWaiting? ==> g.stage == Await
    ensures g.outcome.Image? ==> g.stage == Download && GetImage(svc.imageReply) == Ok(g.outcome.data)
    ensures g.stage == Download ==> g.outcome == ResultOutcome(GetImage(svc.imageReply))
    ensures |g.requests| == RequestsMade(g.stage)
    ensures g.stage != Prepare ==>
              g.requests[0] == PostPrompt(Workflow.PrepareWorkflow(wm, prompt, parsesAsObject).value, svc.monitor.clientID)
    ensures g.stage != Prepare && g.stage != Queue ==>
              QueuePrompt(svc.queueReply, svc.decodePrompt).Ok?
              && g.requests[1] == OpenSocket(Monitor.ConnectURL(svc.monitor))
    ensures g.stage == FetchHistory || g.stage == Lookup || g.stage == Download ==>
              QueuePrompt(svc.queueReply, svc.decodePrompt).Ok?
              && g.requests[2] == HistoryOf(QueuePrompt(svc.queueReply, svc.decodePrompt).value)
    ensures g.stage == Download ==>
              && QueuePrompt(svc.queueReply, svc.decodePrompt).Ok?
              && GetHistory(svc.historyReply, svc.decodeHistory).Ok?
              && var pid := QueuePrompt(svc.queueReply, svc.decodePrompt).value;
                 var h := GetHistory(svc.historyReply, svc.decodeHistory).value;
                 && pid in h
                 && SelectImage(h[pid].outputs, svc.order).Some?
                 && var img := SelectImage(h[pid].outputs, svc.order).value;
                    g.requests[3] == ViewImage(ViewQuery(img.filename, img.subfolder, img.typ))
  {
    match Workflow.PrepareWorkflow(wm, prompt, parsesAsObject)
    case Err(_) =>
      Generation(Failure(AppErrors.Wrapped("prepare workflow", Cause("prompt created invalid JSON", svc.jsonError))),
                 Prepare, [])
    case Ok(job) =>
      var posted := [PostPrompt(job, svc.monitor.clientID)];
      match QueuePrompt(svc.queueReply, svc.decodePrompt)
      case Err(e) => Generation(Failure(AppErrors.Wrapped("queue prompt", e)), Queue, posted)
      case Ok(promptID) => AfterQueued(promptID, svc, posted)
  }

  /** The pipeline once the job is queued: dial the monitor and wait, then
      carry on from the completed job. `posted` is the job's request. */
  function AfterQueued(promptID: string, svc: Service, posted: seq<Request>): (g: Generation)
    requires |posted| == 1
    ensures g.stage == Await || g.stage == FetchHistory || g.stage == Lookup || g.stage == Download
    ensures |g.requests| == RequestsMade(g.stage) && g.requests[..1] == posted
    ensures g.requests[1] == OpenSocket(Monitor.ConnectURL(svc.monitor))
    ensures g.stage != Await ==> g.requests[2] == HistoryOf(promptID)
    ensures g.outcome.Failure? ==> AppErrors.Technical(g.outcome.error)
    ensures g.outcome.Image? ==> g.stage == Download
    ensures g.stage == Download ==> g.outcome == ResultOutcome(GetImage(svc.imageReply))
    ensures g.stage == Download ==>
              && GetHistory(svc.historyReply, svc.decodeHistory).Ok?
              && var h := GetHistory(svc.historyReply, svc.decodeHistory).value;
                 && promptID in h
                 && SelectImage(h[promptID].outputs, svc.order).Some?
                 && var img := SelectImage(h[promptID].outputs, svc.order).value;
                    g.requests[3] == ViewImage(ViewQuery(img.filename, img.subfolder, img.typ))
  {
    var dialled := posted + [OpenSocket(Monitor.ConnectURL(svc.monitor))];
    var w := Monitor.WaitForCompletion(svc.dial, promptID, false, svc.events);
    if w.outcome.Waiting? then Generation(StillWaiting, Await, dialled)
    else if !w.outcome.Completed? then
      Generation(Failure(AppErrors.Wrapped("wait for completion", Monitor.OutcomeError(w.outcome).value)),
                 Await, dialled)
    else
      var g := AfterCompletion(promptID, svc, dialled + [HistoryOf(promptID)]);
      assert g.requests[..1] == g.requests[..3][..1];
      assert g.requests[1] == g.requests[..3][1];
      assert g.requests[2] == g.requests[..3][2];
      g
  }

  /** The pipeline once the job has completed: read the history, find the
      entry and an image in it, and download that image. `asked` holds the
      requests made so far, the history request last. */
  function AfterCompletion(promptID: string, svc: Service, asked: seq<Request>): (g: Generation)
    requires |asked| == 3
    ensures g.stage == FetchHistory || g.stage == Lookup || g.stage == Download
    ensures |g.requests| == RequestsMade(g.stage) && g.requests[..3] == asked
    ensures g.outcome.Failure? ==> AppErrors.Technical(g.outcome.error)
    ensures g.outcome.Image? ==> g.stage == Download
    ensures g.stage == Download ==> g.outcome == ResultOutcome(GetImage(svc.imageReply))
    ensures g.stage == Download ==>
              && GetHistory(svc.historyReply, svc.decodeHistory).Ok?
              && var h := GetHistory(svc.historyReply, svc.decodeHistory).value;
                 && promptID in h
                 && SelectImage(h[promptID].outputs, svc.order).Some?
                 && var img := SelectImage(h[promptID].outputs, svc.order).value;
                    g.requests[3] == ViewImage(ViewQuery(img.filename, img.subfolder, img.typ))
  {
    match GetHistory(svc.historyReply, svc.decodeHistory)
    case Err(e) => Generation(Failure(AppErrors.Wrapped("get history", e)), FetchHistory, asked)
    case Ok(history) =>
      if promptID !in history then
        Generation(Failure(AppErrors.Plain("prompt not found in history")), Lookup, asked)
      else
        match SelectImage(history[promptID].outputs, svc.order)
        case None => Generation(Failure(AppErrors.Plain("no output image found")), Lookup, asked)
        case Some(img) =>
          var g := Generation(ResultOutcome(GetImage(svc.imageReply)), Download,
                              asked + [ViewImage(ViewQuery(img.filename, img.subfolder, img.typ))]);
          assert g.requests[..3] == asked;
          g
  }

  function ResultOutcome(r: Result<string, AppErrors.GoError>): GenOutcome
  {
    match r
    case Ok(data) => Image(data)
    case Err(e) => Failure(e)
  }

  /** An image is returned exactly when every step succeeds: the job prepares,
      the server accepts it, the wait sees it complete, the history names it
      with an image, and the download answers 200 with a readable body. */
  lemma GenerateImageSucceedsIff(wm: Workflow.WorkflowManager, parsesAsObject: string -> bool,
                                 prompt: string, svc: Service)
    ensures GenerateImage(wm, parsesAsObject, prompt, svc).outcome.Image? <==>
              && Workflow.PrepareWorkflow(wm, prompt, parsesAsObject).Ok?
              && QueuePrompt(svc.queueReply, svc.decodePrompt).Ok?
              && svc.dial.None?
              && Monitor.Await(QueuePrompt(svc.queueReply, svc.decodePrompt).value, false, svc.events).outcome.Completed?
              && GetHistory(svc.historyReply, svc.decodeHistory).Ok?
              && QueuePrompt(svc.queueReply, svc.decodePrompt).value in GetHistory(svc.historyReply, svc.decodeHistory).value
              && SelectImage(GetHistory(svc.historyReply, svc.decodeHistory).value
                               [QueuePrompt(svc.queueReply, svc.decodePrompt).value].outputs, svc.order).Some?
              && GetImage(svc.imageReply).Ok?
  {
  }

  /** No error from the pipeline carries a user-facing message: the user is
      shown the default text and is never told a retry may help. */
  lemma GenerationErrorsAreOpaque(wm: Workflow.WorkflowManager, parsesAsObject: string -> bool,
                                  prompt: string, svc: Service)
    requires GenerateImage(wm, parsesAsObject, prompt, svc).outcome.Failure?
    ensures AppErrors.GetUserMessage(GenerateImage(wm, parsesAsObject, prompt, svc).outcome.error)
            == AppErrors.DefaultUserMessage
    ensures !AppErrors.IsRetryable(GenerateImage(wm, parsesAsObject, prompt, svc).outcome.error)
  {
    AppErrors.TechnicalErrorsAreOpaque(GenerateImage(wm, parsesAsObject, prompt, svc).outcome.error);
  }

  /** A pipeline that ends before waiting does not depend on anything the
      server would have sent later. */
  lemma QueueFailureShortCircuits(wm: Workflow.WorkflowManager, parsesAsObject: string -> bool,
                                  prompt: string, svc: Service, later: Service)
    requires GenerateImage(wm, parsesAsObject, prompt, svc).stage in {Prepare, Queue}
    requires later.monitor == svc.monitor && later.jsonError == svc.jsonError
    requires later.queueReply == svc.queueReply && later.decodePrompt == svc.decodePrompt
    ensures GenerateImage(wm, parsesAsObject, prompt, later) == GenerateImage(wm, parsesAsObject, prompt, svc)
  {
  }

  /** The download is attempted only once the history lists an image for the
      queued prompt; before that the image reply is irrelevant. */
  lemma DownloadOnlyAfterLookup(wm: Workflow.WorkflowManager, parsesAsObject: string -> bool,
                                prompt: string, svc: Service, image: HttpReply)
    requires GenerateImage(wm, parsesAsObject, prompt, svc).stage != Download
    ensures GenerateImage(wm, parsesAsObject, prompt, svc.(imageReply := image))
            == GenerateImage(wm, parsesAsObject, prompt, svc)
  {
  }

  /** Over a genuine iteration order of the entry's outputs, a completed job
      whose history entry lists an image is always downloaded: "no output
      image found" is reported only when no node has an image. */
  lemma ListedImageIsDownloaded(wm: Workflow.WorkflowManager, parsesAsObject: string -> bool,
                                prompt: string, svc: Service, k: string)
    requires Workflow.PrepareWorkflow(wm, prompt, parsesAsObject).Ok?
    requires QueuePrompt(svc.queueReply, svc.decodePrompt).Ok? && svc.dial.None?
    requires Monitor.Await(QueuePrompt(svc.queueReply, svc.decodePrompt).value, false, svc.events).outcome.Completed?
    requires GetHistory(svc.historyReply, svc.decodeHistory).Ok?
    requires var pid := QueuePrompt(svc.queueReply, svc.decodePrompt).value;
             var h := GetHistory(svc.historyReply, svc.decodeHistory).value;
             pid in h && IsIterationOrder(h[pid].outputs, svc.order) && HasImage(h[pid].outputs, k)
    ensures GenerateImage(wm, parsesAsObject, prompt, svc).stage == Download
  {
    var pid := QueuePrompt(svc.queueReply, svc.decodePrompt).value;
    var h := GetHistory(svc.historyReply, svc.decodeHistory).value;
    SelectImageFindsAny(h[pid].outputs, svc.order);
  }

  /** The job is queued and watched under one client id: the id posted with
      the job is the one the dialled WebSocket URL carries. */
  lemma QueuedAndWatchedUnderOneId(wm: Workflow.WorkflowManager, parsesAsObject: string -> bool,
                                   prompt: string, svc: Service)
    ensures var g := GenerateImage(wm, parsesAsObject, prompt, svc);
            g.stage !in {Prepare, Queue} ==>
              g.requests[0].PostPrompt? && g.requests[1].OpenSocket?
              && GoStrings.TrimPrefix(g.requests[1].url, svc.monitor.wsURL + Monitor.ClientIdQuery)
                 == g.requests[0].clientID
  {
  }

  /** `NewClient`: the error of a failed first workflow load, as Go builds it. */
  function LoadErrorToGo(e: Workflow.LoadError, jsonCause: string): (g: AppErrors.GoError)
    ensures AppErrors.Technical(g)
    ensures g.Wrapped? && g.prefix == "load workflow"
    ensures e.ReadFailed? ==> AppErrors.Message(g) == "load workflow: read workflow file: " + e.cause
  {
    match e
    case ReadFailed(c) => AppErrors.Wrapped("load workflow", Cause("read workflow file", c))
    case InvalidJson => AppErrors.Wrapped("load workflow", Cause("invalid workflow JSON", jsonCause))
    case MissingPlaceholder =>
      AppErrors.Wrapped("load workflow", AppErrors.Plain("workflow must contain " + Workflow.PromptPlaceholder + " placeholder"))
  }
}

=== FILE: common.dfy ===
/** Shared vocabulary of the model: Go's 64-bit identifiers, optional values and
    results with an error, and wall-clock instants passed in as parameters. */
module Common {

  const MinInt64: int := -0x8000_0000_0000_0000
  const MaxInt64: int := 0x7FFF_FFFF_FFFF_FFFF

  /** Go's `int64`, used for Telegram user, chat and group identifiers. */
  type Int64 = x: int | MinInt64 <= x <= MaxInt64

  /** A `time.Time` reading; the model never consults a clock, callers pass instants in. */
  type Instant = int

  /** Go's nil-able pointer or "value, ok" pair. */
  datatype Option<+T> = None | Some(value: T)

  /** Go's "(value, error)" pair. */
  datatype Result<+T, +E> = Ok(value: T) | Err(error: E)
}

=== FILE: config.dfy ===
/** The configuration record and its validation; loading it from files and
    the environment is not modelled. */
module Config {
  import opened Common

  datatype TelegramConfig = TelegramConfig(botToken: string, allowedUsers: seq<Int64>,
                                           pollingTimeout: int, requestTimeout: int)
  datatype ComfyUIConfig = ComfyUIConfig(baseURL: string, webSocketURL: string,
                                         workflowPath: string, timeout: int)
  datatype ImageConfig = ImageConfig(jpegQuality: int)
  datatype LoggingConfig = LoggingConfig(level: string, jsonFormat: bool)

  /** `Config`; durations are whole nanoseconds. */
  datatype Config = Config(telegram: TelegramConfig, comfyUI: ComfyUIConfig,
                           image: ImageConfig, logging: LoggingConfig)

  /** The four rejections, in the order they are checked. */
  datatype ConfigError =
    | BotTokenRequired        // "telegram.bot_token is required"
    | AllowedUsersEmpty       // "telegram.allowed_users must contain at least one user ID"
    | WorkflowPathRequired    // "comfyui.workflow_path is required"
    | JpegQualityOutOfRange   // "image.jpeg_quality must be between 1 and 100"

  /** The conditions a usable configuration meets. */
  predicate TokenPresent(c: Config) { c.telegram.botToken != "" }
  predicate HasAllowedUsers(c: Config) { |c.telegram.allowedUsers| > 0 }
  predicate WorkflowPathPresent(c: Config) { c.comfyUI.workflowPath != "" }
  predicate QualityInRange(c: Config) { 1 <= c.image.jpegQuality <= 100 }

  /** `Validate`: accepts exactly when all four conditions hold, and otherwise
      reports the first one that fails; the remaining fields are not examined. */
  function Validate(c: Config): (err: Option<ConfigError>)
    ensures err.None? <==> TokenPresent(c) && HasAllowedUsers(c) && WorkflowPathPresent(c) && QualityInRange(c)
    ensures err == Some(BotTokenRequired) <==> !TokenPresent(c)
    ensures err == Some(AllowedUsersEmpty) <==> TokenPresent(c) && !HasAllowedUsers(c)
    ensures err == Some(WorkflowPathRequired) <==> TokenPresent(c) && HasAllowedUsers(c) && !WorkflowPathPresent(c)
    ensures err == Some(JpegQualityOutOfRange) <==>
              TokenPresent(c) && HasAllowedUsers(c) && WorkflowPathPresent(c) && !QualityInRange(c)
  {
    if c.telegram.botToken == "" then Some(BotTokenRequired)
    else if |c.telegram.allowedUsers| == 0 then Some(AllowedUsersEmpty)
    else if c.comfyUI.workflowPath == "" then Some(WorkflowPathRequired)
    else if c.image.jpegQuality < 1 || c.image.jpegQuality > 100 then Some(JpegQualityOutOfRange)
    else None
  }

  /** Only the token, the user list, the workflow path and the JPEG quality
      influence the verdict. */
  lemma ValidateReadsFourFields(c: Config, d: Config)
    requires c.telegram.botToken == d.telegram.botToken
    requires c.telegram.allowedUsers == d.telegram.allowedUsers
    requires c.comfyUI.workflowPath == d.comfyUI.workflowPath
    requires c.image.jpegQuality == d.image.jpegQuality
    ensures Validate(c) == Validate(d)
  {
  }
}

=== FILE: errors.dfy ===
/** Go error values as the bot builds them, and the user-facing view of an
    error: the first `UserError` found by unwrapping decides the message shown
    to the user and whether a retry is suggested. */
module AppErrors {
  import opened Common

  /** A non-nil Go error: a plain `errors.New`/`fmt.Errorf` without `%w`, an
      `fmt.Errorf("<prefix>: %w", cause)`, or a `*UserError`. */
  datatype GoError =
    | Plain(text: string)
    | Wrapped(prefix: string, cause: GoError)
    | User(err: GoError, userMsg: string, retryable: bool)

  /** `Error()`: a wrapper prints its prefix before the cause; a `UserError`
      prints only the technical error it carries. */
  function Message(e: GoError): string
  {
    match e
    case Plain(t) => t
    case Wrapped(p, c) => p + ": " + Message(c)
    case User(inner, _, _) => Message(inner)
  }

  /** `errors.Unwrap`. */
  function Unwrap(e: GoError): Option<GoError>
  {
    match e
    case Plain(_) => None
    case Wrapped(_, c) => Some(c)
    case User(inner, _, _) => Some(inner)
  }

  /** The errors `errors.As` visits: `e`, then what unwrapping yields, in turn. */
  function Chain(e: GoError): (c: seq<GoError>)
    ensures |c| >= 1 && c[0] == e
  {
    match e
    case Plain(_) => [e]
    case Wrapped(_, cause) => [e] + Chain(cause)
    case User(inner, _, _) => [e] + Chain(inner)
  }

  /** Index of the first `UserError` on the chain, or |Chain(e)| when there is none. */
  function FirstUser(e: GoError): (i: nat)
    ensures i <= |Chain(e)|
    ensures i < |Chain(e)| ==> Chain(e)[i].User?
    ensures forall j :: 0 <= j < i ==> !Chain(e)[j].User?
  {
    match e
    case User(_, _, _) => 0
    case Plain(_) => 1
    case Wrapped(_, cause) =>
      var k := FirstUser(cause);
      assert forall j :: 1 <= j < |Chain(e)| ==> Chain(e)[j] == Chain(cause)[j - 1];
      k + 1
  }

  const DefaultUserMessage: string := "An unexpected error occurred. Please try again later."

  /** `GetUserMessage`: the message of the first `UserError` on the chain, and the
      default text when there is none. */
  function GetUserMessage(e: GoError): (m: string)
    ensures FirstUser(e) < |Chain(e)| ==> m == Chain(e)[FirstUser(e)].userMsg
    ensures FirstUser(e) == |Chain(e)| ==> m == DefaultUserMessage
  {
    match e
    case User(_, msg, _) => msg
    case Plain(_) => DefaultUserMessage
    case Wrapped(_, cause) =>
      assert forall j :: 1 <= j < |Chain(e)| ==> Chain(e)[j] == Chain(cause)[j - 1];
      GetUserMessage(cause)
  }

  /** `IsRetryable`: the flag of the first `UserError` on the chain, false when there is none. */
  function IsRetryable(e: GoError): (b: bool)
    ensures FirstUser(e) < |Chain(e)| ==> b == Chain(e)[FirstUser(e)].retryable
    ensures FirstUser(e) == |Chain(e)| ==> !b
  {
    match e
    case User(_, _, r) => r
    case Plain(_) => false
    case Wrapped(_, cause) =>
      assert forall j :: 1 <= j < |Chain(e)| ==> Chain(e)[j] == Chain(cause)[j - 1];
      IsRetryable(cause)
  }

  /** `Wrap`: a `UserError` around `err`. */
  function Wrap(err: GoError, userMsg: string, retryable: bool): (u: GoError)
    ensures Message(u) == Message(err)
    ensures Unwrap(u) == Some(err)
    ensures GetUserMessage(u) == userMsg && IsRetryable(u) == retryable
  {
    User(err, userMsg, retryable)
  }

  /** Contains no `UserError` anywhere: the shape of every error the ComfyUI client builds. */
  predicate Technical(e: GoError)
  {
    match e
    case Plain(_) => true
    case Wrapped(_, c) => Technical(c)
    case User(_, _, _) => false
  }

  /** A technical error, however deeply wrapped, shows the user the default text
      and is never reported as retryable. */
  lemma {:induction false} TechnicalErrorsAreOpaque(e: GoError)
    requires Technical(e)
    ensures GetUserMessage(e) == DefaultUserMessage
    ensures !IsRetryable(e)
    ensures forall i :: 0 <= i < |Chain(e)| ==> !Chain(e)[i].User?
  {
    match e
    case Plain(_) =>
    case Wrapped(_, c) =>
      TechnicalErrorsAreOpaque(c);
      assert forall j :: 1 <= j < |Chain(e)| ==> Chain(e)[j] == Chain(c)[j - 1];
  }

  /** Wrapping with `%w` keeps what the user is told and the retry verdict, and
      only adds the prefix to the technical message. */
  lemma WrappingKeepsUserView(prefix: string, e: GoError)
    ensures GetUserMessage(Wrapped(prefix, e)) == GetUserMessage(e)
    ensures IsRetryable(Wrapped(prefix, e)) == IsRetryable(e)
    ensures Message(Wrapped(prefix, e)) == prefix + ": " + Message(e)
  {
    var w := Wrapped(prefix, e);
    assert forall j :: 1 <= j < |Chain(w)| ==> Chain(w)[j] == Chain(e)[j - 1];
  }

  /** The predefined errors. */
  datatype Predefined =
    | ComfyUIUnavailable
    | GenerationTimeout
    | InvalidWorkflow
    | PromptRejected
    | Unauthorized
    | GenerationInProgress

  /** The predefined error value: technical text, user text and retry flag. */
  function PredefinedError(p: Predefined): (e: GoError)
    ensures e.User? && e.err.Plain?
  {
    match p
    case ComfyUIUnavailable => User(Plain(UnavailableText), UnavailableMsg, true)
    case GenerationTimeout => User(Plain(TimeoutText), TimeoutMsg, true)
    case InvalidWorkflow => User(Plain(InvalidWorkflowText), InvalidWorkflowMsg, false)
    case PromptRejected => User(Plain(RejectedText), RejectedMsg, true)
    case Unauthorized => User(Plain(UnauthorizedText), UnauthorizedMsg, false)
    case GenerationInProgress => User(Plain(InProgressText), InProgressMsg, false)
  }

  const UnavailableText: string := "comfyui server unavailable"
  const UnavailableMsg: string := "The image generation service is currently unavailable. Please try again later."
  const TimeoutText: string := "generation timeout"
  const TimeoutMsg: string := "Image generation took too long and was cancelled. Try a simpler prompt."
  const InvalidWorkflowText: string := "invalid workflow"
  const InvalidWorkflowMsg: string := "There's a problem with the image generation configuration. Please contact the administrator."
  const RejectedText: string := "prompt rejected by comfyui"
  const RejectedMsg: string := "The prompt could not be processed. Please try rewording your request."
  const UnauthorizedText: string := "unauthorized user"
  const UnauthorizedMsg: string := "Sorry, you are not authorized to use this bot."
  const InProgressText: string := "generation already in progress"
  const InProgressMsg: string := "You already have a generation in progress. Please wait for it to complete."

  /** Exactly the service-side failures (unavailable, timeout, rejected prompt)
      invite a retry; however often a predefined error is wrapped, its user text
      comes through. */
  lemma PredefinedUserView(p: Predefined, prefixes: seq<string>)
    ensures IsRetryable(WrapAll(prefixes, PredefinedError(p)))
            <==> p.ComfyUIUnavailable? || p.GenerationTimeout? || p.PromptRejected?
    ensures GetUserMessage(WrapAll(prefixes, PredefinedError(p))) == PredefinedError(p).userMsg
  {
    var e := PredefinedError(p);
    WrapAllKeepsUserView(prefixes, e);
    assert Chain(e)[0] == e;
    assert FirstUser(e) == 0;
  }

  /** `fmt.Errorf("<p>: %w", ...)` applied once per prefix, the last prefix innermost. */
  function WrapAll(prefixes: seq<string>, e: GoError): GoError
    decreases |prefixes|
  {
    if |prefixes| == 0 then e else Wrapped(prefixes[0], WrapAll(prefixes[1..], e))
  }

  lemma {:induction false} WrapAllKeepsUserView(prefixes: seq<string>, e: GoError)
    ensures GetUserMessage(WrapAll(prefixes, e)) == GetUserMessage(e)
    ensures IsRetryable(WrapAll(prefixes, e)) == IsRetryable(e)
    decreases |prefixes|
  {
    if |prefixes| > 0 {
      WrapAllKeepsUserView(prefixes[1..], e);
      WrappingKeepsUserView(prefixes[0], WrapAll(prefixes[1..], e));
    }
  }
}

=== FILE: handlers.dfy ===
/** The chat-side decisions of the update handler for image requests: caption
    truncation, finding the bot's mention in a group message, the guards around
    a generation (minimum prompt length, one generation per user, the slot
    always given back), which files are delivered, and the settings buttons.
    Telegram calls are not performed; each handler returns the actions it would
    take, in order. Texts are ASCII byte strings. */
module Handlers {
  import opened Common
  import opened GoStrings
  import AppErrors
  import Limiter
  import Settings
  import Access

  /** Captions are cut to this many bytes. */
  const CaptionLimit: int := 200
  const Ellipsis: string := "..."
  const CaptionPrefix: string := "Prompt: "
  const OriginalCaption: string := "Original PNG"

  /** Trimmed prompts shorter than this are refused. */
  const MinPromptLength: int := 3
  const ShortPromptMsg: string := "Please provide a more detailed prompt (at least 3 characters)."
  const ProcessFailedMsg: string := "Failed to process the generated image."

  // ---------------------------------------------------------------- truncate

  /** `truncate`: a string that fits is returned as is; a longer one keeps its
      first `maxLen - 3` bytes followed by "...", so the result is exactly
      `maxLen` long. Cutting a string longer than `maxLen` below 3 would slice
      out of range, so callers pass at least 3. */
  function Truncate(s: string, maxLen: int): (r: string)
    requires |s| <= maxLen || maxLen >= 3
    ensures |s| <= maxLen <==> r == s
    ensures |r| == if |s| <= maxLen then |s| else maxLen
    ensures |s| > maxLen ==> HasPrefix(s, r[..maxLen - 3]) && r[maxLen - 3..] == Ellipsis
  {
    if |s| <= maxLen then s else s[..maxLen - 3] + Ellipsis
  }

  /** Truncating twice with the same limit is truncating once. */
  lemma TruncateIdempotent(s: string, maxLen: int)
    requires |s| <= maxLen || maxLen >= 3
    ensures Truncate(Truncate(s, maxLen), maxLen) == Truncate(s, maxLen)
  {
  }

  /** The caption that carries the prompt: "Prompt: " and the prompt cut to 200 bytes. */
  function Caption(prompt: string): (c: string)
    ensures |c| <= |CaptionPrefix| + CaptionLimit
    ensures HasPrefix(c, CaptionPrefix)
    ensures |prompt| <= CaptionLimit ==> c == CaptionPrefix + prompt
  {
    var t := Truncate(prompt, CaptionLimit);
    assert (CaptionPrefix + t)[..|CaptionPrefix|] == CaptionPrefix;
    CaptionPrefix + t
  }

  /** A prompt caption is never the plain "Original PNG" caption. */
  lemma CaptionIsNotPlain(prompt: string)
    ensures Caption(prompt) != OriginalCaption
  {
    assert Caption(prompt)[0] == CaptionPrefix[0];
  }

  // ---------------------------------------------------------------- mentions

  const MentionType: string := "mention"

  /** The handle `@name` matches the text case-insensitively at byte `i`. */
  predicate FoldedAt(text: string, handle: string, i: int)
  {
    0 <= i && i + |handle| <= |text| && EqualFold(text[i..i + |handle|], handle)
  }

  /** Every mention entity lies inside the text; slicing one that does not
      would be out of range. */
  predicate MentionsInBounds(text: string, entities: seq<Access.Entity>)
  {
    forall i :: 0 <= i < |entities| && entities[i].typ == MentionType ==>
      0 <= entities[i].offset && 0 <= entities[i].length && entities[i].offset + entities[i].length <= |text|
  }

  /** A mention entity whose text is the handle, ignoring case. */
  predicate IsBotMention(text: string, e: Access.Entity, handle: string)
  {
    && e.typ == MentionType
    && 0 <= e.offset && 0 <= e.length && e.offset + e.length <= |text|
    && EqualFold(text[e.offset..e.offset + e.length], handle)
  }

  /** The first entity that mentions the bot, in entity order. */
  function FindMention(text: string, entities: seq<Access.Entity>, handle: string): (r: Option<Access.Entity>)
    ensures r.Some? ==> exists i :: 0 <= i < |entities| && entities[i] == r.value
                                    && IsBotMention(text, entities[i], handle)
                                    && forall j :: 0 <= j < i ==> !IsBotMention(text, entities[j], handle)
    ensures r.None? ==> forall i :: 0 <= i < |entities| ==> !IsBotMention(text, entities[i], handle)
    decreases |entities|
  {
    if |entities| == 0 then None
    else if IsBotMention(text, entities[0], handle) then Some(entities[0])
    else
      var r := FindMention(text, entities[1..], handle);
      if r.Some? then
        assert exists i :: 0 <= i < |entities| && entities[i] == r.value
                           && IsBotMention(text, entities[i], handle)
                           && forall j :: 0 <= j < i ==> !IsBotMention(text, entities[j], handle) by {
          var i :| 0 <= i < |entities[1..]| && entities[1..][i] == r.value
                   && IsBotMention(text, entities[1..][i], handle)
                   && forall j :: 0 <= j < i ==> !IsBotMention(text, entities[1..][j], handle);
          assert entities[i + 1] == r.value;
          forall j | 0 <= j < i + 1 ensures !IsBotMention(text, entities[j], handle) {
            if j > 0 { assert entities[j] == entities[1..][j - 1]; }
          }
        }
        r
      else
        assert forall i :: 1 <= i < |entities| ==> entities[i] == entities[1..][i - 1];
        r
  }

  /** The prompt around a mention: both sides joined by one space when both are
      non-empty, otherwise whichever side is non-empty. */
  function JoinAround(before: string, after: string): (p: string)
    ensures p == "" <==> before == "" && after == ""
    ensures before != "" && after != "" ==> p == before + " " + after
    ensures before == "" || after == "" ==> p == before + after
    ensures p != "" ==> p[0] == (if before != "" then before[0] else after[0])
    ensures p != "" ==> p[|p| - 1] == (if after != "" then after[|after| - 1] else before[|before| - 1])
  {
    if before != "" && after != "" then before + " " + after
    else if before != "" then before
    else after
  }

  /** The result of `parseBotMention`: the prompt and whether the bot was mentioned. */
  datatype Mention = Mention(prompt: string, found: bool)

  /** Lower-casing commutes with slicing. */
  lemma ToLowerSlice(s: string, i: int, j: int)
    requires 0 <= i <= j <= |s|
    ensures ToLower(s)[i..j] == ToLower(s[i..j])
  {
  }

  /** Matching the lower-cased handle in the lower-cased text is matching the
      handle case-insensitively. */
  lemma FoldedAtIffLowerOccurs(text: string, handle: string, i: int)
    ensures FoldedAt(text, handle, i) <==> OccursAt(ToLower(text), ToLower(handle), i)
  {
    if 0 <= i && i + |handle| <= |text| {
      ToLowerSlice(text, i, i + |handle|);
    }
  }

  /** The entity path: the trimmed text before and after the mention, joined. */
  function EntityPrompt(text: string, e: Access.Entity): (p: string)
    requires 0 <= e.offset && 0 <= e.length && e.offset + e.length <= |text|
    ensures p != "" ==> !IsSpace(p[0]) && !IsSpace(p[|p| - 1])
  {
    JoinAround(TrimSpace(text[..e.offset]), TrimSpace(text[e.offset + e.length..]))
  }

  /** `i` is the first byte where the handle matches, ignoring case. */
  predicate FirstFoldedAt(text: string, handle: string, i: int)
  {
    FoldedAt(text, handle, i) && forall j :: 0 <= j < i ==> !FoldedAt(text, handle, j)
  }

  /** The text with the handle's occurrence at `i` cut out, trimmed. */
  function CutAt(text: string, handle: string, i: int): (p: string)
    requires FoldedAt(text, handle, i)
    ensures p != "" ==> !IsSpace(p[0]) && !IsSpace(p[|p| - 1])
  {
    TrimSpace(text[..i] + text[i + |handle|..])
  }

  /** The fallback path: the first case-insensitive occurrence of the handle is
      cut out of the original text and the rest trimmed. */
  function FallbackPrompt(text: string, handle: string): (p: string)
    requires exists i :: FoldedAt(text, handle, i)
    ensures p != "" ==> !IsSpace(p[0]) && !IsSpace(p[|p| - 1])
    ensures exists i :: FirstFoldedAt(text, handle, i) && p == CutAt(text, handle, i)
  {
    ContainsIffFolded(text, handle);
    var idx := Index(ToLower(text), ToLower(handle));
    FirstFolded(text, handle);
    assert FirstFoldedAt(text, handle, idx);
    CutAt(text, handle, idx)
  }

  /** `parseBotMention`: no prompt for an empty text or one without the bot's
      handle (in any case). Otherwise the prompt is taken around the first
      mention entity naming the bot; when no entity does, the first
      case-insensitive occurrence of the handle is cut out instead. Either way
      the prompt has no surrounding white space. */
  function ParseBotMention(msg: Access.Message, botUserName: string): (r: Mention)
    requires MentionsInBounds(msg.text, msg.entities)
    ensures !r.found ==> r.prompt == ""
    ensures r.found <==> exists i :: FoldedAt(msg.text, "@" + botUserName, i)
    ensures r.prompt != "" ==> !IsSpace(r.prompt[0]) && !IsSpace(r.prompt[|r.prompt| - 1])
    ensures r.found && FindMention(msg.text, msg.entities, "@" + botUserName).Some? ==>
              r.prompt == EntityPrompt(msg.text, FindMention(msg.text, msg.entities, "@" + botUserName).value)
    ensures r.found && FindMention(msg.text, msg.entities, "@" + botUserName).None? ==>
              r.prompt == FallbackPrompt(msg.text, "@" + botUserName)
  {
    var text := msg.text;
    var handle := "@" + botUserName;
    ContainsIffFolded(text, handle);
    if text == "" || !Contains(ToLower(text), ToLower(handle)) then Mention("", false)
    else
      match FindMention(text, msg.entities, handle)
      case Some(e) => Mention(EntityPrompt(text, e), true)
      case None => Mention(FallbackPrompt(text, handle), true)
  }

  /** The handle occurs in the lower-cased text exactly when it matches the
      text somewhere, ignoring case. */
  lemma ContainsIffFolded(text: string, handle: string)
    ensures Contains(ToLower(text), ToLower(handle)) <==> exists i :: FoldedAt(text, handle, i)
  {
    if Contains(ToLower(text), ToLower(handle)) {
      var i :| 0 <= i <= |ToLower(text)| && OccursAt(ToLower(text), ToLower(handle), i);
      FoldedAtIffLowerOccurs(text, handle, i);
    }
    if exists i :: FoldedAt(text, handle, i) {
      var i :| FoldedAt(text, handle, i);
      FoldedAtIffLowerOccurs(text, handle, i);
      assert 0 <= i <= |ToLower(text)|;
    }
  }

  /** The index found in the lower-cased text is the first case-insensitive match. */
  lemma FirstFolded(text: string, handle: string)
    requires Index(ToLower(text), ToLower(handle)) >= 0
    ensures var i := Index(ToLower(text), ToLower(handle));
            FoldedAt(text, handle, i) && forall j :: 0 <= j < i ==> !FoldedAt(text, handle, j)
  {
    var i := Index(ToLower(text), ToLower(handle));
    FoldedAtIffLowerOccurs(text, handle, i);
    forall j | 0 <= j < i ensures !FoldedAt(text, handle, j) {
      FoldedAtIffLowerOccurs(text, handle, j);
    }
  }

  // ------------------------------------------------------------- generation

  /** What a handler asks Telegram to do. The status message is "Generating
      your image..."; the photo is the compressed JPEG, the document the
      original PNG. */
  datatype Action =
    | SendText(text: string)
    | SendStatus
    | DeleteStatus
    | SendPhoto(caption: string)
    | SendDocument(caption: string)

  predicate IsFile(a: Action)
  {
    a.SendPhoto? || a.SendDocument?
  }

  predicate SendsPhoto(acts: seq<Action>)
  {
    exists i :: 0 <= i < |acts| && acts[i].SendPhoto?
  }

  predicate SendsDocument(acts: seq<Action>)
  {
    exists i :: 0 <= i < |acts| && acts[i].SendDocument?
  }

  /** One run of a prompt handler: the gate afterwards, the gate while the
      generation ran (None when no generation started), the prompt given to the
      generator, and the actions taken. */
  datatype PromptRun = PromptRun(limiter: Limiter.UserLimiter, holding: Option<Limiter.UserLimiter>,
                                 prompt: Option<string>, actions: seq<Action>)

  /** The generation went through and the image was processed. */
  predicate Produced(generate: string -> Result<string, AppErrors.GoError>, process: string -> bool, prompt: string)
  {
    generate(prompt).Ok? && process(generate(prompt).value)
  }

  /** The shared body of `handlePrompt` and `handleGroupPrompt`. The prompt is
      trimmed and a short one refused before the gate is touched; then the
      user's slot is taken, or the request refused when the user already holds
      one (or the global cap is reached); the status message is sent, the image
      generated and processed, and `deliver` sent only when both succeed. The
      slot is given back on every path after it was taken. `statusShown` says
      whether sending the status message succeeded (only then is it deleted);
      `generate` is `GenerateImage` and `process` the image processor's verdict. */
  function RunPrompt(lim: Limiter.UserLimiter, userID: Int64, raw: string, statusShown: bool,
                     generate: string -> Result<string, AppErrors.GoError>, process: string -> bool,
                     deliver: seq<Action>): (r: PromptRun)
    ensures r.limiter == lim
    ensures |TrimSpace(raw)| < MinPromptLength ==> r.actions == [SendText(ShortPromptMsg)] && r.holding.None?
    ensures r.holding.Some? <==> |TrimSpace(raw)| >= MinPromptLength && Limiter.TryAcquire(lim, userID).granted
    ensures |TrimSpace(raw)| >= MinPromptLength && !Limiter.TryAcquire(lim, userID).granted ==>
              r.actions == [SendText(AppErrors.InProgressMsg)]
    ensures r.holding.Some? ==> r.holding.value == Limiter.TryAcquire(lim, userID).next
                                && userID in r.holding.value.activeUsers
    ensures r.prompt.Some? <==> r.holding.Some?
    ensures r.prompt.Some? ==> r.prompt.value == TrimSpace(raw)
    ensures r.prompt.Some? && generate(r.prompt.value).Err? ==>
              r.actions == [SendStatus, SendText(AppErrors.GetUserMessage(generate(r.prompt.value).error))]
                           + (if statusShown then [DeleteStatus] else [])
    ensures r.prompt.Some? && generate(r.prompt.value).Ok? && !process(generate(r.prompt.value).value) ==>
              r.actions == [SendStatus, SendText(ProcessFailedMsg)]
    ensures r.prompt.Some? && Produced(generate, process, r.prompt.value) ==>
              r.actions == [SendStatus] + (if statusShown then [DeleteStatus] else []) + deliver
    ensures !(r.prompt.Some? && Produced(generate, process, r.prompt.value)) ==>
              forall i :: 0 <= i < |r.actions| ==> !IsFile(r.actions[i])
  {
    var prompt := TrimSpace(raw);
    if |prompt| < MinPromptLength then PromptRun(lim, None, None, [SendText(ShortPromptMsg)])
    else
      var acq := Limiter.TryAcquire(lim, userID);
      if !acq.granted then PromptRun(acq.next, None, None, [SendText(AppErrors.InProgressMsg)])
      else
        Limiter.ReleaseUndoesAcquire(lim, userID);
        var after := Limiter.Release(acq.next, userID);
        var cleanup := if statusShown then [DeleteStatus] else [];
        match generate(prompt)
        case Err(e) =>
          PromptRun(after, Some(acq.next), Some(prompt), [SendStatus, SendText(AppErrors.GetUserMessage(e))] + cleanup)
        case Ok(data) =>
          if !process(data) then PromptRun(after, Some(acq.next), Some(prompt), [SendStatus, SendText(ProcessFailedMsg)])
          else PromptRun(after, Some(acq.next), Some(prompt), [SendStatus] + cleanup + deliver)
  }

  /** While one request of a user is generating, a second one of the same user
      is refused without reaching the generator. */
  lemma SecondRequestRefused(lim: Limiter.UserLimiter, userID: Int64, raw: string, statusShown: bool,
                             generate: string -> Result<string, AppErrors.GoError>, process: string -> bool,
                             deliver: seq<Action>, raw2: string, deliver2: seq<Action>)
    requires RunPrompt(lim, userID, raw, statusShown, generate, process, deliver).holding.Some?
    requires |TrimSpace(raw2)| >= MinPromptLength
    ensures var busy := RunPrompt(lim, userID, raw, statusShown, generate, process, deliver).holding.value;
            var second := RunPrompt(busy, userID, raw2, statusShown, generate, process, deliver2);
            second.prompt.None? && second.actions == [SendText(AppErrors.InProgressMsg)]
  {
  }

  /** The files a private chat receives for a finished image. The stored
      settings decide; when they cannot be read both files are sent. The photo
      carries the prompt; the document carries it only when no photo is sent. */
  function Deliveries(s: Result<Settings.UserSettings, Settings.SettingsError>, prompt: string): (acts: seq<Action>)
    ensures SendsPhoto(acts) <==> s.Err? || s.value.sendCompressed
    ensures SendsDocument(acts) <==> s.Err? || s.value.sendOriginal
    ensures forall i :: 0 <= i < |acts| ==> IsFile(acts[i])
    ensures forall i :: 0 <= i < |acts| && acts[i].SendPhoto? ==> acts[i].caption == Caption(prompt)
    ensures forall i :: 0 <= i < |acts| && acts[i].SendDocument? ==>
              (acts[i].caption == Caption(prompt) <==> !SendsPhoto(acts))
              && (SendsPhoto(acts) ==> acts[i].caption == OriginalCaption)
    ensures forall i, j :: 0 <= i < j < |acts| ==> acts[i].SendPhoto? && acts[j].SendDocument?
  {
    var compressed := s.Err? || s.value.sendCompressed;
    var original := s.Err? || s.value.sendOriginal;
    CaptionIsNotPlain(prompt);
    var photo := if compressed then [SendPhoto(Caption(prompt))] else [];
    var doc := if original then [SendDocument(if compressed then OriginalCaption else Caption(prompt))] else [];
    assert SendsPhoto(photo + doc) <==> compressed by {
      if compressed { assert (photo + doc)[0].SendPhoto?; }
    }
    assert SendsDocument(photo + doc) <==> original by {
      if original { assert (photo + doc)[|photo|].SendDocument?; }
    }
    photo + doc
  }

  /** Settings that pass validation always get at least one file. */
  lemma ValidSettingsDeliverAFile(s: Settings.UserSettings, prompt: string)
    requires Settings.Validate(s).None?
    ensures |Deliveries(Ok(s), prompt)| >= 1
  {
    if s.sendCompressed {
      assert SendsPhoto(Deliveries(Ok(s), prompt));
    } else {
      assert SendsDocument(Deliveries(Ok(s), prompt));
    }
  }

  /** With all-off defaults (which the configuration does not reject) a user
      without a settings row receives no file for a finished image. */
  lemma AllOffDefaultsDeliverNothing(table: map<Int64, (bool, bool)>, userID: Int64, prompt: string)
    requires userID !in table
    ensures Deliveries(Settings.Get(Settings.SettingsStore(table, Settings.DefaultSettings(false, false)), userID, None),
                       prompt) == []
  {
  }

  /** `handlePrompt` (private chats): the prompt guards, then the files the
      user's settings ask for. */
  function HandlePrompt(lim: Limiter.UserLimiter, userID: Int64, text: string, statusShown: bool,
                        generate: string -> Result<string, AppErrors.GoError>, process: string -> bool,
                        st: Settings.SettingsStore, settingsErr: Option<string>): (r: PromptRun)
    ensures r.limiter == lim
    ensures r.prompt.Some? <==> |TrimSpace(text)| >= MinPromptLength && Limiter.TryAcquire(lim, userID).granted
    ensures r.prompt.Some? && Produced(generate, process, r.prompt.value) ==>
              var acts := r.actions;
              (SendsPhoto(acts) <==> settingsErr.Some? || Settings.Get(st, userID, None).value.sendCompressed)
              && (SendsDocument(acts) <==> settingsErr.Some? || Settings.Get(st, userID, None).value.sendOriginal)
    ensures !(r.prompt.Some? && Produced(generate, process, r.prompt.value)) ==>
              !SendsPhoto(r.actions) && !SendsDocument(r.actions)
  {
    var deliver := Deliveries(Settings.Get(st, userID, settingsErr), TrimSpace(text));
    FilesAfterStatus([SendStatus] + (if statusShown then [DeleteStatus] else []), deliver);
    RunPrompt(lim, userID, text, statusShown, generate, process, deliver)
  }

  /** Status actions in front of the files do not change which files are sent. */
  lemma FilesAfterStatus(pre: seq<Action>, deliver: seq<Action>)
    requires forall i :: 0 <= i < |pre| ==> !IsFile(pre[i])
    ensures SendsPhoto(pre + deliver) <==> SendsPhoto(deliver)
    ensures SendsDocument(pre + deliver) <==> SendsDocument(deliver)
  {
    var acts := pre + deliver;
    if SendsPhoto(deliver) {
      var i :| 0 <= i < |deliver| && deliver[i].SendPhoto?;
      assert acts[|pre| + i] == deliver[i];
    }
    if SendsPhoto(acts) {
      var i :| 0 <= i < |acts| && acts[i].SendPhoto?;
      assert !IsFile(acts[i]) || (i >= |pre| && acts[i] == deliver[i - |pre|]);
    }
    if SendsDocument(deliver) {
      var i :| 0 <= i < |deliver| && deliver[i].SendDocument?;
      assert acts[|pre| + i] == deliver[i];
    }
    if SendsDocument(acts) {
      var i :| 0 <= i < |acts| && acts[i].SendDocument?;
      assert !IsFile(acts[i]) || (i >= |pre| && acts[i] == deliver[i - |pre|]);
    }
  }

  /** `handleGroupPrompt`: the same guards; a group receives only the photo,
      captioned with the prompt. */
  function HandleGroupPrompt(lim: Limiter.UserLimiter, userID: Int64, prompt: string, statusShown: bool,
                             generate: string -> Result<string, AppErrors.GoError>, process: string -> bool)
    : (r: PromptRun)
    ensures r.limiter == lim
    ensures r.prompt.Some? <==> |TrimSpace(prompt)| >= MinPromptLength && Limiter.TryAcquire(lim, userID).granted
    ensures !SendsDocument(r.actions)
    ensures SendsPhoto(r.actions) <==> r.prompt.Some? && Produced(generate, process, r.prompt.value)
    ensures SendsPhoto(r.actions) ==> r.actions[|r.actions| - 1] == SendPhoto(Caption(TrimSpace(prompt)))
  {
    var deliver := [SendPhoto(Caption(TrimSpace(prompt)))];
    var r := RunPrompt(lim, userID, prompt, statusShown, generate, process, deliver);
    assert !SendsDocument(r.actions) by {
      if SendsDocument(r.actions) {
        var i :| 0 <= i < |r.actions| && r.actions[i].SendDocument?;
        assert IsFile(r.actions[i]);
      }
    }
    assert SendsPhoto(r.actions) <==> r.prompt.Some? && Produced(generate, process, r.prompt.value) by {
      if r.prompt.Some? && Produced(generate, process, r.prompt.value) {
        assert r.actions[|r.actions| - 1].SendPhoto?;
      }
      if SendsPhoto(r.actions) {
        var i :| 0 <= i < |r.actions| && r.actions[i].SendPhoto?;
        assert IsFile(r.actions[i]);
      }
    }
    r
  }

  // ----------------------------------------------------------- settings menu

  const SettingsPrefix: string := "settings:"
  const ToggleOriginal: string := "toggle_original"
  const ToggleCompressed: string := "toggle_compressed"

  /** The callback answers: "Failed to load settings", "Unknown action", "At
      least one format must be enabled", "Failed to save settings", "Settings updated". */
  datatype SettingsAnswer = LoadFailed | UnknownAction | NeedOneFormat | SaveFailed | Updated

  /** The table afterwards and the answer shown (None: the callback is not a settings button). */
  datatype SettingsReply = SettingsReply(store: Settings.SettingsStore, answer: Option<SettingsAnswer>)

  /** The settings after pressing a button: exactly the named flag is flipped. */
  function Toggle(s: Settings.UserSettings, action: string): (r: Option<Settings.UserSettings>)
    ensures r.Some? <==> action == ToggleOriginal || action == ToggleCompressed
    ensures r.Some? ==> r.value.userID == s.userID
                        && (r.value.sendOriginal != s.sendOriginal <==> action == ToggleOriginal)
                        && (r.value.sendCompressed != s.sendCompressed <==> action == ToggleCompressed)
  {
    if action == ToggleOriginal then Some(s.(sendOriginal := !s.sendOriginal))
    else if action == ToggleCompressed then Some(s.(sendCompressed := !s.sendCompressed))
    else None
  }

  /** `handleSettingsCallback`: only "settings:" buttons are handled. The
      user's settings are loaded, the named flag flipped, and the result saved
      only when it keeps a format enabled; an unknown action, a failed load, a
      refused toggle and a failed save all leave the table as it was. */
  function HandleSettingsCallback(st: Settings.SettingsStore, userID: Int64, data: string,
                                  getErr: Option<string>, saveErr: Option<string>): (r: SettingsReply)
    ensures !HasPrefix(data, SettingsPrefix) ==> r == SettingsReply(st, None)
    ensures r.answer != Some(Updated) ==> r.store == st
    ensures r.answer == Some(Updated) <==>
              HasPrefix(data, SettingsPrefix) && getErr.None? && saveErr.None?
              && Toggle(Settings.Get(st, userID, None).value, TrimPrefix(data, SettingsPrefix)).Some?
              && Settings.Validate(Toggle(Settings.Get(st, userID, None).value, TrimPrefix(data, SettingsPrefix)).value).None?
    ensures r.answer == Some(Updated) ==>
              Settings.Get(r.store, userID, None)
              == Ok(Toggle(Settings.Get(st, userID, None).value, TrimPrefix(data, SettingsPrefix)).value)
              && forall u :: u != userID ==> Settings.Get(r.store, u, None) == Settings.Get(st, u, None)
    ensures r.answer == Some(UnknownAction) <==>
              HasPrefix(data, SettingsPrefix) && getErr.None?
              && TrimPrefix(data, SettingsPrefix) != ToggleOriginal && TrimPrefix(data, SettingsPrefix) != ToggleCompressed
  {
    if !HasPrefix(data, SettingsPrefix) then SettingsReply(st, None)
    else
      var action := TrimPrefix(data, SettingsPrefix);
      match Settings.Get(st, userID, getErr)
      case Err(_) => SettingsReply(st, Some(LoadFailed))
      case Ok(current) =>
        match Toggle(current, action)
        case None => SettingsReply(st, Some(UnknownAction))
        case Some(next) =>
          if Settings.Validate(next).Some? then SettingsReply(st, Some(NeedOneFormat))
          else
            var saved := Settings.Save(st, next, saveErr);
            if saved.err.Some? then SettingsReply(st, Some(SaveFailed))
            else
              Settings.GetAfterSave(st, next, userID);
              assert forall u :: u != userID ==> Settings.Get(saved.store, u, None) == Settings.Get(st, u, None) by {
                forall u | u != userID ensures Settings.Get(saved.store, u, None) == Settings.Get(st, u, None) {
                  Settings.GetAfterSave(st, next, u);
                }
              }
              SettingsReply(saved.store, Some(Updated))
  }

  /** Pressing the same button twice, from settings that were valid, brings
      the user's view of the settings back to where it started. */
  lemma ToggleTwiceRestores(st: Settings.SettingsStore, userID: Int64, action: string)
    requires action == ToggleOriginal || action == ToggleCompressed
    requires Settings.Validate(Settings.Get(st, userID, None).value).None?
    requires HandleSettingsCallback(st, userID, SettingsPrefix + action, None, None).answer == Some(Updated)
    ensures var once := HandleSettingsCallback(st, userID, SettingsPrefix + action, None, None).store;
            var twice := HandleSettingsCallback(once, userID, SettingsPrefix + action, None, None);
            twice.answer == Some(Updated)
            && Settings.Get(twice.store, userID, None) == Settings.Get(st, userID, None)
  {
    var data := SettingsPrefix + action;
    assert HasPrefix(data, SettingsPrefix) && TrimPrefix(data, SettingsPrefix) == action by {
      assert data[..|SettingsPrefix|] == SettingsPrefix;
      assert data[|SettingsPrefix|..] == action;
    }
    var s0 := Settings.Get(st, userID, None).value;
    var once := HandleSettingsCallback(st, userID, data, None, None).store;
    var s1 := Toggle(s0, action).value;
    assert Settings.Get(once, userID, None) == Ok(s1);
    assert Toggle(s1, action) == Some(s0);
  }

  /** Every row the settings buttons write passes validation. */
  lemma SettingsCallbackKeepsRowsValid(st: Settings.SettingsStore, userID: Int64, data: string,
                                       getErr: Option<string>, saveErr: Option<string>)
    requires Settings.RowsValid(st)
    ensures Settings.RowsValid(HandleSettingsCallback(st, userID, data, getErr, saveErr).store)
  {
    var r := HandleSettingsCallback(st, userID, data, getErr, saveErr);
    if r.answer == Some(Updated) {
      var next := Toggle(Settings.Get(st, userID, None).value, TrimPrefix(data, SettingsPrefix)).value;
      Settings.SavePreservesValidRows(st, next, None);
      assert r.store == Settings.Save(st, next, None).store;
    }
  }
}

=== FILE: json_string.dfy ===
/** JSON string literals as Go's `encoding/json` writes them, and a decoder for
    string bodies following section 7 of RFC 8259 that serves as their partner.
    Text is a sequence of Unicode scalar values, so invalid UTF-8 (which Go
    replaces by U+FFFD) cannot arise. */
module JsonString {
  import opened Common
  import GoStrings

  /** Lower-case hexadecimal digit, as Go's encoder prints them. */
  function HexChar(d: nat): (c: char)
    requires d < 16
  {
    if d < 10 then ('0' as int + d) as char else ('a' as int + d - 10) as char
  }

  /** Value of a hexadecimal digit of either case. */
  function HexValue(c: char): Option<nat>
  {
    if '0' <= c <= '9' then Some(c as int - '0' as int)
    else if 'a' <= c <= 'f' then Some(c as int - 'a' as int + 10)
    else if 'A' <= c <= 'F' then Some(c as int - 'A' as int + 10)
    else None
  }

  /** Value of the four hexadecimal digits of a `\uXXXX` escape. */
  function Hex4(h: string): Option<nat>
    requires |h| == 4
  {
    match (HexValue(h[0]), HexValue(h[1]), HexValue(h[2]), HexValue(h[3]))
    case (Some(a), Some(b), Some(c), Some(d)) => Some(((a * 16 + b) * 16 + c) * 16 + d)
    case _ => None
  }

  /** `\uXXXX` for a code unit below 0x10000. */
  function UEscape(v: nat): (e: string)
    requires v < 0x10000
    ensures |e| == 6 && e[0] == '\\' && e[1] == 'u'
  {
    var v1 := v / 16;
    var v2 := v1 / 16;
    "\\u" + [HexChar(v2 / 16), HexChar(v2 % 16), HexChar(v1 % 16), HexChar(v % 16)]
  }

  /** Characters `json.Marshal` writes as `\u00XX` or `\u20XX`: the remaining
      control characters, the HTML-sensitive `<`, `>`, `&`, and the two
      JavaScript line terminators U+2028 and U+2029. */
  predicate NeedsUnicodeEscape(c: char)
  {
    c < ' ' || c == '<' || c == '>' || c == '&' || c as int == 0x2028 || c as int == 0x2029
  }

  /** How `json.Marshal` writes one character inside a string literal
      (Go 1.22 and later use the short forms `\b` and `\f`). */
  function EscapeChar(c: char): string
  {
    if c == '"' then "\\\""
    else if c == '\\' then "\\\\"
    else if c as int == 0x08 then "\\b"
    else if c as int == 0x0C then "\\f"
    else if c == '\n' then "\\n"
    else if c == '\r' then "\\r"
    else if c == '\t' then "\\t"
    else if NeedsUnicodeEscape(c) then UEscape(c as int)
    else [c]
  }

  /** A character that can stand unescaped in the output and is neither a control
      character nor one that Go escapes for HTML or JavaScript safety. */
  predicate SafeChar(c: char)
  {
    ' ' <= c && c != '<' && c != '>' && c != '&' && c as int != 0x2028 && c as int != 0x2029
  }

  /** The body of the string literal `json.Marshal` produces for `s`. */
  function EscapeBody(s: string): (r: string)
    ensures forall i :: 0 <= i < |r| ==> SafeChar(r[i])
    ensures |r| >= |s|
    decreases |s|
  {
    if |s| == 0 then "" else EscapeChar(s[0]) + EscapeBody(s[1..])
  }

  /** `json.Marshal` applied to a Go string: it never fails for string input. */
  function MarshalString(s: string): (r: Result<string, string>)
    ensures r.Ok? && |r.value| >= 2 && r.value[0] == '"' && r.value[|r.value| - 1] == '"'
  {
    Ok("\"" + EscapeBody(s) + "\"")
  }

  /** The hand-written escaper `sanitizeForJSON` falls back to when marshalling
      fails: five `strings.ReplaceAll` passes, backslash first. */
  function FallbackEscape(s: string): string
  {
    var s1 := GoStrings.ReplaceAll(s, "\\", "\\\\");
    var s2 := GoStrings.ReplaceAll(s1, "\"", "\\\"");
    var s3 := GoStrings.ReplaceAll(s2, "\n", "\\n");
    var s4 := GoStrings.ReplaceAll(s3, "\r", "\\r");
    GoStrings.ReplaceAll(s4, "\t", "\\t")
  }

  /** `sanitizeForJSON`: the marshalled literal without its surrounding quotes. */
  function SanitizeForJson(s: string): (r: string)
    ensures r == EscapeBody(s)
  {
    match MarshalString(s)
    case Err(_) => FallbackEscape(s)
    case Ok(quoted) => quoted[1..|quoted| - 1]
  }

  function Prepend(c: char, rest: Option<string>): Option<string>
  {
    match rest
    case None => None
    case Some(t) => Some([c] + t)
  }

  /** The character a two-character escape `\x` stands for. */
  function ShortEscape(x: char): Option<char>
  {
    if x == '"' then Some('"')
    else if x == '\\' then Some('\\')
    else if x == '/' then Some('/')
    else if x == 'b' then Some(8 as char)
    else if x == 'f' then Some(12 as char)
    else if x == 'n' then Some('\n')
    else if x == 'r' then Some('\r')
    else if x == 't' then Some('\t')
    else None
  }

  const Replacement: char := 0xFFFD as char

  /** Decodes the body of a JSON string literal (the text between the quotes).
      None when the body holds a raw quote, a raw control character, or a
      malformed escape. Surrogate pairs combine; a lone surrogate decodes to
      U+FFFD as in Go's decoder. */
  function Unescape(t: string): Option<string>
    decreases |t|
  {
    if |t| == 0 then Some("")
    else if t[0] == '\\' then
      if |t| < 2 then None
      else if t[1] == 'u' then
        if |t| < 6 then None
        else
          match Hex4(t[2..6])
          case None => None
          case Some(v) =>
            if 0xD800 <= v < 0xDC00 && |t| >= 12 && t[6] == '\\' && t[7] == 'u'
               && Hex4(t[8..12]).Some? && 0xDC00 <= Hex4(t[8..12]).value < 0xE000
            then
              var w := Hex4(t[8..12]).value;
              Prepend((0x10000 + (v - 0xD800) * 0x400 + (w - 0xDC00)) as char, Unescape(t[12..]))
            else if 0xD800 <= v < 0xE000 || v >= 0x110000 then Prepend(Replacement, Unescape(t[6..]))
            else Prepend(v as char, Unescape(t[6..]))
      else
        match ShortEscape(t[1])
        case None => None
        case Some(c) => Prepend(c, Unescape(t[2..]))
    else if t[0] == '"' || t[0] < ' ' then None
    else Prepend(t[0], Unescape(t[1..]))
  }

  lemma HexDigitRoundTrip(d: nat)
    requires d < 16
    ensures HexValue(HexChar(d)) == Some(d)
  {
  }

  lemma UEscapeDecodes(v: nat)
    requires v < 0x10000
    ensures Hex4(UEscape(v)[2..6]) == Some(v)
  {
    var v1 := v / 16;
    var v2 := v1 / 16;
    var h := UEscape(v)[2..6];
    assert h == [HexChar(v2 / 16), HexChar(v2 % 16), HexChar(v1 % 16), HexChar(v % 16)];
    HexDigitRoundTrip(v2 / 16);
    HexDigitRoundTrip(v2 % 16);
    HexDigitRoundTrip(v1 % 16);
    HexDigitRoundTrip(v % 16);
    assert v2 == (v2 / 16) * 16 + v2 % 16;
    assert v1 == v2 * 16 + v1 % 16;
    assert v == v1 * 16 + v % 16;
  }

  /** Decoding undoes the escape of one character, whatever follows it. */
  lemma UnescapeEscapeChar(c: char, t: string)
    ensures Unescape(EscapeChar(c) + t) == Prepend(c, Unescape(t))
  {
    var e := EscapeChar(c);
    var u := e + t;
    if c == '"' || c == '\\' || c as int == 0x08 || c as int == 0x0C || c == '\n' || c == '\r' || c == '\t' {
      assert |e| == 2 && u[0] == '\\' && u[1] == e[1];
      assert u[2..] == t;
    } else if NeedsUnicodeEscape(c) {
      UEscapeDecodes(c as int);
      assert u[0] == '\\' && u[1] == 'u';
      assert u[2..6] == e[2..6];
      assert u[6..] == t;
      assert (c as int) as char == c;
    } else {
      assert e == [c];
      assert u[1..] == t;
    }
  }

  /** Wrapping the sanitized text in quotes and decoding it yields the input. */
  lemma {:induction false} SanitizeRoundTrip(s: string)
    ensures Unescape(SanitizeForJson(s)) == Some(s)
    decreases |s|
  {
    if |s| > 0 {
      SanitizeRoundTrip(s[1..]);
      UnescapeEscapeChar(s[0], EscapeBody(s[1..]));
      assert [s[0]] + s[1..] == s;
    }
  }

  /** Escaping works character by character, so it distributes over concatenation. */
  lemma {:induction false} EscapeBodyConcat(a: string, b: string)
    ensures EscapeBody(a + b) == EscapeBody(a) + EscapeBody(b)
    decreases |a|
  {
    if |a| == 0 {
      assert a + b == b;
    } else {
      assert (a + b)[0] == a[0];
      assert (a + b)[1..] == a[1..] + b;
      EscapeBodyConcat(a[1..], b);
    }
  }

  /** A character `json.Marshal` copies unchanged. */
  predicate PlainChar(c: char)
  {
    SafeChar(c) && c != '"' && c != '\\'
  }

  /** Text made only of plain characters is its own escape. */
  lemma {:induction false} EscapeBodyPlain(s: string)
    requires forall i :: 0 <= i < |s| ==> PlainChar(s[i])
    ensures EscapeBody(s) == s
    decreases |s|
  {
    if |s| > 0 {
      EscapeBodyPlain(s[1..]);
      assert [s[0]] + s[1..] == s;
    }
  }

  /** Concatenation of `f` applied to every character. */
  function MapConcat(f: char -> string, s: string): string
    decreases |s|
  {
    if |s| == 0 then "" else f(s[0]) + MapConcat(f, s[1..])
  }

  lemma {:induction false} ReplaceCharDistributes(a: string, b: string, c: char, r: string)
    ensures GoStrings.ReplaceAll(a + b, [c], r)
            == GoStrings.ReplaceAll(a, [c], r) + GoStrings.ReplaceAll(b, [c], r)
    decreases |a|
  {
    if |a| > 0 {
      ReplaceCharDistributes(a[1..], b, c, r);
      assert (a + b)[1..] == a[1..] + b;
      assert (a + b)[..1] == a[..1] == [a[0]];
      if a[0] == c {
        assert GoStrings.ReplaceAll(a, [c], r) == r + GoStrings.ReplaceAll(a[1..], [c], r);
        assert GoStrings.ReplaceAll(a + b, [c], r) == r + GoStrings.ReplaceAll(a[1..] + b, [c], r);
      } else {
        assert GoStrings.ReplaceAll(a, [c], r) == [a[0]] + GoStrings.ReplaceAll(a[1..], [c], r);
        assert GoStrings.ReplaceAll(a + b, [c], r) == [a[0]] + GoStrings.ReplaceAll(a[1..] + b, [c], r);
      }
    } else {
      assert a + b == b;
    }
  }

  lemma {:induction false} ReplaceCharMapConcat(f: char -> string, s: string, c: char, r: string)
    ensures GoStrings.ReplaceAll(MapConcat(f, s), [c], r)
            == MapConcat(x => GoStrings.ReplaceAll(f(x), [c], r), s)
    decreases |s|
  {
    if |s| > 0 {
      ReplaceCharDistributes(f(s[0]), MapConcat(f, s[1..]), c, r);
      ReplaceCharMapConcat(f, s[1..], c, r);
    }
  }

  lemma {:induction false} MapConcatExtensional(f: char -> string, g: char -> string, s: string)
    requires forall x :: f(x) == g(x)
    ensures MapConcat(f, s) == MapConcat(g, s)
    decreases |s|
  {
    if |s| > 0 {
      MapConcatExtensional(f, g, s[1..]);
    }
  }

  lemma {:induction false} MapConcatSingletons(s: string)
    ensures MapConcat(x => [x], s) == s
    decreases |s|
  {
    if |s| > 0 {
      MapConcatSingletons(s[1..]);
      assert [s[0]] + s[1..] == s;
    }
  }

  /** What the five fallback passes do to one character. */
  function FallbackChar(x: char): string
  {
    if x == '\\' then "\\\\"
    else if x == '"' then "\\\""
    else if x == '\n' then "\\n"
    else if x == '\r' then "\\r"
    else if x == '\t' then "\\t"
    else [x]
  }

  /** Because the backslash pass runs first, the later passes never touch the
      backslashes it doubled: the passes together escape character by character. */
  lemma FallbackIsPerCharacter(s: string)
    ensures FallbackEscape(s) == MapConcat(FallbackChar, s)
  {
    var f0: char -> string := x => [x];
    var f1: char -> string := x => GoStrings.ReplaceAll(f0(x), "\\", "\\\\");
    var f2: char -> string := x => GoStrings.ReplaceAll(f1(x), "\"", "\\\"");
    var f3: char -> string := x => GoStrings.ReplaceAll(f2(x), "\n", "\\n");
    var f4: char -> string := x => GoStrings.ReplaceAll(f3(x), "\r", "\\r");
    var f5: char -> string := x => GoStrings.ReplaceAll(f4(x), "\t", "\\t");
    MapConcatSingletons(s);
    ReplaceCharMapConcat(f0, s, '\\', "\\\\");
    ReplaceCharMapConcat(f1, s, '"', "\\\"");
    ReplaceCharMapConcat(f2, s, '\n', "\\n");
    ReplaceCharMapConcat(f3, s, '\r', "\\r");
    ReplaceCharMapConcat(f4, s, '\t', "\\t");
    forall x ensures f5(x) == FallbackChar(x) {
      FallbackCharStep(x);
    }
    MapConcatExtensional(f5, FallbackChar, s);
  }

  lemma ReplaceSingle(x: char, c: char, r: string)
    ensures GoStrings.ReplaceAll([x], [c], r) == if x == c then r else [x]
  {
    assert [x][..1] == [x];
    assert [x][1..] == "";
  }

  /** A two-character text without the pattern character is left alone. */
  lemma ReplacePairAbsent(y: char, z: char, c: char, r: string)
    requires y != c && z != c
    ensures GoStrings.ReplaceAll([y, z], [c], r) == [y, z]
  {
    assert [y, z][..1] == [y];
    assert [y, z][1..] == [z];
    ReplaceSingle(z, c, r);
  }

  lemma FallbackCharStep(x: char)
    ensures GoStrings.ReplaceAll(GoStrings.ReplaceAll(GoStrings.ReplaceAll(GoStrings.ReplaceAll(
              GoStrings.ReplaceAll([x], "\\", "\\\\"), "\"", "\\\""), "\n", "\\n"), "\r", "\\r"), "\t", "\\t")
            == FallbackChar(x)
  {
    ReplaceSingle(x, '\\', "\\\\");
    var s1 := if x == '\\' then "\\\\" else [x];
    if x == '\\' {
      ReplacePairAbsent('\\', '\\', '"', "\\\"");
      ReplacePairAbsent('\\', '\\', '\n', "\\n");
      ReplacePairAbsent('\\', '\\', '\r', "\\r");
      ReplacePairAbsent('\\', '\\', '\t', "\\t");
    } else if x == '"' {
      ReplaceSingle(x, '"', "\\\"");
      ReplacePairAbsent('\\', '"', '\n', "\\n");
      ReplacePairAbsent('\\', '"', '\r', "\\r");
      ReplacePairAbsent('\\', '"', '\t', "\\t");
    } else if x == '\n' {
      ReplaceSingle(x, '"', "\\\"");
      ReplaceSingle(x, '\n', "\\n");
      ReplacePairAbsent('\\', 'n', '\r', "\\r");
      ReplacePairAbsent('\\', 'n', '\t', "\\t");
    } else if x == '\r' {
      ReplaceSingle(x, '"', "\\\"");
      ReplaceSingle(x, '\n', "\\n");
      ReplaceSingle(x, '\r', "\\r");
      ReplacePairAbsent('\\', 'r', '\t', "\\t");
    } else {
      ReplaceSingle(x, '"', "\\\"");
      ReplaceSingle(x, '\n', "\\n");
      ReplaceSingle(x, '\r', "\\r");
      ReplaceSingle(x, '\t', "\\t");
    }
  }

  /** Text whose only control characters are newline, carriage return and tab
      survives the fallback escaper: decoding its output gives the text back. */
  lemma {:induction false} FallbackRoundTrip(s: string)
    requires forall i :: 0 <= i < |s| ==> (s[i] >= ' ' || s[i] == '\n' || s[i] == '\r' || s[i] == '\t')
    ensures Unescape(FallbackEscape(s)) == Some(s)
    decreases |s|
  {
    FallbackIsPerCharacter(s);
    FallbackMapRoundTrip(s);
  }

  lemma {:induction false} FallbackMapRoundTrip(s: string)
    requires forall i :: 0 <= i < |s| ==> (s[i] >= ' ' || s[i] == '\n' || s[i] == '\r' || s[i] == '\t')
    ensures Unescape(MapConcat(FallbackChar, s)) == Some(s)
    decreases |s|
  {
    if |s| > 0 {
      var c := s[0];
      var t := MapConcat(FallbackChar, s[1..]);
      FallbackMapRoundTrip(s[1..]);
      var e := FallbackChar(c);
      var u := e + t;
      if c == '\\' || c == '"' || c == '\n' || c == '\r' || c == '\t' {
        assert |e| == 2 && u[0] == '\\' && u[1] == e[1];
        assert u[2..] == t;
      } else {
        assert e == [c];
        assert u[1..] == t;
      }
      assert [c] + s[1..] == s;
    }
  }

  /** Marshalling never fails for a string, so `sanitizeForJSON` never takes
      its fallback branch. */
  lemma FallbackUnreachable(s: string)
    ensures !MarshalString(s).Err?
  {
  }
}

=== FILE: limiter.dfy ===
/** The admission gate: at most one in-flight generation per user, with an
    optional global cap. Each operation is atomic (the mutex is not modelled);
    the state is an immutable value and every operation returns the next one. */
module Limiter {
  import opened Common

  /** `UserLimiter`: the set of active users, the cap (0 or less means no cap)
      and the running count. */
  datatype UserLimiter = UserLimiter(activeUsers: set<Int64>, maxGlobal: int, globalCount: int)

  /** The cap applies only when it is positive. */
  predicate AtCap(l: UserLimiter)
  {
    l.maxGlobal > 0 && l.globalCount >= l.maxGlobal
  }

  /** The gate's invariant: the count is the number of active users, and it
      never exceeds a positive cap. */
  ghost predicate Valid(l: UserLimiter)
  {
    && l.globalCount == |l.activeUsers|
    && (l.maxGlobal > 0 ==> l.globalCount <= l.maxGlobal)
  }

  /** `NewUserLimiter`: nobody active, count zero. */
  function NewUserLimiter(maxGlobalConcurrent: int): (l: UserLimiter)
    ensures Valid(l)
    ensures l.activeUsers == {} && l.maxGlobal == maxGlobalConcurrent
  {
    UserLimiter({}, maxGlobalConcurrent, 0)
  }

  /** Result of `TryAcquire`: the verdict and the next state. */
  datatype Acquire = Acquire(granted: bool, next: UserLimiter)

  /** `TryAcquire`: refuses an already active user, refuses at the cap, and
      otherwise admits the user. */
  function TryAcquire(l: UserLimiter, userID: Int64): (r: Acquire)
    ensures userID in l.activeUsers ==> !r.granted && r.next == l
    ensures AtCap(l) ==> !r.granted && r.next == l
    ensures r.granted <==> userID !in l.activeUsers && !AtCap(l)
    ensures r.granted ==> r.next.activeUsers == l.activeUsers + {userID}
                          && r.next.globalCount == l.globalCount + 1
                          && r.next.maxGlobal == l.maxGlobal
    ensures !r.granted ==> r.next == l
    ensures Valid(l) ==> Valid(r.next)
  {
    if userID in l.activeUsers then Acquire(false, l)
    else if AtCap(l) then Acquire(false, l)
    else Acquire(true, l.(activeUsers := l.activeUsers + {userID}, globalCount := l.globalCount + 1))
  }

  /** `Release`: frees the user's slot if it holds one; otherwise nothing happens. */
  function Release(l: UserLimiter, userID: Int64): (next: UserLimiter)
    ensures userID !in l.activeUsers ==> next == l
    ensures userID in l.activeUsers ==> next.activeUsers == l.activeUsers - {userID}
                                        && next.globalCount == l.globalCount - 1
                                        && next.maxGlobal == l.maxGlobal
    ensures userID !in next.activeUsers
    ensures Valid(l) ==> Valid(next) && next.globalCount >= 0
  {
    if userID in l.activeUsers
    then l.(activeUsers := l.activeUsers - {userID}, globalCount := l.globalCount - 1)
    else l
  }

  /** `ActiveCount`: on a valid gate, the number of active users. */
  function ActiveCount(l: UserLimiter): (n: int)
    ensures Valid(l) ==> n == |l.activeUsers| && n >= 0
    ensures Valid(l) && l.maxGlobal > 0 ==> n <= l.maxGlobal
  {
    l.globalCount
  }

  /** `IsUserActive`. */
  function IsUserActive(l: UserLimiter, userID: Int64): (active: bool)
    ensures active <==> userID in l.activeUsers
  {
    userID in l.activeUsers
  }

  /** Releasing right after a granted acquire restores the previous gate exactly. */
  lemma ReleaseUndoesAcquire(l: UserLimiter, userID: Int64)
    requires TryAcquire(l, userID).granted
    ensures Release(TryAcquire(l, userID).next, userID) == l
  {
    var n := TryAcquire(l, userID).next;
    assert n.activeUsers - {userID} == l.activeUsers;
  }

  /** The operations a sequence of requests performs on the gate. */
  datatype Op = AcquireOp(user: Int64) | ReleaseOp(user: Int64)

  function Apply(l: UserLimiter, op: Op): UserLimiter
  {
    match op
    case AcquireOp(u) => TryAcquire(l, u).next
    case ReleaseOp(u) => Release(l, u)
  }

  function Run(l: UserLimiter, ops: seq<Op>): UserLimiter
    decreases |ops|
  {
    if |ops| == 0 then l else Run(Apply(l, ops[0]), ops[1..])
  }

  /** After any sequence of acquires and releases from a fresh gate, including
      releases of users that never acquired, the count equals the number of
      active users, is never negative, and never exceeds a positive cap. */
  lemma {:induction false} RunKeepsInvariant(maxGlobal: int, ops: seq<Op>)
    ensures Valid(Run(NewUserLimiter(maxGlobal), ops))
    ensures ActiveCount(Run(NewUserLimiter(maxGlobal), ops)) >= 0
    ensures maxGlobal > 0 ==> ActiveCount(Run(NewUserLimiter(maxGlobal), ops)) <= maxGlobal
  {
    RunPreservesValid(NewUserLimiter(maxGlobal), ops);
    RunKeepsCap(NewUserLimiter(maxGlobal), ops);
  }

  lemma {:induction false} RunPreservesValid(l: UserLimiter, ops: seq<Op>)
    requires Valid(l)
    ensures Valid(Run(l, ops))
    decreases |ops|
  {
    if |ops| > 0 {
      RunPreservesValid(Apply(l, ops[0]), ops[1..]);
    }
  }

  lemma {:induction false} RunKeepsCap(l: UserLimiter, ops: seq<Op>)
    ensures Run(l, ops).maxGlobal == l.maxGlobal
    decreases |ops|
  {
    if |ops| > 0 {
      RunKeepsCap(Apply(l, ops[0]), ops[1..]);
    }
  }

  /** Without a cap, a user who is not active is always admitted. */
  lemma UncappedAdmitsIdleUser(l: UserLimiter, userID: Int64)
    requires l.maxGlobal <= 0 && userID !in l.activeUsers
    ensures TryAcquire(l, userID).granted
  {
  }
}

=== FILE: monitor.dfy ===
/** The execution monitor: one WebSocket session that waits for a single
    prompt to finish. The session's inputs are a finite sequence of events in
    the order the select loop receives them (decoded frames, ping ticks, a read
    failure, cancellation of the context); the wait is a fold over that sequence.
    Timers and deadlines are not clocks here: a deadline that expires shows up
    as the read failure it causes. */
module Monitor {
  import opened Common
  import GoStrings
  import AppErrors

  /** `ExecutionMonitor`: the WebSocket base URL and the client id, a fresh UUID
      chosen at creation (passed in, since randomness is not modelled). */
  datatype ExecutionMonitor = ExecutionMonitor(wsURL: string, clientID: string)

  const ClientIdQuery: string := "?clientId="

  /** The URL the monitor dials: the client id is the query's only value, so it
      can be read back off the URL. */
  function ConnectURL(m: ExecutionMonitor): (url: string)
    ensures GoStrings.HasPrefix(url, m.wsURL + ClientIdQuery)
    ensures GoStrings.TrimPrefix(url, m.wsURL + ClientIdQuery) == m.clientID
  {
    var url := m.wsURL + ClientIdQuery + m.clientID;
    assert url[..|m.wsURL + ClientIdQuery|] == m.wsURL + ClientIdQuery;
    url
  }

  /** The error `ctx.Err()` returns. */
  datatype CtxErr = Canceled | DeadlineExceeded

  /** Payload of an "executing" message; `node` is None for JSON `null` or a missing field. */
  datatype ExecutingData = ExecutingData(node: Option<string>, promptID: string)

  /** Payload of a "progress" message. */
  datatype ProgressData = ProgressData(value: int, max: int, promptID: string)

  /** A frame that decoded as a message: its type, its raw data text, and what
      decoding that data as each payload shape produces (None when it does not decode). */
  datatype WSMessage = WSMessage(typ: string, data: string,
                                 asExecuting: Option<ExecutingData>, asProgress: Option<ProgressData>)

  /** What the select loop can receive. A frame that is not a JSON message is
      dropped by the reader (`Frame(None)`). */
  datatype Event =
    | Frame(msg: Option<WSMessage>)
    | PingDue(writeError: Option<string>)
    | ReadError(normalClosure: bool, cause: string)
    | ContextDone(ctxErr: CtxErr)

  datatype MonitorError =
    | DialFailed(cause: string)
    | PingFailed(cause: string)
    | ClosedUnexpectedly
    | ReadFailed(cause: string)
    | ExecutionError(payload: string)

  /** How a wait ends; `Waiting` is a finite event trace that has not ended it. */
  datatype Outcome = Completed | Failed(error: MonitorError) | Cancelled(ctxErr: CtxErr) | Waiting

  /** One progress callback invocation. */
  datatype Progress = Progress(current: int, total: int)

  /** How one event is handled: keep waiting, possibly reporting progress, or return. */
  datatype Step = Continue(report: Option<Progress>) | Stop(outcome: Outcome)

  /** The "executing" message announcing that `promptID` has no node left to run. */
  predicate IsCompletion(promptID: string, ev: Event)
  {
    ev.Frame? && ev.msg.Some? && ev.msg.value.typ == "executing"
    && ev.msg.value.asExecuting == Some(ExecutingData(None, promptID))
  }

  /** A "progress" message about `promptID` whose payload decodes. */
  predicate IsOwnProgress(promptID: string, ev: Event)
  {
    ev.Frame? && ev.msg.Some? && ev.msg.value.typ == "progress"
    && ev.msg.value.asProgress.Some? && ev.msg.value.asProgress.value.promptID == promptID
  }

  /** Every event that ends the wait: completion, an execution error for any
      prompt, a failed ping, a read failure, or the context ending. */
  predicate IsTerminal(promptID: string, ev: Event)
  {
    match ev
    case Frame(m) => IsCompletion(promptID, ev) || (m.Some? && m.value.typ == "execution_error")
    case PingDue(w) => w.Some?
    case ReadError(_, _) => true
    case ContextDone(_) => true
  }

  /** One turn of the select loop. */
  function HandleEvent(promptID: string, hasCallback: bool, ev: Event): (s: Step)
    ensures s.Stop? <==> IsTerminal(promptID, ev)
    ensures s.Stop? ==> !s.outcome.Waiting?
    ensures s == Stop(Completed) <==> IsCompletion(promptID, ev)
    ensures s.Stop? && s.outcome.Cancelled? <==> ev.ContextDone?
    ensures s.Continue? && s.report.Some? <==> hasCallback && IsOwnProgress(promptID, ev)
    ensures ev.ReadError? ==>
              s == Stop(Failed(if ev.normalClosure then ClosedUnexpectedly else ReadFailed(ev.cause)))
    ensures ev.ContextDone? ==> s == Stop(Cancelled(ev.ctxErr))
    ensures ev.PingDue? && ev.writeError.Some? ==> s == Stop(Failed(PingFailed(ev.writeError.value)))
  {
    match ev
    case ContextDone(e) => Stop(Cancelled(e))
    case PingDue(w) =>
      if w.Some? then Stop(Failed(PingFailed(w.value))) else Continue(None)
    case ReadError(normal, cause) =>
      if normal then Stop(Failed(ClosedUnexpectedly)) else Stop(Failed(ReadFailed(cause)))
    case Frame(None) => Continue(None)
    case Frame(Some(msg)) =>
      if msg.typ == "executing" then
        match msg.asExecuting
        case None => Continue(None)
        case Some(d) => if d.promptID == promptID && d.node.None? then Stop(Completed) else Continue(None)
      else if msg.typ == "progress" then
        match msg.asProgress
        case None => Continue(None)
        case Some(p) =>
          if p.promptID == promptID && hasCallback then Continue(Some(Progress(p.value, p.max)))
          else Continue(None)
      else if msg.typ == "execution_error" then Stop(Failed(ExecutionError(msg.data)))
      else Continue(None)
  }

  /** Reference definition of the callback invocations: every own progress
      message, in order, when a callback was given. */
  function Reports(promptID: string, hasCallback: bool, events: seq<Event>): (rs: seq<Progress>)
    ensures !hasCallback ==> rs == []
    ensures |rs| <= |events|
    decreases |events|
  {
    if |events| == 0 then []
    else
      var here := if hasCallback && IsOwnProgress(promptID, events[0])
                  then [Progress(events[0].msg.value.asProgress.value.value, events[0].msg.value.asProgress.value.max)]
                  else [];
      here + Reports(promptID, hasCallback, events[1..])
  }

  /** The result of waiting: the outcome, the callback invocations made, and how
      many events were taken from the input. */
  datatype Wait = Wait(outcome: Outcome, reports: seq<Progress>, consumed: nat)

  function ReportOf(s: Step): seq<Progress>
  {
    if s.Continue? && s.report.Some? then [s.report.value] else []
  }

  /** The select loop over a connected session: the wait ends at the first
      terminal event, with that event's outcome, after reporting the progress
      messages before it; without a terminal event it is still waiting. */
  function Await(promptID: string, hasCallback: bool, events: seq<Event>): (r: Wait)
    ensures r.consumed <= |events|
    ensures r.outcome.Waiting? <==> forall i :: 0 <= i < |events| ==> !IsTerminal(promptID, events[i])
    ensures r.outcome.Waiting? ==> r.consumed == |events|
                                   && r.reports == Reports(promptID, hasCallback, events)
    ensures !r.outcome.Waiting? ==>
              && r.consumed >= 1
              && IsTerminal(promptID, events[r.consumed - 1])
              && (forall i :: 0 <= i < r.consumed - 1 ==> !IsTerminal(promptID, events[i]))
              && HandleEvent(promptID, hasCallback, events[r.consumed - 1]) == Stop(r.outcome)
              && r.reports == Reports(promptID, hasCallback, events[..r.consumed - 1])
    decreases |events|
  {
    if |events| == 0 then Wait(Waiting, [], 0)
    else
      match HandleEvent(promptID, hasCallback, events[0])
      case Stop(o) =>
        assert events[..0] == [];
        Wait(o, [], 1)
      case Continue(rep) =>
        var rest := Await(promptID, hasCallback, events[1..]);
        assert forall i :: 1 <= i < |events| ==> events[i] == events[1..][i - 1];
        assert !rest.outcome.Waiting? ==> events[1..][..rest.consumed - 1] == events[..rest.consumed][1..];
        var r := Wait(rest.outcome, ReportOf(HandleEvent(promptID, hasCallback, events[0])) + rest.reports,
                      rest.consumed + 1);
        r
  }

  /** `WaitForCompletion`: a failed dial returns before any event is looked at;
      otherwise the select loop runs. */
  function WaitForCompletion(dial: Option<string>, promptID: string, hasCallback: bool, events: seq<Event>)
    : (r: Wait)
    ensures dial.Some? ==> r == Wait(Failed(DialFailed(dial.value)), [], 0)
    ensures dial.None? && r.outcome.Completed? ==>
              exists i :: 0 <= i < |events| && IsCompletion(promptID, events[i])
    ensures dial.None? && (forall i :: 0 <= i < |events| ==> !IsTerminal(promptID, events[i]))
            ==> r.outcome.Waiting? && r.reports == Reports(promptID, hasCallback, events)
  {
    match dial
    case Some(cause) => Wait(Failed(DialFailed(cause)), [], 0)
    case None => Await(promptID, hasCallback, events)
  }

  /** The Go error value `WaitForCompletion` returns: none on completion, the
      context's own error on cancellation, a message per failure otherwise. */
  function OutcomeError(o: Outcome): (g: Option<AppErrors.GoError>)
    requires !o.Waiting?
    ensures g.None? <==> o.Completed?
    ensures g.Some? ==> AppErrors.Technical(g.value)
    ensures o.Failed? && o.error.ExecutionError? ==> AppErrors.Message(g.value) == "comfyui execution error: " + o.error.payload
    ensures o.Failed? && o.error.DialFailed? ==> AppErrors.Message(g.value) == "websocket dial: " + o.error.cause
    ensures o.Failed? && o.error.ReadFailed? ==> AppErrors.Message(g.value) == "websocket read: " + o.error.cause
    ensures o.Failed? && o.error.PingFailed? ==> AppErrors.Message(g.value) == "ping failed: " + o.error.cause
    ensures o.Failed? && o.error.ClosedUnexpectedly? ==> g == Some(AppErrors.Plain("websocket closed unexpectedly"))
    ensures o == Cancelled(Canceled) ==> g == Some(AppErrors.Plain("context canceled"))
    ensures o == Cancelled(DeadlineExceeded) ==> g == Some(AppErrors.Plain("context deadline exceeded"))
    ensures o.Cancelled? ==> g.value.Plain?
  {
    match o
    case Completed => None
    case Cancelled(Canceled) => Some(AppErrors.Plain("context canceled"))
    case Cancelled(DeadlineExceeded) => Some(AppErrors.Plain("context deadline exceeded"))
    case Failed(e) =>
      match e
      case DialFailed(c) => Some(AppErrors.Wrapped("websocket dial", AppErrors.Plain(c)))
      case PingFailed(c) => Some(AppErrors.Wrapped("ping failed", AppErrors.Plain(c)))
      case ClosedUnexpectedly => Some(AppErrors.Plain("websocket closed unexpectedly"))
      case ReadFailed(c) => Some(AppErrors.Wrapped("websocket read", AppErrors.Plain(c)))
      case ExecutionError(p) => Some(AppErrors.Plain("comfyui execution error: " + p))
  }

  /** Whatever arrives after the event that ended the wait is never looked at. */
  lemma {:induction false} LaterEventsIrrelevant(promptID: string, hasCallback: bool, a: seq<Event>, b: seq<Event>)
    requires !Await(promptID, hasCallback, a).outcome.Waiting?
    ensures Await(promptID, hasCallback, a + b) == Await(promptID, hasCallback, a)
    decreases |a|
  {
    assert |a| > 0;
    assert (a + b)[0] == a[0];
    if HandleEvent(promptID, hasCallback, a[0]).Continue? {
      assert (a + b)[1..] == a[1..] + b;
      LaterEventsIrrelevant(promptID, hasCallback, a[1..], b);
    }
  }

  /** An event the loop ignores (a dropped frame, a successful ping, a message of
      another type or about another prompt) can be inserted anywhere without
      changing the outcome or the progress reported. */
  lemma {:induction false} InertEventsIgnored(promptID: string, hasCallback: bool, a: seq<Event>, e: Event, b: seq<Event>)
    requires HandleEvent(promptID, hasCallback, e) == Continue(None)
    ensures Await(promptID, hasCallback, a + [e] + b).outcome == Await(promptID, hasCallback, a + b).outcome
    ensures Await(promptID, hasCallback, a + [e] + b).reports == Await(promptID, hasCallback, a + b).reports
    decreases |a|
  {
    if |a| == 0 {
      assert a + [e] + b == [e] + b;
      assert ([e] + b)[1..] == b;
      assert a + b == b;
    } else {
      assert (a + [e] + b)[0] == a[0];
      assert (a + b)[0] == a[0];
      if HandleEvent(promptID, hasCallback, a[0]).Continue? {
        assert (a + [e] + b)[1..] == a[1..] + [e] + b;
        assert (a + b)[1..] == a[1..] + b;
        InertEventsIgnored(promptID, hasCallback, a[1..], e, b);
      }
    }
  }

  /** An "executing" message completes the wait only for this prompt and only
      with a null node: a node name, even an empty one, means work remains. */
  lemma ExecutingWithNodeContinues(promptID: string, hasCallback: bool, msg: WSMessage, node: string)
    requires msg.typ == "executing" && msg.asExecuting == Some(ExecutingData(Some(node), promptID))
    ensures HandleEvent(promptID, hasCallback, Frame(Some(msg))) == Continue(None)
  {
  }

  /** An "execution_error" message fails the wait whatever prompt it concerns,
      carrying the raw payload. */
  lemma ExecutionErrorForAnyPrompt(p1: string, p2: string, hasCallback: bool, msg: WSMessage)
    requires msg.typ == "execution_error"
    ensures HandleEvent(p1, hasCallback, Frame(Some(msg))) == HandleEvent(p2, hasCallback, Frame(Some(msg)))
                                                          == Stop(Failed(ExecutionError(msg.data)))
  {
  }
}

=== FILE: settings.dfy ===
/** Per-user delivery settings: the validation rule and the settings table,
    which answers with the configured defaults for users without a row and
    writes only settings that pass validation. A database failure is an input
    (`dbErr`): the statement fails and the table is unchanged. */
module Settings {
  import opened Common

  /** `UserSettings`. */
  datatype UserSettings = UserSettings(userID: Int64, sendOriginal: bool, sendCompressed: bool)

  /** `DefaultSettings`, taken from the configuration without validation. */
  datatype DefaultSettings = DefaultSettings(sendOriginal: bool, sendCompressed: bool)

  /** `ErrAtLeastOneRequired`. */
  datatype SettingsError = AtLeastOneRequired | DbFailure(cause: string)

  /** `Validate`: at least one delivery format must stay enabled; the user id plays no part. */
  function Validate(s: UserSettings): (err: Option<SettingsError>)
    ensures err == Some(AtLeastOneRequired) <==> !s.sendOriginal && !s.sendCompressed
    ensures err.None? <==> s.sendOriginal || s.sendCompressed
  {
    if !s.sendOriginal && !s.sendCompressed then Some(AtLeastOneRequired) else None
  }

  /** The verdict depends on the flags alone. */
  lemma ValidateIgnoresUserID(s: UserSettings, other: Int64)
    ensures Validate(s.(userID := other)) == Validate(s)
  {
  }

  /** The configured defaults are not checked: an all-false default exists, and a
      user without a row then receives settings that would fail validation. */
  lemma UnvalidatedDefaultReachesUsers(table: map<Int64, (bool, bool)>, userID: Int64)
    requires userID !in table
    ensures Get(SettingsStore(table, DefaultSettings(false, false)), userID, None).Ok?
    ensures Validate(Get(SettingsStore(table, DefaultSettings(false, false)), userID, None).value)
            == Some(AtLeastOneRequired)
  {
  }

  /** The `user_settings` table, keyed by user id, and the defaults the store was opened with. */
  datatype SettingsStore = SettingsStore(table: map<Int64, (bool, bool)>, defaults: DefaultSettings)

  /** `Get`: the stored flags for a user with a row, the defaults stamped with
      the user's id for one without. */
  function Get(st: SettingsStore, userID: Int64, dbErr: Option<string>): (r: Result<UserSettings, SettingsError>)
    ensures r.Err? <==> dbErr.Some?
    ensures r.Ok? ==> r.value.userID == userID
    ensures r.Ok? && userID in st.table ==>
              (r.value.sendOriginal, r.value.sendCompressed) == st.table[userID]
    ensures r.Ok? && userID !in st.table ==>
              r.value.sendOriginal == st.defaults.sendOriginal && r.value.sendCompressed == st.defaults.sendCompressed
  {
    if dbErr.Some? then Err(DbFailure(dbErr.value))
    else if userID in st.table then
      Ok(UserSettings(userID, st.table[userID].0, st.table[userID].1))
    else Ok(UserSettings(userID, st.defaults.sendOriginal, st.defaults.sendCompressed))
  }

  datatype SaveResult = SaveResult(store: SettingsStore, err: Option<SettingsError>)

  /** `Save`: invalid settings are refused before anything is written;
      otherwise the row is inserted or replaced. */
  function Save(st: SettingsStore, us: UserSettings, dbErr: Option<string>): (r: SaveResult)
    ensures Validate(us).Some? ==> r == SaveResult(st, Some(AtLeastOneRequired))
    ensures r.err.None? <==> Validate(us).None? && dbErr.None?
    ensures r.err.Some? ==> r.store == st
    ensures r.err.None? ==> r.store.table == st.table[us.userID := (us.sendOriginal, us.sendCompressed)]
                            && r.store.defaults == st.defaults
  {
    match Validate(us)
    case Some(e) => SaveResult(st, Some(e))
    case None =>
      if dbErr.Some? then SaveResult(st, Some(DbFailure(dbErr.value)))
      else SaveResult(st.(table := st.table[us.userID := (us.sendOriginal, us.sendCompressed)]), None)
  }

  /** Reading back after a successful save gives the saved settings, and every
      other user reads what they read before. */
  lemma GetAfterSave(st: SettingsStore, us: UserSettings, other: Int64)
    requires Save(st, us, None).err.None?
    ensures Get(Save(st, us, None).store, us.userID, None) == Ok(us)
    ensures other != us.userID ==> Get(Save(st, us, None).store, other, None) == Get(st, other, None)
  {
  }

  /** Saving the same settings twice leaves the table as one save did. */
  lemma SaveIdempotent(st: SettingsStore, us: UserSettings)
    ensures Save(Save(st, us, None).store, us, None) == Save(st, us, None)
  {
  }

  /** Every row the table ever holds was valid when written: saving preserves
      "all rows valid", whatever is attempted. */
  ghost predicate RowsValid(st: SettingsStore)
  {
    forall u :: u in st.table ==> st.table[u].0 || st.table[u].1
  }

  lemma SavePreservesValidRows(st: SettingsStore, us: UserSettings, dbErr: Option<string>)
    requires RowsValid(st)
    ensures RowsValid(Save(st, us, dbErr).store)
  {
  }
}

=== FILE: strconv.dfy ===
/** Decimal formatting (`fmt`'s `%d`) and `strconv.ParseInt(s, 10, 64)`. */
module GoStrconv {
  import opened Common

  predicate IsDigit(c: char)
  {
    '0' <= c <= '9'
  }

  function DigitChar(d: nat): (c: char)
    requires d < 10
    ensures IsDigit(c)
  {
    ('0' as int + d) as char
  }

  function DigitValue(c: char): (d: nat)
    requires IsDigit(c)
    ensures d < 10
  {
    c as int - '0' as int
  }

  predicate AllDigits(s: string)
  {
    forall i :: 0 <= i < |s| ==> IsDigit(s[i])
  }

  /** The number a string of decimal digits denotes (most significant first). */
  function DigitsValue(s: string): nat
    requires AllDigits(s)
    decreases |s|
  {
    if |s| == 0 then 0 else DigitsValue(s[..|s| - 1]) * 10 + DigitValue(s[|s| - 1])
  }

  /** Shortest decimal rendering of a natural number. */
  function FormatNat(n: nat): (s: string)
    ensures |s| >= 1 && AllDigits(s)
    decreases n
  {
    if n < 10 then [DigitChar(n)] else FormatNat(n / 10) + [DigitChar(n % 10)]
  }

  /** `%d` / `strconv.FormatInt(n, 10)`. */
  function FormatInt(n: int): (s: string)
    ensures |s| >= 1
    ensures n >= 0 ==> AllDigits(s)
    ensures n < 0 ==> s[0] == '-' && AllDigits(s[1..])
  {
    if n < 0 then "-" + FormatNat(-n) else FormatNat(n)
  }

  /** `strconv.ParseInt(s, 10, 64)`: an optional sign followed by at least one
      decimal digit, within the int64 range; anything else is an error (None). */
  function ParseInt64(s: string): (r: Option<Int64>)
    ensures r.Some? ==> |s| >= 1
  {
    if |s| == 0 then None
    else
      var negative := s[0] == '-';
      var body := if s[0] == '-' || s[0] == '+' then s[1..] else s;
      if |body| == 0 || !AllDigits(body) then None
      else
        var magnitude := DigitsValue(body);
        var v: int := if negative then -(magnitude as int) else magnitude;
        if MinInt64 <= v <= MaxInt64 then Some(v) else None
  }

  lemma {:induction false} DigitsOfFormatNat(n: nat)
    ensures DigitsValue(FormatNat(n)) == n
    decreases n
  {
    var s := FormatNat(n);
    if n >= 10 {
      DigitsOfFormatNat(n / 10);
      var prefix := FormatNat(n / 10);
      assert s == prefix + [DigitChar(n % 10)];
      assert s[..|s| - 1] == prefix;
    }
  }

  /** Parsing what `%d` printed gives the number back, for every int64. */
  lemma ParseFormatRoundTrip(n: Int64)
    ensures ParseInt64(FormatInt(n)) == Some(n)
  {
    var k: int := n;
    if k < 0 {
      var m: nat := -k;
      var digits := FormatNat(m);
      DigitsOfFormatNat(m);
      var s := "-" + digits;
      assert FormatInt(n) == s;
      assert s[0] == '-';
      assert s[1..] == digits;
    } else {
      var m: nat := k;
      var digits := FormatNat(m);
      DigitsOfFormatNat(m);
      assert FormatInt(n) == digits;
      assert IsDigit(digits[0]);
    }
  }
}

=== FILE: strings.dfy ===
/** The parts of Go's `strings` package the bot relies on, over `string`.
    Case mapping and white space follow the ASCII subset of Go's Unicode tables. */
module GoStrings {

  /** `pat` occurs in `s` starting at index `i`. */
  predicate OccursAt(s: string, pat: string, i: int)
  {
    0 <= i && i + |pat| <= |s| && s[i..i + |pat|] == pat
  }

  /** `strings.Contains`. */
  predicate Contains(s: string, pat: string)
  {
    exists i :: 0 <= i <= |s| && OccursAt(s, pat, i)
  }

  /** `strings.HasPrefix`. */
  predicate HasPrefix(s: string, prefix: string)
  {
    |prefix| <= |s| && s[..|prefix|] == prefix
  }

  /** `strings.TrimPrefix`: drops `prefix` when `s` starts with it. */
  function TrimPrefix(s: string, prefix: string): (r: string)
    ensures HasPrefix(s, prefix) ==> prefix + r == s
    ensures !HasPrefix(s, prefix) ==> r == s
  {
    if HasPrefix(s, prefix) then s[|prefix|..] else s
  }

  /** First occurrence of `pat` in `s` at or after `from`, or -1. */
  function IndexFrom(s: string, pat: string, from: nat): (r: int)
    requires from <= |s| + 1
    ensures r == -1 || (from <= r && OccursAt(s, pat, r))
    ensures r == -1 ==> forall j :: from <= j ==> !OccursAt(s, pat, j)
    ensures r >= 0 ==> forall j :: from <= j < r ==> !OccursAt(s, pat, j)
    decreases |s| + 1 - from
  {
    if from + |pat| > |s| then -1
    else if s[from..from + |pat|] == pat then from
    else IndexFrom(s, pat, from + 1)
  }

  /** `strings.Index`: the first occurrence of `pat` in `s`, or -1 when there is none. */
  function Index(s: string, pat: string): (r: int)
    ensures r >= 0 <==> Contains(s, pat)
    ensures r >= 0 ==> OccursAt(s, pat, r) && forall j :: 0 <= j < r ==> !OccursAt(s, pat, j)
    ensures r >= -1
  {
    IndexFrom(s, pat, 0)
  }

  /** `strings.Split` with a non-empty separator: the pieces between the
      leftmost non-overlapping occurrences of `sep`. */
  function Split(s: string, sep: string): (parts: seq<string>)
    requires |sep| > 0
    ensures |parts| >= 1
    ensures HasPrefix(s, parts[0])
    decreases |s|
  {
    if |s| < |sep| then [s]
    else if s[..|sep|] == sep then [""] + Split(s[|sep|..], sep)
    else
      var rest := Split(s[1..], sep);
      [[s[0]] + rest[0]] + rest[1..]
  }

  /** `strings.Join`. */
  function Join(parts: seq<string>, sep: string): string
    requires |parts| >= 1
    decreases |parts|
  {
    if |parts| == 1 then parts[0] else parts[0] + sep + Join(parts[1..], sep)
  }

  /** `strings.ReplaceAll` with a non-empty pattern: one left-to-right pass that
      never rescans inserted text. */
  function ReplaceAll(s: string, pat: string, rep: string): string
    requires |pat| > 0
    decreases |s|
  {
    if |s| < |pat| then s
    else if s[..|pat|] == pat then rep + ReplaceAll(s[|pat|..], pat, rep)
    else [s[0]] + ReplaceAll(s[1..], pat, rep)
  }

  lemma JoinConsHead(c: char, rest: seq<string>, sep: string)
    requires |rest| >= 1
    ensures Join([[c] + rest[0]] + rest[1..], sep) == [c] + Join(rest, sep)
  {
    var p := [[c] + rest[0]] + rest[1..];
    assert p[1..] == rest[1..];
  }

  /** Splitting on `sep` and joining with `sep` gives back the input. */
  lemma {:induction false} JoinSplit(s: string, sep: string)
    requires |sep| > 0
    ensures Join(Split(s, sep), sep) == s
    decreases |s|
  {
    if |s| < |sep| {
    } else if s[..|sep|] == sep {
      var rest := Split(s[|sep|..], sep);
      JoinSplit(s[|sep|..], sep);
      assert ([""] + rest)[1..] == rest;
      assert s == sep + s[|sep|..];
    } else {
      var rest := Split(s[1..], sep);
      JoinSplit(s[1..], sep);
      JoinConsHead(s[0], rest, sep);
      assert s == [s[0]] + s[1..];
    }
  }

  /** No piece produced by `Split` contains the separator. */
  lemma {:induction false} SplitPiecesAvoidSep(s: string, sep: string)
    requires |sep| > 0
    ensures forall i :: 0 <= i < |Split(s, sep)| ==> !Contains(Split(s, sep)[i], sep)
    decreases |s|
  {
    var parts := Split(s, sep);
    if |s| < |sep| {
      assert parts == [s];
      forall j | OccursAt(s, sep, j) ensures false {}
    } else if s[..|sep|] == sep {
      var rest := Split(s[|sep|..], sep);
      SplitPiecesAvoidSep(s[|sep|..], sep);
      assert parts == [""] + rest;
      forall i | 0 <= i < |parts| ensures !Contains(parts[i], sep) {
        if i == 0 {
          forall j | OccursAt("", sep, j) ensures false {}
        } else {
          assert parts[i] == rest[i - 1];
        }
      }
    } else {
      var rest := Split(s[1..], sep);
      SplitPiecesAvoidSep(s[1..], sep);
      var head := [s[0]] + rest[0];
      assert parts == [head] + rest[1..];
      assert HasPrefix(s[1..], rest[0]);
      assert HasPrefix(s, head) by {
        assert s[..|head|] == [s[0]] + s[1..][..|rest[0]|];
      }
      forall i | 0 <= i < |parts| ensures !Contains(parts[i], sep) {
        if i == 0 {
          forall j | OccursAt(head, sep, j) ensures false {
            if j > 0 {
              assert head[j..j + |sep|] == rest[0][j - 1..j - 1 + |sep|];
              assert OccursAt(rest[0], sep, j - 1);
            }
          }
        } else {
          assert parts[i] == rest[i];
        }
      }
    }
  }

  /** `ReplaceAll` is splitting on the pattern and joining with the replacement. */
  lemma {:induction false} ReplaceAllIsJoinOfSplit(s: string, pat: string, rep: string)
    requires |pat| > 0
    ensures ReplaceAll(s, pat, rep) == Join(Split(s, pat), rep)
    decreases |s|
  {
    if |s| < |pat| {
    } else if s[..|pat|] == pat {
      var rest := Split(s[|pat|..], pat);
      ReplaceAllIsJoinOfSplit(s[|pat|..], pat, rep);
      assert ([""] + rest)[1..] == rest;
    } else {
      var rest := Split(s[1..], pat);
      ReplaceAllIsJoinOfSplit(s[1..], pat, rep);
      JoinConsHead(s[0], rest, rep);
    }
  }

  /** Replacing a pattern by itself is the identity: inserted text is never rescanned. */
  lemma ReplaceAllWithSelf(s: string, pat: string)
    requires |pat| > 0
    ensures ReplaceAll(s, pat, pat) == s
  {
    ReplaceAllIsJoinOfSplit(s, pat, pat);
    JoinSplit(s, pat);
  }

  /** A text without the pattern is left alone. */
  lemma {:induction false} ReplaceAllAbsent(s: string, pat: string, rep: string)
    requires |pat| > 0
    requires !Contains(s, pat)
    ensures ReplaceAll(s, pat, rep) == s
    decreases |s|
  {
    if |s| < |pat| {
    } else {
      if s[..|pat|] == pat {
        assert OccursAt(s, pat, 0);
      }
      forall j | 0 <= j <= |s[1..]| && OccursAt(s[1..], pat, j) ensures false {
        assert s[1..][j..j + |pat|] == s[j + 1..j + 1 + |pat|];
        assert OccursAt(s, pat, j + 1);
      }
      ReplaceAllAbsent(s[1..], pat, rep);
      assert s == [s[0]] + s[1..];
    }
  }

  /** Text before the first possible start of the pattern is copied through. */
  lemma {:induction false} ReplaceAllSkipsPrefix(a: string, b: string, pat: string, rep: string)
    requires |pat| > 0
    requires forall i :: 0 <= i < |a| ==> a[i] != pat[0]
    ensures ReplaceAll(a + b, pat, rep) == a + ReplaceAll(b, pat, rep)
    decreases |a|
  {
    if |a| == 0 {
      assert a + b == b;
    } else {
      var s := a + b;
      var tail := ReplaceAll(b, pat, rep);
      ReplaceAllSkipsPrefix(a[1..], b, pat, rep);
      assert s[1..] == a[1..] + b;
      assert ReplaceAll(s[1..], pat, rep) == a[1..] + tail;
      if |s| < |pat| {
        assert |b| < |pat|;
        assert tail == b;
      } else {
        assert s[..|pat|][0] == a[0];
        assert s[..|pat|] != pat;
        assert ReplaceAll(s, pat, rep) == [s[0]] + ReplaceAll(s[1..], pat, rep);
        assert [a[0]] + (a[1..] + tail) == a + tail;
      }
    }
  }

  /** An occurrence at the front is replaced and scanning resumes after it. */
  lemma ReplaceAllAtFront(t: string, pat: string, rep: string)
    requires |pat| > 0
    ensures ReplaceAll(pat + t, pat, rep) == rep + ReplaceAll(t, pat, rep)
  {
    assert (pat + t)[..|pat|] == pat;
    assert (pat + t)[|pat|..] == t;
  }

  /** White space recognised by `strings.TrimSpace` in ASCII text. */
  predicate IsSpace(c: char)
  {
    c == ' ' || c == '\t' || c == '\n' || c == '\r' || c as int == 0x0B || c as int == 0x0C
  }

  /** Number of leading white-space characters. */
  function LeadingSpaces(s: string): (n: nat)
    ensures n <= |s|
    ensures forall k :: 0 <= k < n ==> IsSpace(s[k])
    ensures n < |s| ==> !IsSpace(s[n])
    decreases |s|
  {
    if |s| > 0 && IsSpace(s[0]) then 1 + LeadingSpaces(s[1..]) else 0
  }

  /** Number of trailing white-space characters. */
  function TrailingSpaces(s: string): (n: nat)
    ensures n <= |s|
    ensures forall k :: |s| - n <= k < |s| ==> IsSpace(s[k])
    ensures n < |s| ==> !IsSpace(s[|s| - n - 1])
    decreases |s|
  {
    if |s| > 0 && IsSpace(s[|s| - 1]) then 1 + TrailingSpaces(s[..|s| - 1]) else 0
  }

  /** `strings.TrimSpace`: the largest slice of `s` that neither starts nor ends
      with white space, obtained by dropping only white space. */
  function TrimSpace(s: string): (r: string)
    ensures exists i, j :: 0 <= i <= j <= |s| && r == s[i..j]
                           && (forall k :: 0 <= k < i ==> IsSpace(s[k]))
                           && (forall k :: j <= k < |s| ==> IsSpace(s[k]))
    ensures r != "" ==> !IsSpace(r[0]) && !IsSpace(r[|r| - 1])
    ensures |r| <= |s|
  {
    var a := LeadingSpaces(s);
    var t := s[a..];
    var b := TrailingSpaces(t);
    var r := t[..|t| - b];
    assert r == s[a..|s| - b];
    r
  }

  /** `unicode.ToLower` on ASCII letters. */
  function LowerChar(c: char): char
  {
    if 'A' <= c <= 'Z' then (c as int + 32) as char else c
  }

  /** `strings.ToLower` on ASCII text: same length, each letter lowered. */
  function ToLower(s: string): (r: string)
    ensures |r| == |s|
    ensures forall i :: 0 <= i < |s| ==> r[i] == LowerChar(s[i])
  {
    seq(|s|, i requires 0 <= i < |s| => LowerChar(s[i]))
  }

  /** `strings.EqualFold` on ASCII text. */
  predicate EqualFold(a: string, b: string)
  {
    ToLower(a) == ToLower(b)
  }
}

=== FILE: workflow.dfy ===
/** The workflow template: loading with its two checks, and preparing a job by
    escaping the user's text and substituting it for every placeholder.
    JSON parsing is the oracle `parsesAsObject`: whether `json.Unmarshal`
    into a `map[string]any` accepts the text. */
module Workflow {
  import opened Common
  import GoStrings
  import JsonString

  const PromptPlaceholder: string := "{{PROMPT}}"

  /** `WorkflowManager`: the template path and the last template that passed both checks. */
  datatype WorkflowManager = WorkflowManager(templatePath: string, template: string)

  datatype LoadError =
    | ReadFailed(cause: string)     // "read workflow file: ..."
    | InvalidJson                   // "invalid workflow JSON: ..."
    | MissingPlaceholder            // "workflow must contain {{PROMPT}} placeholder"

  datatype LoadResult = LoadResult(manager: WorkflowManager, error: Option<LoadError>)

  /** `Load` (and `Reload`, which is the same call): `file` is what reading the
      template path produced. The template is replaced only when the bytes parse
      and contain the placeholder; on every failure the old template stays. */
  function Load(wm: WorkflowManager, file: Result<string, string>, parsesAsObject: string -> bool): (r: LoadResult)
    ensures r.manager.templatePath == wm.templatePath
    ensures r.error.None? <==> file.Ok? && parsesAsObject(file.value)
                               && GoStrings.Contains(file.value, PromptPlaceholder)
    ensures r.error.None? ==> r.manager.template == file.value
    ensures r.error.Some? ==> r.manager == wm
    ensures file.Err? ==> r.error == Some(ReadFailed(file.error))
    ensures file.Ok? && !parsesAsObject(file.value) ==> r.error == Some(InvalidJson)
    ensures r.error == Some(MissingPlaceholder) <==>
              file.Ok? && parsesAsObject(file.value) && !GoStrings.Contains(file.value, PromptPlaceholder)
  {
    match file
    case Err(cause) => LoadResult(wm, Some(ReadFailed(cause)))
    case Ok(data) =>
      if !parsesAsObject(data) then LoadResult(wm, Some(InvalidJson))
      else if !GoStrings.Contains(data, PromptPlaceholder) then LoadResult(wm, Some(MissingPlaceholder))
      else LoadResult(wm.(template := data), None)
  }

  /** `NewWorkflowManager`: a manager exists only if the first load succeeds. */
  function NewWorkflowManager(templatePath: string, file: Result<string, string>, parsesAsObject: string -> bool)
    : (r: Result<WorkflowManager, LoadError>)
    ensures r.Ok? <==> Load(WorkflowManager(templatePath, ""), file, parsesAsObject).error.None?
    ensures r.Ok? ==> file.Ok? && r.value == WorkflowManager(templatePath, file.value)
                      && GoStrings.Contains(r.value.template, PromptPlaceholder)
                      && parsesAsObject(r.value.template)
    ensures r.Err? ==> Some(r.error) == Load(WorkflowManager(templatePath, ""), file, parsesAsObject).error
  {
    var loaded := Load(WorkflowManager(templatePath, ""), file, parsesAsObject);
    match loaded.error
    case Some(e) => Err(e)
    case None => Ok(loaded.manager)
  }

  /** The text `PrepareWorkflow` hands to the JSON parser. */
  function Substitute(template: string, userPrompt: string): string
  {
    GoStrings.ReplaceAll(template, PromptPlaceholder, JsonString.SanitizeForJson(userPrompt))
  }

  /** `PrepareWorkflow` fails only with "prompt created invalid JSON". */
  datatype PrepareError = CreatedInvalidJson

  /** `PrepareWorkflow`: the prepared job document is the substituted text,
      provided it parses. The manager is taken by value and not returned: the
      stored template cannot change. */
  function PrepareWorkflow(wm: WorkflowManager, userPrompt: string, parsesAsObject: string -> bool)
    : (r: Result<string, PrepareError>)
    ensures r.Ok? <==> parsesAsObject(GoStrings.Join(GoStrings.Split(wm.template, PromptPlaceholder),
                                                     JsonString.EscapeBody(userPrompt)))
    ensures r.Ok? ==> r.value == GoStrings.Join(GoStrings.Split(wm.template, PromptPlaceholder),
                                                JsonString.EscapeBody(userPrompt))
  {
    var modified := Substitute(wm.template, userPrompt);
    GoStrings.ReplaceAllIsJoinOfSplit(wm.template, PromptPlaceholder, JsonString.SanitizeForJson(userPrompt));
    if parsesAsObject(modified) then Ok(modified) else Err(CreatedInvalidJson)
  }

  /** The pieces between placeholders come through untouched, and each gap now
      holds text that decodes, as a JSON string body, to exactly the user's prompt. */
  lemma PreparedPiecesAndGaps(template: string, userPrompt: string)
    ensures var pieces := GoStrings.Split(template, PromptPlaceholder);
            && Substitute(template, userPrompt) == GoStrings.Join(pieces, JsonString.SanitizeForJson(userPrompt))
            && GoStrings.Join(pieces, PromptPlaceholder) == template
            && (forall i :: 0 <= i < |pieces| ==> !GoStrings.Contains(pieces[i], PromptPlaceholder))
            && JsonString.Unescape(JsonString.SanitizeForJson(userPrompt)) == Some(userPrompt)
  {
    GoStrings.ReplaceAllIsJoinOfSplit(template, PromptPlaceholder, JsonString.SanitizeForJson(userPrompt));
    GoStrings.JoinSplit(template, PromptPlaceholder);
    GoStrings.SplitPiecesAvoidSep(template, PromptPlaceholder);
    JsonString.SanitizeRoundTrip(userPrompt);
  }

  /** A prompt that is itself the placeholder is inserted verbatim and not
      substituted again: the template text comes back unchanged. */
  lemma PlaceholderPromptSurvives(template: string)
    ensures Substitute(template, PromptPlaceholder) == template
  {
    assert forall i :: 0 <= i < |PromptPlaceholder| ==> JsonString.PlainChar(PromptPlaceholder[i]);
    JsonString.EscapeBodyPlain(PromptPlaceholder);
    GoStrings.ReplaceAllWithSelf(template, PromptPlaceholder);
  }

  /** A failed reload keeps the template that was in use, so jobs prepared
      afterwards are the same as before. */
  lemma FailedReloadKeepsPreparing(wm: WorkflowManager, file: Result<string, string>,
                                   parsesAsObject: string -> bool, userPrompt: string)
    requires Load(wm, file, parsesAsObject).error.Some?
    ensures PrepareWorkflow(Load(wm, file, parsesAsObject).manager, userPrompt, parsesAsObject)
            == PrepareWorkflow(wm, userPrompt, parsesAsObject)
  {
  }
}
